=== FILE: README.md ===
# Weighted voting engine

A Dafny model of the weighted voting engine in
`internal/common/voting/VotingMethods.go`. Each of its six methods takes a
vote map (voter → candidate → score) and a weight table (voter → weight). It
returns one winning candidate, or uuid.Nil when there is no winner:

- **Plurality** credits each ballot's top score to that ballot's first choice.
- **Runoff** runs a first round like Plurality. If the leader has at least twice
  the runner-up's total, the leader wins at once. Otherwise a second round
  between the two finalists decides.
- **BordaCount** ranks each ballot's nonzero scores. With n candidates in
  the election, position i (from 0) earns (n − i + 1) × weight. When a ballot
  leaves k candidates unranked, each of them gets (k + 1)/2, the mean of the
  ranks 1..k. That share is not multiplied by the voter's weight.
- **InstantRunoff** recounts first choices among the remaining candidates and
  eliminates the weakest, until one candidate is left.
- **Approval** sums every positive score.
- **CopelandScoring** compares every ordered pair of candidates on each ballot
  and moves the voter's weight from the less preferred to the preferred one.

Every method first multiplies each score by its voter's weight. A voter
missing from the weight table has weight 0.

## How the model maps the code

- Go maps become `Tables.Table`: an association list with strictly ascending
  keys. A lookup of a missing key reads 0 (`Tables.Get`), as in Go.
  `m[k] += x` is `Tables.Credit` and `delete` is `Tables.Remove`.
- Go randomises map iteration order. The model iterates in ascending key
  order, so every "first seen wins" becomes "smallest id wins". This is the one
  deterministic tie rule of the whole model.
- float64 scores and weights are modelled as `real`. Candidate and voter ids
  are `int`. A uuid.Nil result is `Option.None`.
- Each method is a pure function built from tail-recursive folds that follow
  the Go loops. For each fold, an independent head-recursive total
  (`FirstPlaceTotal`, `BordaSum`, `RoundTotal`, `ApprovalTotal`,
  `CopelandTotal`) is the reference definition. A lemma proves that the fold
  computes exactly that total.
- Modules:
  - `Tables`: maps;
  - `Selection`: the argmax and argmin loops;
  - `Weighting`: the weighting prelude and the roll call of all candidates;
  - `Sums`: sums of reals under a common positive factor, used for the
    weight-scale results;
  - one module per method.

Where the code differs from the documented intent, the model follows the
code:

- **Borda points.** The top rank earns n + 1 points (line 188), not n.
- **Runoff ties.** A ballot scoring both finalists equally counts for the
  second finalist (line 122). Equal second-round totals also go to the
  second finalist (line 128).
- **Copeland pairs.** Both orders of every pair are visited (lines
  350-351). A differing pair therefore moves 2 × weight on each ballot, not
  1 × weight.
- **Weight-0 voters in Borda.** Ranked points are multiplied by the weight
  (line 189), but the share of the unranked candidates is not (line 198). A
  voter of weight 0 therefore still gives every candidate (n + 1)/2. When the
  ballot names a candidate nobody else names, n also grows. Such a voter cannot
  change the winner only when their ballot adds no candidate
  (`Borda.SilentVoterKeepsWinner`). Plurality, Runoff, Approval and
  CopelandScoring ignore such a voter outright (`Plurality.SilentVoterIgnored`,
  `Runoff.SilentVoterIgnored`, `Approval.SilentVoterIgnored`,
  `Copeland.SilentVoterIgnored`).
- **Weight-0 voters in InstantRunoff.** The roll call of lines 237-242 takes
  every candidate a ballot names, whatever the voter's weight. Line 261
  credits uuid.Nil with 0 for every ballot without a positive remaining
  score, and the ballot of every weight-0 voter is one. Take voter 1 with
  ballot {1: 0} and weight 1, and voter 2 with ballot {9: 5}, missing from the
  weight table. As written, the count then holds uuid.Nil, 1 and 9, all at 0,
  and depending on iteration order the source returns 1, 9 or uuid.Nil.
  Without voter 2 it returns 1 or uuid.Nil. In the model such a ballot
  credits nobody (see Findings). Candidates 1 and 9 tie at 0, the tie
  eliminates the smaller id 1, and 9 wins; without voter 2 the winner is 1
  (`InstantRunoff.SilentVoterDecides`). In both readings the weight-0 voter
  changes the result.
- **Borda and the scale of weights.** For the same reason, multiplying all
  weights by one positive factor can change the BordaCount winner. The ranked
  points scale with the factor; the unranked shares do not. Take ballots
  {1: 1}, {2: 1} and {2: 1, 3: 2}, where the omitted candidates score 0. With
  every weight 1 the totals are 6.5, 8.5 and 7, and 2 wins. With every weight
  0.1 they are 2.9, 2.2 and 3.4, and 3 wins (`Borda.WeightScaleChangesWinner`).
  The same effect means that a candidate scored strictly highest on every
  ballot need not win BordaCount, even where it wins Plurality. Take one voter with ballot {1: 1, 2: 0, 3: 0} and weight
  0.1. Candidate 1 earns 4 × 0.1 = 0.4; candidates 2 and 3 each get the
  unweighted 1.5; so 2 wins BordaCount while 1 wins Plurality
  (`Borda.LightVoterLosesFavourite`). For every weight k > 0, candidate 1 wins
  BordaCount exactly when 4k ≥ 1.5 (`Borda.TopOfEveryBallotCanLose`).
  The other five methods do not depend on the scale of the weights: the
  `ScaleFree` lemma of each of their modules proves that multiplying every
  weight by the same k > 0 leaves the result unchanged.
- **No validation.** Negative scores and weights are not rejected.

## Model

| member | source | states |
|---|---|---|
| Tables.CreditFacts | internal/common/voting/VotingMethods.go:46 | `m[k] += x` adds x to k's entry only, and inserts k when it was missing |
| Tables.TotalCredit | internal/common/voting/VotingMethods.go:359-363 | one `+=` of x raises the sum of all entries by exactly x |
| Tables.RemoveFacts | internal/common/voting/VotingMethods.go:274 | `delete` removes exactly the one key and shrinks the map by one when the key was present |
| Selection.Leader | internal/common/voting/VotingMethods.go:50-57 | the loop seeded with 0 returns a key of largest value, which must be positive; every smaller key holds strictly less; None iff no value is positive |
| Selection.LeaderIs | internal/common/voting/VotingMethods.go:50-57 | the leading positive key is unique, so any key that leads with a positive value is the one returned |
| Selection.Best | internal/common/voting/VotingMethods.go:369-377 | the Copeland loop always takes the first key and later only a strictly larger value; the result is the largest value, None only for an empty map |
| Selection.Weakest | internal/common/voting/VotingMethods.go:265-272 | the loop seeded with MaxFloat64 returns a key of smallest value, every smaller key holding strictly more; None only for an empty map |
| Selection.WeakestIs | internal/common/voting/VotingMethods.go:265-272 | any key that is least in that sense is the one the loop returns |
| Weighting.Weigh | internal/common/voting/VotingMethods.go:22-31 | every voter keeps their place, every ballot keeps its candidates, and each weighted score is the raw score times the voter's weight |
| Weighting.UnweightedVoterScoresZero | internal/common/voting/VotingMethods.go:25-28 | a voter of weight 0, in particular one missing from the weight table, has every weighted score equal to 0 |
| Weighting.MentionsWeighed | internal/common/voting/VotingMethods.go:22-31 | weighting does not change which candidates the ballots name |
| Weighting.WeighRemove | internal/common/voting/VotingMethods.go:22-31 | weighting after dropping a voter equals dropping that voter after weighting |
| Weighting.RollFacts | internal/common/voting/VotingMethods.go:159-164 | the roll call holds exactly the candidates named on some ballot, each with count 0 |
| Weighting.OnTheRoll | internal/common/voting/VotingMethods.go:237-242 | the roll call of the weighted ballots names exactly the candidates of the raw ballots |
| Plurality.TopChoice | internal/common/voting/VotingMethods.go:38-45 | a ballot's first choice has its largest score, which is positive, and every smaller id scores strictly less; None iff no score is positive |
| Plurality.CountFirstFacts | internal/common/voting/VotingMethods.go:37-47 | one ballot adds its top positive score to its first choice and nothing to anyone else |
| Plurality.FirstPlaceTallyIsTotal | internal/common/voting/VotingMethods.go:37-47 | the counting loop yields each candidate's first-place total, and its keys are exactly the candidates that are some ballot's first choice |
| Plurality.FirstPlaceTotalNonNegative | internal/common/voting/VotingMethods.go:38-46 | first-place totals are never negative |
| Plurality.Plurality | internal/common/voting/VotingMethods.go:16-61 | the winner is named on a ballot and has a positive first-place total no other candidate exceeds, with smaller ids strictly behind; None iff no total is positive |
| Plurality.SilentFirstPlace | internal/common/voting/VotingMethods.go:37-47 | dropping a ballot without a positive score leaves the whole first-place count unchanged |
| Plurality.SilentVoterIgnored | internal/common/voting/VotingMethods.go:16-61 | a voter of weight 0, in particular one missing from the weight table, cannot change the Plurality result |
| Runoff.TopTwo | internal/common/voting/VotingMethods.go:99-112 | the finalist scan returns positions inside the count table |
| Runoff.TopTwoFinalists | internal/common/voting/VotingMethods.go:99-112 | the scan finds the largest positive total and the largest positive total among the rest (earliest on ties), or reports that there is none |
| Runoff.FinalistFacts | internal/common/voting/VotingMethods.go:99-112 | the same finalists restated over the first-place totals of all candidates |
| Runoff.FirstFinalistIsPluralityWinner | internal/common/voting/VotingMethods.go:99-112 | the first finalist is exactly the Plurality winner |
| Runoff.SecondRoundTotals | internal/common/voting/VotingMethods.go:120-127 | in the second round the first finalist collects its score from ballots rating it strictly higher; the second collects from all others, ties included |
| Runoff.Runoff | internal/common/voting/VotingMethods.go:63-136 | the winner is named on a ballot and has a positive first-place total; at most one candidate has a larger one; None iff no total is positive |
| Runoff.RunoffShortcut | internal/common/voting/VotingMethods.go:114-117 | when the Plurality winner has at least twice every other first-place total, Runoff returns it without a second round |
| Runoff.RunoffSecondRound | internal/common/voting/VotingMethods.go:118-133 | otherwise the winner is the first finalist if its second-round total is strictly larger, else the second finalist |
| Runoff.SilentSecondRound | internal/common/voting/VotingMethods.go:120-127 | dropping a ballot of zeros changes neither finalist's second-round total |
| Runoff.SilentSettle | internal/common/voting/VotingMethods.go:85-133 | dropping a weighted ballot of zeros changes neither round, so it changes no Runoff decision |
| Runoff.SilentVoterIgnored | internal/common/voting/VotingMethods.go:63-136 | a voter of weight 0, in particular one missing from the weight table, cannot change the Runoff result |
| Borda.NonZeroFacts | internal/common/voting/VotingMethods.go:169-175 | dropping zero scores keeps exactly the nonzero entries with their scores |
| Borda.BallotRanking | internal/common/voting/VotingMethods.go:166-181 | a ballot's ranking lists each nonzero entry exactly once with its score, largest score first |
| Borda.ShareIsMeanRank | internal/common/voting/VotingMethods.go:194-198 | the shared points ((1 + k)·k/2)/k equal (k + 1)/2, the mean of the ranks 1..k |
| Borda.UnrankedLeavesRoom | internal/common/voting/VotingMethods.go:194-198 | when some candidate of the roll is unranked, the number of unranked candidates k is positive, so the division by k is never by 0 where it is used |
| Borda.CountBallotFacts | internal/common/voting/VotingMethods.go:185-201 | one voter's count adds exactly that voter's Points to every candidate of the roll and adds no key |
| Borda.BordaTallyIsSum | internal/common/voting/VotingMethods.go:184-201 | the counting loops yield each candidate's Borda total over all voters |
| Borda.PositionPoints | internal/common/voting/VotingMethods.go:187-189 | the candidate at 0-based position i of a ranking earns (n − i + 1) × weight |
| Borda.UnrankedPoints | internal/common/voting/VotingMethods.go:193-200 | a candidate of the roll that a ballot leaves unranked earns (k + 1)/2, whatever the voter's weight, with k > 0 the number of unranked candidates |
| Borda.UnweightedVoterPoints | internal/common/voting/VotingMethods.go:193-200 | a voter of weight 0, in particular one missing from the weight table, ranks nobody, so their ballot gives every candidate (n + 1)/2 |
| Borda.SilentVoterShift | internal/common/voting/VotingMethods.go:185-201 | a voter of weight 0 who names no candidate the others do not adds the same (n + 1)/2 to every candidate's total |
| Borda.SilentVoterKeepsWinner | internal/common/voting/VotingMethods.go:203-210 | so such a voter cannot change a BordaCount winner |
| Borda.BordaCount | internal/common/voting/VotingMethods.go:138-213 | the winner is named on a ballot and has a positive Borda total no other candidate exceeds, with smaller ids strictly behind; None iff no total is positive |
| Borda.RankTwo | internal/common/voting/VotingMethods.go:177-180 | any two-entry ranking, whatever the signs of its scores, puts the larger score first; on equal scores the first entry stays first |
| Borda.ScaleTotals | internal/common/voting/VotingMethods.go:185-200 | in the three-voter example with every weight k, the totals of candidates 1, 2, 3 are 4k + 2.5, 7k + 1.5 and 4k + 3 when k > 0; 6 each when k = 0; 4k + 2.5, 8k + 1.5 and 3k + 3 when k < 0; 0 for every other id |
| Borda.ScaleDecides | internal/common/voting/VotingMethods.go:138-213 | in that example BordaCount elects candidate 2 when k ≥ 1/2 and candidate 3 when 0 < k < 1/2 |
| Borda.WeightScaleChangesWinner | internal/common/voting/VotingMethods.go:188-198 | multiplying every weight by 0.1 changes that example's BordaCount winner from 2 to 3 |
| Borda.LoneTotals | internal/common/voting/VotingMethods.go:185-200 | with one voter of weight k ≠ 0 scoring 1 above 2 and 3, candidate 1 totals 4k and candidates 2 and 3 total 1.5 each |
| Borda.TopOfEveryBallotCanLose | internal/common/voting/VotingMethods.go:138-213 | for every k > 0 that voter's favourite 1 wins Plurality, but wins BordaCount only when 4k ≥ 1.5; otherwise 2 does |
| Borda.LightVoterLosesFavourite | internal/common/voting/VotingMethods.go:188-198 | at weight 0.1 that voter's favourite wins Plurality and loses BordaCount to 2 |
| Approval.ApproveAddsPoints | internal/common/voting/VotingMethods.go:307-311 | one ballot adds each strictly positive score to its candidate and ignores the rest |
| Approval.ApprovalTallyIsTotal | internal/common/voting/VotingMethods.go:306-312 | the counting loops yield the sum of each candidate's positive scores, keyed by exactly the candidates with some positive score |
| Approval.Approval | internal/common/voting/VotingMethods.go:285-325 | the winner is named on a ballot and has a positive approval total no other candidate exceeds, with smaller ids strictly behind; None iff no total is positive |
| Approval.ApproveNothing | internal/common/voting/VotingMethods.go:307-311 | a ballot without a positive score approves nobody and leaves the count as it was |
| Approval.SilentApproval | internal/common/voting/VotingMethods.go:306-312 | dropping such a ballot leaves the whole approval count unchanged |
| Approval.SilentVoterIgnored | internal/common/voting/VotingMethods.go:285-325 | a voter of weight 0, in particular one missing from the weight table, cannot change the Approval result |
| InstantRunoff.RestrictFacts | internal/common/voting/VotingMethods.go:255-256 | skipping eliminated keys keeps exactly the ballot's entries for candidates still in the race |
| InstantRunoff.FirstChoice | internal/common/voting/VotingMethods.go:252-260 | a ballot's first choice is a remaining candidate with the largest positive score among the remaining ones, smaller ids strictly behind; None iff it scores no remaining candidate positively |
| InstantRunoff.CountRoundFacts | internal/common/voting/VotingMethods.go:251-262 | a round's count adds each candidate's round total and no key |
| InstantRunoff.TallyFacts | internal/common/voting/VotingMethods.go:246-262 | after the reset, a round's count holds exactly the remaining candidates with their round totals |
| InstantRunoff.Loser | internal/common/voting/VotingMethods.go:264-272 | the eliminated candidate is still in the race and has the smallest round total, smaller ids strictly above |
| InstantRunoff.Eliminate | internal/common/voting/VotingMethods.go:244-275 | a round removes exactly one candidate, the loser, and keeps all others |
| InstantRunoff.Rounds | internal/common/voting/VotingMethods.go:245-275 | the elimination loop ends with exactly one candidate from the race, or none if the race was empty |
| InstantRunoff.InstantRunoff | internal/common/voting/VotingMethods.go:215-283 | the winner is a candidate named on some ballot, and there is no winner exactly when no ballot names anyone |
| InstantRunoff.FirstRoundIsPlurality | internal/common/voting/VotingMethods.go:251-262 | while every named candidate is in the race, a round counts exactly the Plurality first-place totals |
| InstantRunoff.RoundTotalGrows | internal/common/voting/VotingMethods.go:252-262 | a remaining candidate's count never falls when other candidates are eliminated |
| InstantRunoff.SurvivorsKeepTheirVotes | internal/common/voting/VotingMethods.go:264-274 | the candidates left after a round keep at least the count they had |
| Plurality.TopSumNonNegative | internal/common/voting/VotingMethods.go:37-47 | the sum of all ballots' top scores, the first-place points there are, is never negative |
| InstantRunoff.ChoiceBelowTop | internal/common/voting/VotingMethods.go:252-261 | in any round a ballot credits one candidate only, with at most the score of its overall first choice |
| InstantRunoff.TwoBelowTop | internal/common/voting/VotingMethods.go:251-262 | in any round two different candidates together hold at most all the first-place points |
| InstantRunoff.MajorityNotLoser | internal/common/voting/VotingMethods.go:264-272 | a candidate holding more than half of all first-place points is not eliminated while another candidate remains |
| InstantRunoff.MajorityLasts | internal/common/voting/VotingMethods.go:245-275 | such a candidate keeps its majority in every later round and is the last one standing |
| InstantRunoff.MajorityWinner | internal/common/voting/VotingMethods.go:215-283 | a candidate with more than half of all first-place points wins InstantRunoff, and also Plurality |
| InstantRunoff.StuckPass | internal/common/voting/VotingMethods.go:245-274 | as written, one pass over the example's two candidates eliminates nobody real: after the reset the count holds the same two candidates again |
| InstantRunoff.StuckCorrected | internal/common/voting/VotingMethods.go:245-274 | with no credit to uuid.Nil, the same example eliminates candidate 10 and leaves 20 |
| InstantRunoff.SilentVoterDecides | internal/common/voting/VotingMethods.go:237-275 | a voter of weight 0 can change the InstantRunoff winner: with the two-voter example the winner is 9, without its weight-0 voter it is 1 |
| InstantRunoff.NilKeepsTheLoopGoing | internal/common/voting/VotingMethods.go:252-272 | as written, the example's elimination loop returns to its starting state, so it never ends; the corrected model elects 20 |
| Copeland.Compare | internal/common/voting/VotingMethods.go:352-364 | one comparison moves the voter's weight to the preferred candidate and takes it from the other; equal scores or the same candidate change nothing; the sum of the map is unchanged |
| Copeland.AgainstGet | internal/common/voting/VotingMethods.go:351-365 | the inner loop gives candidate1 its weighted balance against the ballot, and each other entry the opposite of its comparison with candidate1 |
| Copeland.PairsGet | internal/common/voting/VotingMethods.go:350-366 | the middle loop over part of a ballot gives each candidate its own balance and its balance against that part |
| Copeland.BalanceIsScaledMargin | internal/common/voting/VotingMethods.go:358-363 | a candidate's weighted balance is the weight times (entries it beats − entries that beat it) |
| Copeland.BallotFacts | internal/common/voting/VotingMethods.go:350-366 | one ballot gives each of its candidates 2 × weight × (beaten − beaten by), puts exactly its contested candidates in the map, and leaves the sum unchanged |
| Copeland.CopelandTallyIsTotal | internal/common/voting/VotingMethods.go:346-367 | the counting loops yield each candidate's net Copeland score, keyed by exactly the candidates some ballot scores differently from another entry |
| Copeland.NetScoresSumToZero | internal/common/voting/VotingMethods.go:349-367 | the net scores always sum to 0 |
| Copeland.CopelandScoring | internal/common/voting/VotingMethods.go:327-380 | the winner is a contested candidate named on a ballot, with a net score no contested candidate exceeds and smaller ids strictly behind; None iff no ballot holds two different weighted scores |
| Copeland.WinnerNotBehind | internal/common/voting/VotingMethods.go:369-377 | the winner's net score is never negative, although the selection would accept a negative one |
| Copeland.SilentVoterIgnored | internal/common/voting/VotingMethods.go:333-367 | a voter of weight 0, in particular one missing from the weight table, cannot change the CopelandScoring result |
| Weighting.WeighScaled | internal/common/voting/VotingMethods.go:22-31 | weighting with every weight multiplied by k gives every weighted ballot multiplied by k |
| Selection.SelectionRescaled | internal/common/voting/VotingMethods.go:50-57 | when every value of a count is multiplied by the same k > 0, the argmax seeded with 0, the Copeland argmax and the argmin all return the same key |
| Plurality.FirstPlaceTallyScaled | internal/common/voting/VotingMethods.go:37-47 | counting ballots scaled by k > 0 gives the first-place count scaled by k |
| Plurality.ScaleFree | internal/common/voting/VotingMethods.go:16-61 | multiplying every voter's weight by the same k > 0 does not change the Plurality result |
| Runoff.SecondRoundScaled | internal/common/voting/VotingMethods.go:120-127 | on ballots scaled by k > 0 the first finalist's second-round total beats the second's exactly when it did before |
| Runoff.SettleScaled | internal/common/voting/VotingMethods.go:85-133 | on ballots scaled by k > 0 the finalists, the shortcut test and the second round all decide as before |
| Runoff.ScaleFree | internal/common/voting/VotingMethods.go:63-136 | multiplying every voter's weight by the same k > 0 does not change the Runoff result |
| Approval.ApprovalTallyScaled | internal/common/voting/VotingMethods.go:306-312 | counting ballots scaled by k > 0 gives the approval count scaled by k |
| Approval.ScaleFree | internal/common/voting/VotingMethods.go:285-325 | multiplying every voter's weight by the same k > 0 does not change the Approval result |
| Copeland.CopelandTallyScaled | internal/common/voting/VotingMethods.go:346-367 | with every weight multiplied by k > 0, the count of net scores is multiplied by k |
| Copeland.ScaleFree | internal/common/voting/VotingMethods.go:327-380 | multiplying every voter's weight by the same k > 0 does not change the CopelandScoring result |
| InstantRunoff.FirstChoiceScaled | internal/common/voting/VotingMethods.go:252-260 | a ballot scaled by k > 0 has the same first choice among the same remaining candidates |
| InstantRunoff.RoundOrderScaled | internal/common/voting/VotingMethods.go:251-262 | on ballots scaled by k > 0 one candidate's round total exceeds another's exactly when it did before |
| InstantRunoff.LoserScaled | internal/common/voting/VotingMethods.go:264-272 | on ballots scaled by k > 0 the same candidate is eliminated from the same remaining candidates |
| InstantRunoff.RoundsScaled | internal/common/voting/VotingMethods.go:243-275 | on ballots scaled by k > 0 the elimination loop leaves the same candidates standing |
| InstantRunoff.ScaleFree | internal/common/voting/VotingMethods.go:215-283 | multiplying every voter's weight by the same k > 0 does not change the InstantRunoff result |

## Left out

- float64 arithmetic is modelled as exact `real` arithmetic: rounding, overflow, infinities and NaN are not modelled. The `math.MaxFloat64` seed of line 265 is modelled as "no minimum yet".
- Go's randomised map iteration and the unstable `sort.Slice` of lines 177-180 are not modelled. Both are replaced by ascending id order, the model's single tie rule. A result that the source could pick differently on ties is therefore one of its possible results, not the only one.
- A candidate whose own id is uuid.Nil is not modelled: ids are plain integers, and no id plays the role of the zero UUID.
- Plurality.CountFirst: a ballot without a positive score credits nobody. The source credits uuid.Nil with 0 at lines 46 and 96, which cannot change the Plurality or Runoff result: a 0 total never beats the 0 seed.
- InstantRunoff.CountChoice: a ballot without a positive remaining score credits nobody. Line 261 as written credits uuid.Nil with 0. Here the Plurality reason does not hold: the elimination loop looks for the smallest count, and a 0 count for uuid.Nil takes part in that search. This has two effects. It can keep the loop from ending (see Findings). It can also make the source return uuid.Nil while real candidates remain. Take one voter with ballot {1: 0, 2: 0}: uuid.Nil ties at 0 with the candidates, so depending on iteration order the source returns 1, 2 or uuid.Nil, while the model returns 2. `CountChoiceAsWritten` models line 261 as written.
- Runoff.Runoff: the contract states "one of the two finalists" as "at most one candidate has a larger first-place total". The exact choice between the finalists is in Runoff.RunoffShortcut and Runoff.RunoffSecondRound.
- InstantRunoff.InstantRunoff: the contract only states that the winner is a named candidate. Which candidate wins follows from InstantRunoff.Rounds, InstantRunoff.Eliminate and InstantRunoff.Loser. The one winner criterion proved about the whole method is the majority rule of InstantRunoff.MajorityWinner; InstantRunoff.ScaleFree also proves that the winner does not depend on the scale of the weights. Unlike Plurality, Runoff, Approval and CopelandScoring, it does not ignore voters of weight 0: their candidates join the race (InstantRunoff.SilentVoterDecides).
- Borda.BordaCount: has no weight-scale invariance lemma, because the property fails. The unranked shares of line 198 are not multiplied by the weight, and Borda.WeightScaleChangesWinner exhibits a change of winner when every weight is multiplied by 0.1.
- Borda.SilentVoterKeepsWinner: requires that the election without the silent voter has a winner. When all totals are 0 without the voter, adding them makes every total positive, so a None can become a winner.
- Input validation (negative scores or weights) is absent from the source and is not modelled.
- The `kv` sort record (lines 11-14) is `Tables.Entry`. The rankings it builds are `Borda.Rank`.

## Findings

| source | as written | input that shows it | evidently intended | confidence | as-written member | corrected member |
|---|---|---|---|---|---|---|
| internal/common/voting/VotingMethods.go:252-274 | A ballot with no positive score for a remaining candidate adds 0 to `voteCount[uuid.Nil]`, which re-inserts uuid.Nil into the count. The ballot of every weight-0 voter is such a ballot. When every remaining candidate's count is positive, uuid.Nil is the unique weakest entry and is the one deleted. The pass ends with the same candidates it began with, so `len(voteCount)` never drops and the loop never ends. | Voters 1, 2, 3. Ballots {10: 1}, {20: 2}, {10: 1}. Weights {1: 1, 2: 1}, so voter 3 is missing and has weight 0. | Such a ballot credits nobody; each pass eliminates one real candidate; the loop ends with the sole survivor (20 here). | high (not executed) | InstantRunoff.NilKeepsTheLoopGoing | InstantRunoff.Eliminate |

=== FILE: approval.dfy ===
/** Approval (VotingMethods.go:285-325): every strictly positive weighted score
    counts, with its full value, for its candidate.
 */
module Approval {
  import opened Tables
  import opened Selection
  import opened Weighting

  /** What one ballot adds to candidate c: its score when positive, else nothing. */
  function ApprovalPoints(b: Ballot, c: Candidate): real {
    if Get(b, c) > 0.0 then Get(b, c) else 0.0
  }

  /** Candidate c's approval total over all ballots. */
  function ApprovalTotal(vs: VoteMap, c: Candidate): real
    decreases |vs|
  {
    if |vs| == 0 then 0.0 else ApprovalPoints(vs[0].value, c) + ApprovalTotal(vs[1..], c)
  }

  /** Some ballot gives c a strictly positive score. */
  predicate ApprovedBySome(vs: VoteMap, c: Candidate)
    decreases |vs|
  {
    |vs| > 0 && (Get(vs[0].value, c) > 0.0 || ApprovedBySome(vs[1..], c))
  }

  /** The inner loop over one ballot: `if value > 0 { voteCount[key] += value }`. */
  function Approve(acc: Scores, b: Ballot): Scores
    decreases |b|
  {
    if |b| == 0 then acc
    else
      var e := b[0];
      Approve(if e.value > 0.0 then Credit(acc, e.key, e.value) else acc, b[1..])
  }

  /** The outer loop over all ballots, in voter order. */
  function ApprovalTally(acc: Scores, vs: VoteMap): Scores
    decreases |vs|
  {
    if |vs| == 0 then acc else ApprovalTally(Approve(acc, vs[0].value), vs[1..])
  }

  lemma {:induction false} ApproveAddsPoints(acc: Scores, b: Ballot)
    ensures forall c :: Get(Approve(acc, b), c) == Get(acc, c) + ApprovalPoints(b, c)
    ensures forall c :: Has(Approve(acc, b), c) <==> Has(acc, c) || Get(b, c) > 0.0
    decreases |b|
  {
    if |b| > 0 {
      var e := b[0];
      var acc' := if e.value > 0.0 then Credit(acc, e.key, e.value) else acc;
      CreditFacts(acc, e.key, e.value);
      ApproveAddsPoints(acc', b[1..]);
      if |b| > 1 {
        NotBelowFirst(b[1..], e.key);
      }
      GetMissing(b[1..], e.key);
    }
  }

  /** The counting loops compute exactly the approval totals, and the counted
      candidates are those some ballot scores positively. */
  lemma {:induction false} ApprovalTallyIsTotal(acc: Scores, vs: VoteMap)
    ensures forall c :: Get(ApprovalTally(acc, vs), c) == Get(acc, c) + ApprovalTotal(vs, c)
    ensures forall c :: Has(ApprovalTally(acc, vs), c) <==> Has(acc, c) || ApprovedBySome(vs, c)
    decreases |vs|
  {
    if |vs| > 0 {
      ApproveAddsPoints(acc, vs[0].value);
      ApprovalTallyIsTotal(Approve(acc, vs[0].value), vs[1..]);
    }
  }

  lemma {:induction false} ApprovedMentioned(vs: VoteMap, c: Candidate)
    requires ApprovedBySome(vs, c)
    ensures Mentions(vs, c)
    decreases |vs|
  {
    if Get(vs[0].value, c) > 0.0 {
      if !Has(vs[0].value, c) {
        GetMissing(vs[0].value, c);
      }
    } else {
      ApprovedMentioned(vs[1..], c);
    }
  }

  /** The Approval winner: the candidate with the largest positive approval
      total, the smallest such candidate on a tie; None (uuid.Nil) when no
      total is positive. */
  function Approval(vm: VoteMap, w: Weights): (r: Option<Candidate>)
    ensures var vs := Weigh(vm, w);
      && (r.Some? ==> Mentions(vm, r.value) && ApprovalTotal(vs, r.value) > 0.0)
      && (r.Some? ==> forall c :: ApprovalTotal(vs, c) <= ApprovalTotal(vs, r.value))
      && (r.Some? ==> forall c :: c < r.value ==> ApprovalTotal(vs, c) < ApprovalTotal(vs, r.value))
      && (r.None? <==> forall c :: ApprovalTotal(vs, c) <= 0.0)
  {
    ApprovalLeader(vm, w);
    Leader(ApprovalTally([], Weigh(vm, w)))
  }

  lemma ApprovalLeader(vm: VoteMap, w: Weights)
    ensures var vs := Weigh(vm, w); var r := Leader(ApprovalTally([], vs));
      && (r.Some? ==> Mentions(vm, r.value) && ApprovalTotal(vs, r.value) > 0.0)
      && (r.Some? ==> forall c :: ApprovalTotal(vs, c) <= ApprovalTotal(vs, r.value))
      && (r.Some? ==> forall c :: c < r.value ==> ApprovalTotal(vs, c) < ApprovalTotal(vs, r.value))
      && (r.None? <==> forall c :: ApprovalTotal(vs, c) <= 0.0)
  {
    var vs := Weigh(vm, w);
    var t := ApprovalTally([], vs);
    ApprovalTallyIsTotal([], vs);
    var total := c => ApprovalTotal(vs, c);
    assert forall c :: Get(t, c) == total(c);
    LeaderOverTotals(t, total);
    if Leader(t).Some? {
      ApprovedMentioned(vs, Leader(t).value);
      MentionsWeighed(vm, w, Leader(t).value);
    }
  }

  /** A ballot without a positive score approves nobody. */
  lemma {:induction false} ApproveNothing(acc: Scores, b: Ballot)
    requires forall j :: 0 <= j < |b| ==> b[j].value <= 0.0
    ensures Approve(acc, b) == acc
    decreases |b|
  {
    if |b| > 0 {
      assert forall j :: 0 <= j < |b[1..]| ==> b[1..][j] == b[j + 1];
      ApproveNothing(acc, b[1..]);
    }
  }

  /** Dropping a ballot without a positive score leaves the count unchanged. */
  lemma {:induction false} SilentApproval(acc: Scores, vs: VoteMap, i: nat)
    requires i < |vs| && forall j :: 0 <= j < |vs[i].value| ==> vs[i].value[j].value <= 0.0
    ensures ApprovalTally(acc, Remove(vs, vs[i].key)) == ApprovalTally(acc, vs)
    decreases |vs|
  {
    if i == 0 {
      ApproveNothing(acc, vs[0].value);
    } else {
      var v := vs[i].key;
      var rest := Remove(vs[1..], v);
      assert vs[0].key != v;
      assert Remove(vs, v) == [vs[0]] + rest;
      assert ([vs[0]] + rest)[1..] == rest;
      assert vs[1..][i - 1] == vs[i];
      SilentApproval(Approve(acc, vs[0].value), vs[1..], i - 1);
    }
  }

  /** A voter of weight 0, in particular one missing from the weight table,
      cannot change the Approval result: their weighted ballot approves nobody. */
  lemma SilentVoterIgnored(vm: VoteMap, w: Weights, i: nat)
    requires i < |vm| && WeightOf(w, vm[i].key) == 0.0
    ensures Approval(vm, w) == Approval(Remove(vm, vm[i].key), w)
  {
    var vs := Weigh(vm, w);
    WeighRemove(vm, w, vm[i].key);
    UnweightedVoterScoresZero(vm, w, i);
    SilentApproval([], vs, i);
  }

  /** Scaling a ballot by k > 0 keeps the sign of every score, so it approves
      the same candidates with k times the points. */
  lemma {:induction false} ApproveScaled(acc: Scores, b: Ballot, k: real)
    requires k > 0.0
    ensures Approve(Scale(acc, k), Scale(b, k)) == Scale(Approve(acc, b), k)
    decreases |b|
  {
    if |b| > 0 {
      var e := b[0];
      var acc' := if e.value > 0.0 then Credit(acc, e.key, e.value) else acc;
      ApproveStepScaled(acc, b, k);
      ScaleTail(b, k);
      ApproveScaled(acc', b[1..], k);
    }
  }

  /** One step of the inner loop on a scaled ballot. */
  lemma ApproveStepScaled(acc: Scores, b: Ballot, k: real)
    requires k > 0.0 && |b| > 0
    ensures var e := b[0]; var se := Scale(b, k)[0];
      && se.key == e.key
      && (if se.value > 0.0 then Credit(Scale(acc, k), se.key, se.value) else Scale(acc, k))
         == Scale(if e.value > 0.0 then Credit(acc, e.key, e.value) else acc, k)
  {
    var e := b[0];
    var se := Scale(b, k)[0];
    assert se.key == e.key && se.value == e.value * k;
    ScaledOrder(0.0, e.value, k);
    if e.value > 0.0 {
      CreditScaled(acc, e.key, e.value, se.value, k);
    }
  }

  /** Counting the scaled ballots from a scaled start gives the count scaled. */
  lemma {:induction false} ApprovalTallyScaled(acc: Scores, vs: VoteMap, k: real)
    requires k > 0.0
    ensures ApprovalTally(Scale(acc, k), Rescale(vs, k)) == Scale(ApprovalTally(acc, vs), k)
    decreases |vs|
  {
    if |vs| > 0 {
      RescaleTail(vs, k);
      ApproveScaled(acc, vs[0].value, k);
      ApprovalTallyScaled(Approve(acc, vs[0].value), vs[1..], k);
    }
  }

  /** Multiplying every voter's weight by the same positive factor does not
      change the Approval winner: every approval total is multiplied by it. */
  lemma ScaleFree(vm: VoteMap, w: Weights, k: real)
    requires k > 0.0
    ensures Approval(vm, Scale(w, k)) == Approval(vm, w)
  {
    WeighScaled(vm, w, k);
    var t := ApprovalTally([], Weigh(vm, w));
    assert Scale([], k) == [];
    ApprovalTallyScaled([], Weigh(vm, w), k);
    SelectionRescaled(Scale(t, k), t, k);
  }
}

=== FILE: borda.dfy ===
/** BordaCount (VotingMethods.go:138-213): every ballot ranks its nonzero
    scores from the largest down; with n candidates in the election, the
    candidate at position i (from 0) earns (n - i + 1) times the voter's weight,
    and the candidates a ballot leaves unranked share the remaining points.
 */
module Borda {
  import opened Tables
  import opened Selection
  import opened Weighting
  import Plurality

  /** Lines 169-175: a ballot without its zero scores. */
  function NonZero(b: Ballot): (r: Ballot)
    ensures |r| > 0 ==> |b| > 0 && b[0].key <= r[0].key
    decreases |b|
  {
    if |b| == 0 then []
    else if b[0].value != 0.0 then [b[0]] + NonZero(b[1..])
    else NonZero(b[1..])
  }

  /** Dropping zero scores changes no lookup, and keeps exactly the nonzero ones. */
  lemma {:induction false} NonZeroFacts(b: Ballot)
    ensures forall c :: Get(NonZero(b), c) == Get(b, c)
    ensures forall c :: Has(NonZero(b), c) <==> Has(b, c) && Get(b, c) != 0.0
    decreases |b|
  {
    if |b| > 0 {
      NonZeroFacts(b[1..]);
      var k := b[0].key;
      if |b| > 1 {
        NotBelowFirst(b[1..], k);
      }
      GetMissing(b[1..], k);
      if b[0].value != 0.0 {
        assert NonZero(b)[1..] == NonZero(b[1..]);
      }
      forall c | c != k ensures Get(b, c) == Get(b[1..], c) && (Has(b, c) <==> Has(b[1..], c)) {
        TailHas(b, c);
      }
    }
  }

  lemma {:induction false} NonZeroOfZeros(b: Ballot)
    requires forall j :: 0 <= j < |b| ==> b[j].value == 0.0
    ensures NonZero(b) == []
    decreases |b|
  {
    if |b| > 0 {
      NonZeroOfZeros(b[1..]);
    }
  }

  /** No candidate occurs twice in a ranking. */
  predicate Distinct(r: seq<Entry<real>>) {
    forall i, j :: 0 <= i < j < |r| ==> r[i].key != r[j].key
  }

  /** Scores never increase along a ranking; equal scores are listed by
      ascending candidate. */
  predicate Descending(r: seq<Entry<real>>) {
    forall i, j :: 0 <= i < j < |r| ==> r[j].value < r[i].value || (r[j].value == r[i].value && r[i].key < r[j].key)
  }

  /** The `sort.Slice` of lines 177-180, largest score first. The Go sort is not
      stable and the map it sorts has no fixed order, so equal scores come out
      in no defined order; the model ranks them by ascending candidate. */
  function Rank(t: Scores): seq<Entry<real>>
    decreases |t|
  {
    match Best(t)
    case None => []
    case Some(c) =>
      RemoveFacts(t, c);
      [Entry(c, Get(t, c))] + Rank(Remove(t, c))
  }

  /** A ranking lists every entry of the map exactly once, each with its own
      score, from the largest score down. */
  lemma {:induction false} RankFacts(t: Scores)
    ensures |Rank(t)| == |t|
    ensures forall c :: Has(Rank(t), c) <==> Has(t, c)
    ensures forall i :: 0 <= i < |Rank(t)| ==> Rank(t)[i].value == Get(t, Rank(t)[i].key)
    ensures Distinct(Rank(t))
    ensures Descending(Rank(t))
    decreases |t|
  {
    match Best(t)
    case None =>
    case Some(c) =>
      var t' := Remove(t, c);
      RemoveFacts(t, c);
      RankFacts(t');
      var r' := Rank(t');
      var e := Entry(c, Get(t, c));
      assert Rank(t) == [e] + r';
      forall i | 0 <= i < |r'|
        ensures r'[i].key != c
        ensures r'[i].value == Get(t, r'[i].key)
        ensures r'[i].value < e.value || (r'[i].value == e.value && c < r'[i].key)
      {
        HasAt(r', i);
        GetRemove(t, c, r'[i].key);
        var j := IndexOf(t, r'[i].key);
        GetAt(t, j);
      }
      ConsRanking(e, r');
      forall d ensures Has([e] + r', d) <==> d == c || Has(r', d) {
        assert ([e] + r')[1..] == r';
      }
  }

  /** A ranking stays a ranking when a new first entry precedes everything in it. */
  lemma ConsRanking(e: Entry<real>, r: seq<Entry<real>>)
    requires Distinct(r) && Descending(r)
    requires forall i :: 0 <= i < |r| ==> r[i].key != e.key && (r[i].value < e.value || (r[i].value == e.value && e.key < r[i].key))
    ensures Distinct([e] + r) && Descending([e] + r)
  {
    var s := [e] + r;
    forall i, j | 0 <= i < j < |s|
      ensures s[i].key != s[j].key
      ensures s[j].value < s[i].value || (s[j].value == s[i].value && s[i].key < s[j].key)
    {
      assert s[j] == r[j - 1];
      if i > 0 {
        assert s[i] == r[i - 1];
      }
    }
  }

  /** Where candidate c stands in a ranking, counted from 0. */
  function Position(r: seq<Entry<real>>, c: Candidate): nat
    decreases |r|
  {
    if |r| == 0 then 0 else if r[0].key == c then 0 else 1 + Position(r[1..], c)
  }

  lemma {:induction false} PositionAt(r: seq<Entry<real>>, i: nat)
    requires Distinct(r) && i < |r|
    ensures Position(r, r[i].key) == i
    decreases i
  {
    if i > 0 {
      PositionAt(r[1..], i - 1);
    }
  }

  lemma FirstNotLater(r: seq<Entry<real>>)
    requires Distinct(r) && |r| > 0
    ensures !Has(r[1..], r[0].key)
  {
    if Has(r[1..], r[0].key) {
      var j := IndexOf(r[1..], r[0].key);
      assert false;
    }
  }

  /** Lines 197-199: the points shared among k unranked candidates,
      (1 + k) * k / 2 split k ways. The source divides by zero when k is 0;
      it then has no unranked candidate to give the quotient to. */
  function Share(k: int): real {
    if k <= 0 then 0.0 else ((1.0 + k as real) * k as real / 2.0) / k as real
  }

  /** Each unranked candidate receives the mean of the ranks 1 .. k. */
  lemma ShareIsMeanRank(k: int)
    requires k > 0
    ensures Share(k) == (k as real + 1.0) / 2.0
  {
    var x := k as real;
    var y := (x + 1.0) / 2.0;
    assert Share(k) == ((1.0 + x) * x / 2.0) / x;
    assert (1.0 + x) * x / 2.0 == y * x;
    assert ((1.0 + x) * x / 2.0) / x == (y * x) / x;
    assert (y * x) / x == y;
  }

  /** Lines 188-189: the points for position i (from 0) among n candidates, times the weight. */
  function Earned(n: nat, i: nat, wt: real): real {
    (n as real - i as real + 1.0) * wt
  }

  /** What one ballot gives candidate c in an election with n candidates:
      a ranked candidate gets (n - i + 1) times the weight at position i, an
      unranked one an even share of the rest, not multiplied by the weight. */
  function Points(b: Ballot, wt: real, n: nat, c: Candidate): real {
    Award(Rank(NonZero(b)), wt, n, c)
  }

  /** What the ranking r gives candidate c in an election with n candidates. */
  function Award(r: seq<Entry<real>>, wt: real, n: nat, c: Candidate): real {
    if Has(r, c) then Earned(n, Position(r, c), wt)
    else Share(n - |r|)
  }

  /** Candidate c's Borda total over all ballots, in an election with n candidates. */
  function BordaSum(vs: VoteMap, w: Weights, n: nat, c: Candidate): real
    decreases |vs|
  {
    if |vs| == 0 then 0.0 else Points(vs[0].value, WeightOf(w, vs[0].key), n, c) + BordaSum(vs[1..], w, n, c)
  }

  /** Candidate c's Borda total in the election: 0 for a candidate no ballot names. */
  function BordaTotal(vm: VoteMap, w: Weights, c: Candidate): real {
    var vs := Weigh(vm, w);
    if Mentions(vm, c) then BordaSum(vs, w, |Roll([], vs)|, c) else 0.0
  }

  /** What the ranking r, starting at position i, gives candidate c. */
  function RankedPoints(r: seq<Entry<real>>, i: nat, n: nat, wt: real, c: Candidate): real {
    if Has(r, c) then Earned(n, i + Position(r, c), wt) else 0.0
  }

  /** Lines 187-192: the ranked candidates earn points by position. */
  function RankPoints(acc: Scores, r: seq<Entry<real>>, i: nat, n: nat, wt: real): Scores
    decreases |r|
  {
    if |r| == 0 then acc
    else RankPoints(Credit(acc, r[0].key, Earned(n, i, wt)), r[1..], i + 1, n, wt)
  }

  /** Lines 197-203: every candidate of the roll the ballot left unranked gets x. */
  function AddShares(acc: Scores, ks: Scores, r: seq<Entry<real>>, x: real): Scores
    decreases |ks|
  {
    if |ks| == 0 then acc
    else AddShares(if Has(r, ks[0].key) then acc else Credit(acc, ks[0].key, x), ks[1..], r, x)
  }

  /** Lines 185-204 for one voter with weighted ballot b and weight wt. */
  function CountBallot(acc: Scores, b: Ballot, wt: real): Scores {
    CountRanking(acc, Rank(NonZero(b)), wt)
  }

  /** Lines 186-200 for the ranking r of one voter of weight wt. */
  function CountRanking(acc: Scores, r: seq<Entry<real>>, wt: real): Scores {
    var ranked := RankPoints(acc, r, 0, |acc|, wt);
    var k := |acc| - |r|;
    if k <= 0 then ranked else AddShares(ranked, ranked, r, Share(k))
  }

  /** Lines 185-205: every voter's ballot, in voter order. */
  function BordaTally(acc: Scores, vs: VoteMap, w: Weights): Scores
    decreases |vs|
  {
    if |vs| == 0 then acc else BordaTally(CountBallot(acc, vs[0].value, WeightOf(w, vs[0].key)), vs[1..], w)
  }

  lemma {:induction false} RankPointsFacts(acc: Scores, r: seq<Entry<real>>, i: nat, n: nat, wt: real)
    requires Distinct(r)
    requires forall j :: 0 <= j < |r| ==> Has(acc, r[j].key)
    ensures |RankPoints(acc, r, i, n, wt)| == |acc|
    ensures forall c :: Has(RankPoints(acc, r, i, n, wt), c) <==> Has(acc, c)
    ensures forall c :: Get(RankPoints(acc, r, i, n, wt), c) == Get(acc, c) + RankedPoints(r, i, n, wt, c)
    decreases |r|
  {
    if |r| > 0 {
      var x := Earned(n, i, wt);
      var acc' := Credit(acc, r[0].key, x);
      CreditFacts(acc, r[0].key, x);
      RankPointsFacts(acc', r[1..], i + 1, n, wt);
      FirstNotLater(r);
    }
  }

  lemma {:induction false} AddSharesFacts(acc: Scores, ks: Scores, r: seq<Entry<real>>, x: real)
    requires forall j :: 0 <= j < |ks| ==> Has(acc, ks[j].key)
    ensures |AddShares(acc, ks, r, x)| == |acc|
    ensures forall c :: Has(AddShares(acc, ks, r, x), c) <==> Has(acc, c)
    ensures forall c :: Get(AddShares(acc, ks, r, x), c) == Get(acc, c) + if Has(ks, c) && !Has(r, c) then x else 0.0
    decreases |ks|
  {
    if |ks| > 0 {
      var k := ks[0].key;
      var acc' := if Has(r, k) then acc else Credit(acc, k, x);
      CreditFacts(acc, k, x);
      AddSharesFacts(acc', ks[1..], r, x);
      forall c ensures Has(ks, c) <==> c == k || Has(ks[1..], c) {
        TailHas(ks, c);
      }
      if |ks| > 1 {
        NotBelowFirst(ks[1..], k);
      }
    }
  }

  /** A ranking drawn from the roll that misses one of its candidates is
      shorter than the roll, so the share of lines 197-203 is only ever
      handed out with at least one candidate left to share it. */
  lemma {:induction false} UnrankedLeavesRoom(acc: Scores, r: seq<Entry<real>>, c: Candidate)
    requires Distinct(r)
    requires forall j :: 0 <= j < |r| ==> Has(acc, r[j].key)
    requires Has(acc, c) && !Has(r, c)
    ensures |r| < |acc|
    decreases |r|
  {
    if |r| == 0 {
      var i := IndexOf(acc, c);
    } else {
      var acc' := Remove(acc, r[0].key);
      RemoveFacts(acc, r[0].key);
      UnrankedLeavesRoom(acc', r[1..], c);
    }
  }

  /** One voter's count adds exactly that voter's Points to every candidate of the roll. */
  lemma CountBallotFacts(acc: Scores, b: Ballot, wt: real)
    requires forall c :: Has(b, c) ==> Has(acc, c)
    ensures |CountBallot(acc, b, wt)| == |acc|
    ensures forall c :: Has(CountBallot(acc, b, wt), c) <==> Has(acc, c)
    ensures forall c :: Has(acc, c) ==> Get(CountBallot(acc, b, wt), c) == Get(acc, c) + Points(b, wt, |acc|, c)
  {
    RankedFromRoll(acc, b);
    CountRankingFacts(acc, Rank(NonZero(b)), wt);
  }

  /** A ranking drawn from the roll adds its Award to every candidate of the roll. */
  lemma CountRankingFacts(acc: Scores, r: seq<Entry<real>>, wt: real)
    requires Distinct(r)
    requires forall j :: 0 <= j < |r| ==> Has(acc, r[j].key)
    ensures |CountRanking(acc, r, wt)| == |acc|
    ensures forall c :: Has(CountRanking(acc, r, wt), c) <==> Has(acc, c)
    ensures forall c :: Has(acc, c) ==> Get(CountRanking(acc, r, wt), c) == Get(acc, c) + Award(r, wt, |acc|, c)
  {
    if |acc| - |r| > 0 {
      SharesAfterRanks(acc, r, wt);
    } else {
      AllRanked(acc, r, wt);
    }
  }

  /** Ranked points by position, then Share(k) for each of the k unranked candidates. */
  lemma SharesAfterRanks(acc: Scores, r: seq<Entry<real>>, wt: real)
    requires Distinct(r)
    requires forall j :: 0 <= j < |r| ==> Has(acc, r[j].key)
    requires |acc| - |r| > 0
    ensures var ranked := RankPoints(acc, r, 0, |acc|, wt);
      var t := AddShares(ranked, ranked, r, Share(|acc| - |r|));
      && |t| == |acc|
      && (forall c :: Has(t, c) <==> Has(acc, c))
      && (forall c :: Has(acc, c) ==> Get(t, c) == Get(acc, c) + Award(r, wt, |acc|, c))
  {
    var ranked := RankPoints(acc, r, 0, |acc|, wt);
    RankPointsFacts(acc, r, 0, |acc|, wt);
    forall j | 0 <= j < |ranked| ensures Has(acc, ranked[j].key) {
      HasAt(ranked, j);
    }
    AddSharesFacts(ranked, ranked, r, Share(|acc| - |r|));
  }

  /** A ranking that covers the roll: only ranked points. */
  lemma AllRanked(acc: Scores, r: seq<Entry<real>>, wt: real)
    requires Distinct(r)
    requires forall j :: 0 <= j < |r| ==> Has(acc, r[j].key)
    requires |acc| - |r| <= 0
    ensures var t := RankPoints(acc, r, 0, |acc|, wt);
      && |t| == |acc|
      && (forall c :: Has(t, c) <==> Has(acc, c))
      && (forall c :: Has(acc, c) ==> Get(t, c) == Get(acc, c) + Award(r, wt, |acc|, c))
  {
    RankPointsFacts(acc, r, 0, |acc|, wt);
    forall c | Has(acc, c) ensures Has(r, c) {
      if !Has(r, c) {
        UnrankedLeavesRoom(acc, r, c);
      }
    }
  }

  /** A ballot's ranking is a list of distinct candidates of the roll. */
  lemma RankedFromRoll(acc: Scores, b: Ballot)
    requires forall c :: Has(b, c) ==> Has(acc, c)
    ensures Distinct(Rank(NonZero(b)))
    ensures forall j :: 0 <= j < |Rank(NonZero(b))| ==> Has(acc, Rank(NonZero(b))[j].key)
  {
    var r := Rank(NonZero(b));
    NonZeroFacts(b);
    RankFacts(NonZero(b));
    forall j | 0 <= j < |r| ensures Has(acc, r[j].key) {
      HasAt(r, j);
    }
  }

  lemma {:induction false} BordaTallyIsSum(acc: Scores, vs: VoteMap, w: Weights)
    requires forall c :: Mentions(vs, c) ==> Has(acc, c)
    ensures |BordaTally(acc, vs, w)| == |acc|
    ensures forall c :: Has(BordaTally(acc, vs, w), c) <==> Has(acc, c)
    ensures forall c :: Has(acc, c) ==> Get(BordaTally(acc, vs, w), c) == Get(acc, c) + BordaSum(vs, w, |acc|, c)
    decreases |vs|
  {
    if |vs| > 0 {
      var wt := WeightOf(w, vs[0].key);
      CountBallotFacts(acc, vs[0].value, wt);
      BordaTallyIsSum(CountBallot(acc, vs[0].value, wt), vs[1..], w);
    }
  }

  /** The BordaCount winner: the candidate with the largest positive Borda
      total, the smallest such candidate on a tie; None (uuid.Nil) when no
      total is positive. */
  function BordaCount(vm: VoteMap, w: Weights): (r: Option<Candidate>)
    ensures r.Some? ==> Mentions(vm, r.value) && BordaTotal(vm, w, r.value) > 0.0
    ensures r.Some? ==> forall c :: BordaTotal(vm, w, c) <= BordaTotal(vm, w, r.value)
    ensures r.Some? ==> forall c :: c < r.value ==> BordaTotal(vm, w, c) < BordaTotal(vm, w, r.value)
    ensures r.None? <==> forall c :: BordaTotal(vm, w, c) <= 0.0
  {
    BordaLeader(vm, w);
    var vs := Weigh(vm, w);
    Leader(BordaTally(Roll([], vs), vs, w))
  }

  lemma BordaLeader(vm: VoteMap, w: Weights)
    ensures var vs := Weigh(vm, w); var r := Leader(BordaTally(Roll([], vs), vs, w));
      && (r.Some? ==> Mentions(vm, r.value) && BordaTotal(vm, w, r.value) > 0.0)
      && (r.Some? ==> forall c :: BordaTotal(vm, w, c) <= BordaTotal(vm, w, r.value))
      && (r.Some? ==> forall c :: c < r.value ==> BordaTotal(vm, w, c) < BordaTotal(vm, w, r.value))
      && (r.None? <==> forall c :: BordaTotal(vm, w, c) <= 0.0)
  {
    var vs := Weigh(vm, w);
    var u := Roll([], vs);
    RollFacts([], vs);
    BordaTallyIsSum(u, vs, w);
    var t := BordaTally(u, vs, w);
    forall c ensures Get(t, c) == BordaTotal(vm, w, c) && (Has(t, c) <==> Mentions(vm, c)) {
      MentionsWeighed(vm, w, c);
      if !Has(t, c) {
        GetMissing(t, c);
      }
    }
    var total := c => BordaTotal(vm, w, c);
    assert forall c :: Get(t, c) == total(c);
    LeaderOverTotals(t, total);
  }

  /** Lines 169-181: a ballot's ranking lists exactly its nonzero scores, each
      once, from the largest down, equal scores by ascending candidate. */
  lemma BallotRanking(b: Ballot)
    ensures forall c :: Has(Rank(NonZero(b)), c) <==> Has(b, c) && Get(b, c) != 0.0
    ensures forall i :: 0 <= i < |Rank(NonZero(b))| ==> Rank(NonZero(b))[i].value == Get(b, Rank(NonZero(b))[i].key)
    ensures Distinct(Rank(NonZero(b)))
    ensures Descending(Rank(NonZero(b)))
  {
    NonZeroFacts(b);
    RankFacts(NonZero(b));
  }

  /** Line 188: the candidate at position i of a ranking earns (n - i + 1) times the weight. */
  lemma PositionPoints(b: Ballot, wt: real, n: nat, i: nat)
    requires i < |Rank(NonZero(b))|
    ensures Points(b, wt, n, Rank(NonZero(b))[i].key) == (n as real - i as real + 1.0) * wt
  {
    RankFacts(NonZero(b));
    AwardAt(Rank(NonZero(b)), wt, n, i);
  }

  lemma AwardAt(r: seq<Entry<real>>, wt: real, n: nat, i: nat)
    requires Distinct(r) && i < |r|
    ensures Award(r, wt, n, r[i].key) == (n as real - i as real + 1.0) * wt
  {
    HasAt(r, i);
    PositionAt(r, i);
  }

  /** Lines 196-203: a candidate of the roll that the ballot leaves unranked
      earns (k + 1) / 2, k being the number of unranked candidates, whatever
      the voter's weight. */
  lemma UnrankedPoints(acc: Scores, b: Ballot, wt: real, c: Candidate)
    requires forall d :: Has(b, d) ==> Has(acc, d)
    requires Has(acc, c) && Get(b, c) == 0.0
    ensures var k := |acc| - |Rank(NonZero(b))|;
      k > 0 && Points(b, wt, |acc|, c) == (k as real + 1.0) / 2.0
  {
    var r := Rank(NonZero(b));
    RankedFromRoll(acc, b);
    BallotRanking(b);
    UnrankedLeavesRoom(acc, r, c);
    AwardUnranked(r, wt, |acc|, c);
  }

  lemma AwardUnranked(r: seq<Entry<real>>, wt: real, n: nat, c: Candidate)
    requires !Has(r, c) && |r| < n
    ensures Award(r, wt, n, c) == ((n - |r|) as real + 1.0) / 2.0
  {
    ShareIsMeanRank(n - |r|);
  }

  /** A voter of weight 0 (one missing from the weight table among them)
      ranks nobody, so every candidate gets the same (n + 1) / 2 from that
      ballot: the unranked share of lines 195-198 is not scaled by weight. */
  lemma UnweightedVoterPoints(vm: VoteMap, w: Weights, i: nat, n: nat)
    requires i < |vm| && WeightOf(w, vm[i].key) == 0.0 && n > 0
    ensures forall c :: Points(Weigh(vm, w)[i].value, WeightOf(w, vm[i].key), n, c) == (n as real + 1.0) / 2.0
  {
    UnweightedVoterScoresZero(vm, w, i);
    NonZeroOfZeros(Weigh(vm, w)[i].value);
    ShareIsMeanRank(n);
  }

  /** Dropping voter i from the sum takes away exactly that voter's points. */
  lemma {:induction false} SumRemove(vs: VoteMap, w: Weights, n: nat, i: nat, c: Candidate)
    requires i < |vs|
    ensures BordaSum(vs, w, n, c) == BordaSum(Remove(vs, vs[i].key), w, n, c) + Points(vs[i].value, WeightOf(w, vs[i].key), n, c)
    decreases i
  {
    if i > 0 {
      SumRemove(vs[1..], w, n, i - 1, c);
      var r := Remove(vs, vs[i].key);
      assert r[1..] == Remove(vs[1..], vs[i].key);
    }
  }

  /** Without a silent voter the election has the same candidates. */
  lemma SilentVoterSameRoll(vm: VoteMap, w: Weights, i: nat)
    requires i < |vm|
    requires forall c :: Has(vm[i].value, c) ==> Mentions(Remove(vm, vm[i].key), c)
    ensures forall c :: Mentions(vm, c) <==> Mentions(Remove(vm, vm[i].key), c)
    ensures |Roll([], Weigh(vm, w))| == |Roll([], Weigh(Remove(vm, vm[i].key), w))|
    ensures forall c :: Mentions(vm, c) ==> |Roll([], Weigh(vm, w))| > 0
  {
    var vm' := Remove(vm, vm[i].key);
    var u := Roll([], Weigh(vm, w));
    var u' := Roll([], Weigh(vm', w));
    RollFacts([], Weigh(vm, w));
    RollFacts([], Weigh(vm', w));
    forall c ensures (Mentions(vm, c) <==> Mentions(vm', c)) && (Has(u, c) <==> Has(u', c)) && (Has(u, c) <==> Mentions(vm, c)) {
      MentionsRemove(vm, i, c);
      MentionsWeighed(vm, w, c);
      MentionsWeighed(vm', w, c);
    }
    SameKeysSameLength(u, u');
  }

  /** A silent voter adds the same (n + 1) / 2 to every candidate's total. */
  lemma SilentVoterShift(vm: VoteMap, w: Weights, i: nat)
    requires i < |vm| && WeightOf(w, vm[i].key) == 0.0
    requires forall c :: Has(vm[i].value, c) ==> Mentions(Remove(vm, vm[i].key), c)
    requires exists c :: Mentions(vm, c)
    ensures var d := (|Roll([], Weigh(vm, w))| as real + 1.0) / 2.0;
      forall c :: BordaTotal(vm, w, c) == if Mentions(Remove(vm, vm[i].key), c) then BordaTotal(Remove(vm, vm[i].key), w, c) + d else 0.0
  {
    var v := vm[i].key;
    var vs := Weigh(vm, w);
    WeighRemove(vm, w, v);
    assert vs[i].key == v;
    SilentVoterSameRoll(vm, w, i);
    var n := |Roll([], vs)|;
    UnweightedVoterPoints(vm, w, i, n);
    forall c ensures BordaSum(vs, w, n, c) == BordaSum(Remove(vs, v), w, n, c) + (n as real + 1.0) / 2.0 {
      SumRemove(vs, w, n, i, c);
    }
  }

  /** A voter of weight 0, who names no candidate that others do not name,
      cannot change a BordaCount winner: the ballot adds the same (n + 1) / 2
      to every candidate. */
  lemma SilentVoterKeepsWinner(vm: VoteMap, w: Weights, i: nat)
    requires i < |vm| && WeightOf(w, vm[i].key) == 0.0
    requires forall c :: Has(vm[i].value, c) ==> Mentions(Remove(vm, vm[i].key), c)
    requires BordaCount(Remove(vm, vm[i].key), w).Some?
    ensures BordaCount(vm, w) == BordaCount(Remove(vm, vm[i].key), w)
  {
    var vm' := Remove(vm, vm[i].key);
    var a := BordaCount(vm', w).value;
    SilentVoterSameRoll(vm, w, i);
    assert Mentions(vm, a);
    SilentVoterShift(vm, w, i);
    assert BordaTotal(vm, w, a) > 0.0;
    var b := BordaCount(vm, w).value;
    assert BordaTotal(vm', w, b) == BordaTotal(vm', w, a);
    assert !(b < a);
    assert !(a < b);
  }

  /** Three voters and three candidates: voter 1 scores only candidate 1,
      voter 2 only candidate 2, voter 3 scores candidate 3 above candidate 2. */
  function ScaleVotes(): VoteMap {
    var a: Ballot := [Entry(1, 1.0), Entry(2, 0.0), Entry(3, 0.0)];
    var b: Ballot := [Entry(1, 0.0), Entry(2, 1.0), Entry(3, 0.0)];
    var c: Ballot := [Entry(1, 0.0), Entry(2, 1.0), Entry(3, 2.0)];
    [Entry(1, a), Entry(2, b), Entry(3, c)]
  }

  /** Every voter of ScaleVotes with the same weight k. */
  function Uniform(k: real): Weights {
    [Entry(1, k), Entry(2, k), Entry(3, k)]
  }

  /** ScaleVotes weighted by Uniform(k). */
  function ScaleBallots(k: real): VoteMap {
    var a: Ballot := [Entry(1, k), Entry(2, 0.0), Entry(3, 0.0)];
    var b: Ballot := [Entry(1, 0.0), Entry(2, k), Entry(3, 0.0)];
    var c: Ballot := [Entry(1, 0.0), Entry(2, k), Entry(3, 2.0 * k)];
    [Entry(1, a), Entry(2, b), Entry(3, c)]
  }

  /** A three-entry ballot scaled entry by entry. */
  lemma ScaleIs(b: Ballot, x: real, r: Ballot)
    requires |b| == |r| == 3
    requires r[0] == Entry(b[0].key, b[0].value * x)
    requires r[1] == Entry(b[1].key, b[1].value * x)
    requires r[2] == Entry(b[2].key, b[2].value * x)
    ensures Scale(b, x) == r
  {
    var s := Scale(b, x);
    assert |s| == 3;
    forall i | 0 <= i < 3
      ensures s[i] == r[i]
    {
      assert s[i].key == b[i].key && s[i].value == b[i].value * x;
      if i == 0 {
        assert r[i] == Entry(b[0].key, b[0].value * x);
      } else if i == 1 {
        assert r[i] == Entry(b[1].key, b[1].value * x);
      } else {
        assert r[i] == Entry(b[2].key, b[2].value * x);
      }
      assert s[i].key == r[i].key;
      assert s[i].value == r[i].value;
    }
    assert s == r;
  }

  lemma ScaleWeighing(k: real)
    ensures Weigh(ScaleVotes(), Uniform(k)) == ScaleBallots(k)
  {
    var vm := ScaleVotes();
    var w := Uniform(k);
    var vs := ScaleBallots(k);
    GetAt(w, 0);
    GetAt(w, 1);
    GetAt(w, 2);
    ScaleIs(vm[0].value, k, vs[0].value);
    ScaleIs(vm[1].value, k, vs[1].value);
    ScaleIs(vm[2].value, k, vs[2].value);
    WeighAt(vm, w, 0);
    WeighAt(vm, w, 1);
    WeighAt(vm, w, 2);
  }

  /** The candidates of ScaleVotes are 1, 2 and 3. */
  lemma ScaleMentions(c: Candidate)
    ensures Mentions(ScaleVotes(), c) <==> 1 <= c <= 3
  {
    var vm := ScaleVotes();
    assert Has(vm[0].value, c) <==> 1 <= c <= 3;
    if Mentions(vm, c) {
      assert Has(vm[0].value, c) || Has(vm[1].value, c) || Has(vm[2].value, c);
      assert vm[1].value[..] == vm[1].value;
    }
  }

  lemma ScaleRollCall(k: real)
    ensures |Roll([], ScaleBallots(k))| == 3
  {
    var vm := ScaleVotes();
    var w := Uniform(k);
    ScaleWeighing(k);
    OnTheRoll(vm, w);
    var three: Scores := [Entry(1, 0.0), Entry(2, 0.0), Entry(3, 0.0)];
    forall c ensures Has(Roll([], ScaleBallots(k)), c) <==> Has(three, c) {
      ScaleMentions(c);
    }
    SameKeysSameLength(Roll([], ScaleBallots(k)), three);
  }

  /** A one-entry map ranks as itself. */
  lemma RankOne(t: Scores, c: Candidate, x: real)
    requires t == [Entry(c, x)]
    ensures Rank(t) == t
  {
    var b := Best(t).value;
    assert Has(t, b);
    assert Remove(t, c) == [];
  }

  /** A two-entry map ranks its larger score first; on equal scores the
      smaller candidate, which is the first entry, stays first. */
  lemma RankTwo(t: Scores, a: Candidate, b: Candidate, x: real, y: real)
    requires t == [Entry(a, x), Entry(b, y)]
    ensures Rank(t) == if x < y then [Entry(b, y), Entry(a, x)] else t
  {
    GetAt(t, 0);
    GetAt(t, 1);
    if x < y {
      HasAt(t, 1);
      assert IsBest(t, b);
      BestUnique(t, b, Best(t).value);
      assert Remove(t, b) == [Entry(a, x)];
      RankOne(Remove(t, b), a, x);
    } else {
      HasAt(t, 0);
      assert IsBest(t, a);
      BestUnique(t, a, Best(t).value);
      assert Remove(t, a) == [Entry(b, y)];
      RankOne(Remove(t, a), b, y);
    }
  }

  /** Dropping the zero scores of a three-entry ballot. */
  lemma NonZeroThree(b: Ballot, r: Ballot)
    requires |b| == 3
    requires r == Kept(b[0]) + (Kept(b[1]) + Kept(b[2]))
    ensures NonZero(b) == r
  {
    var b1 := b[1..];
    var b2 := b1[1..];
    assert b1[0] == b[1] && b2[0] == b[2] && |b2[1..]| == 0;
    NonZeroStep(b2);
    assert NonZero(b2) == Kept(b[2]);
    NonZeroStep(b1);
    NonZeroStep(b);
  }

  /** An entry as NonZero keeps it: itself when its score is nonzero, nothing otherwise. */
  function Kept(e: Entry<real>): seq<Entry<real>> {
    if e.value != 0.0 then [e] else []
  }

  lemma NonZeroStep(b: Ballot)
    requires |b| > 0
    ensures NonZero(b) == Kept(b[0]) + NonZero(b[1..])
  {
  }

  /** With three candidates, a ballot ranking one candidate gives it 3 + 1
      times the weight and each of the two others an unweighted 1.5. */
  lemma AwardOne(c: Candidate, x: real, wt: real, d: Candidate)
    ensures Award([Entry(c, x)], wt, 3, d) == if d == c then 4.0 * wt else 1.5
  {
    var r := [Entry(c, x)];
    assert |r[1..]| == 0;
    assert Has(r, d) <==> d == c;
    ShareIsMeanRank(2);
  }

  /** With three candidates, a ballot ranking two gives them 4 and 3 times the
      weight and the third an unweighted 1. */
  lemma AwardTwo(a: Candidate, b: Candidate, x: real, y: real, wt: real, d: Candidate)
    requires a != b
    ensures Award([Entry(a, x), Entry(b, y)], wt, 3, d) == if d == a then 4.0 * wt else if d == b then 3.0 * wt else 1.0
  {
    var r := [Entry(a, x), Entry(b, y)];
    assert r[1..] == [Entry(b, y)];
    assert |r[1..][1..]| == 0;
    assert Has(r[1..], d) <==> d == b;
    assert Has(r, d) <==> d == a || d == b;
    assert Position(r, b) == 1;
    ShareIsMeanRank(1);
  }

  lemma SumOfThree(vs: VoteMap, w: Weights, n: nat, c: Candidate)
    requires |vs| == 3
    ensures BordaSum(vs, w, n, c) ==
      Points(vs[0].value, WeightOf(w, vs[0].key), n, c)
      + Points(vs[1].value, WeightOf(w, vs[1].key), n, c)
      + Points(vs[2].value, WeightOf(w, vs[2].key), n, c)
  {
    var t1 := vs[1..];
    var t2 := t1[1..];
    assert t1[0] == vs[1] && t2[0] == vs[2] && |t2[1..]| == 0;
    assert BordaSum(t2[1..], w, n, c) == 0.0;
    assert BordaSum(t2, w, n, c) == Points(vs[2].value, WeightOf(w, vs[2].key), n, c);
    assert BordaSum(t1, w, n, c) == Points(vs[1].value, WeightOf(w, vs[1].key), n, c) + BordaSum(t2, w, n, c);
  }

  /** A ballot whose only nonzero score is x for candidate c, cast with weight wt. */
  lemma PointsOne(b: Ballot, c: Candidate, x: real, wt: real, d: Candidate)
    requires NonZero(b) == [Entry(c, x)]
    ensures Points(b, wt, 3, d) == if d == c then 4.0 * wt else 1.5
  {
    RankOne(NonZero(b), c, x);
    AwardOne(c, x, wt, d);
  }

  /** A ballot whose nonzero scores are x for a and y for c, cast with weight
      wt: the candidate with the larger score, a on a tie, gets 4 times the
      weight and the other 3 times. */
  lemma PointsTwo(b: Ballot, a: Candidate, c: Candidate, x: real, y: real, wt: real, d: Candidate)
    requires NonZero(b) == [Entry(a, x), Entry(c, y)]
    ensures var (hi, lo) := if x < y then (c, a) else (a, c);
      Points(b, wt, 3, d) == if d == hi then 4.0 * wt else if d == lo then 3.0 * wt else 1.0
  {
    RankTwo(NonZero(b), a, c, x, y);
    if x < y {
      AwardTwo(c, a, y, x, wt, d);
    } else {
      AwardTwo(a, c, x, y, wt, d);
    }
  }

  /** A ballot with no nonzero score ranks nobody: with three candidates each
      gets the unweighted mean rank 2. */
  lemma PointsNone(b: Ballot, wt: real, d: Candidate)
    requires NonZero(b) == []
    ensures Points(b, wt, 3, d) == 2.0
  {
    assert Best(NonZero(b)).None?;
    assert !Has(Rank(NonZero(b)), d);
    ShareIsMeanRank(3);
  }

  /** What each ballot of ScaleBallots(k) gives candidate c, with weight k:
      at k = 0 no ballot ranks anybody and every candidate gets 2. */
  lemma ZeroVoterPoints(b: Ballot, c: Candidate)
    requires |b| == 3 && b[0].value == 0.0 && b[1].value == 0.0 && b[2].value == 0.0
    ensures Points(b, 0.0, 3, c) == 2.0
  {
    assert Kept(b[0]) == [] && Kept(b[1]) == [] && Kept(b[2]) == [];
    NonZeroThree(b, []);
    PointsNone(b, 0.0, c);
  }

  lemma FirstVoterPoints(b: Ballot, k: real, c: Candidate)
    requires b == [Entry(1, k), Entry(2, 0.0), Entry(3, 0.0)] && k != 0.0
    ensures Points(b, k, 3, c) == if c == 1 then 4.0 * k else 1.5
  {
    assert Kept(b[0]) == [Entry(1, k)] && Kept(b[1]) == [] && Kept(b[2]) == [];
    NonZeroThree(b, [Entry(1, k)]);
    PointsOne(b, 1, k, k, c);
  }

  lemma SecondVoterPoints(b: Ballot, k: real, c: Candidate)
    requires b == [Entry(1, 0.0), Entry(2, k), Entry(3, 0.0)] && k != 0.0
    ensures Points(b, k, 3, c) == if c == 2 then 4.0 * k else 1.5
  {
    assert Kept(b[0]) == [] && Kept(b[1]) == [Entry(2, k)] && Kept(b[2]) == [];
    NonZeroThree(b, [Entry(2, k)]);
    PointsOne(b, 2, k, k, c);
  }

  /** The third ballot ranks 3 above 2 for a positive k and 2 above 3 for a
      negative one, since then k > 2k. */
  lemma ThirdVoterPoints(b: Ballot, k: real, c: Candidate)
    requires b == [Entry(1, 0.0), Entry(2, k), Entry(3, 2.0 * k)] && k != 0.0
    ensures var (hi, lo) := if k > 0.0 then (3, 2) else (2, 3);
      Points(b, k, 3, c) == if c == hi then 4.0 * k else if c == lo then 3.0 * k else 1.0
  {
    var x, y := Entry(2, k), Entry(3, 2.0 * k);
    assert Kept(b[0]) == [] && Kept(b[1]) == [x] && Kept(b[2]) == [y];
    assert [] + ([x] + [y]) == [x, y];
    NonZeroThree(b, [x, y]);
    PointsTwo(b, 2, 3, k, 2.0 * k, k, c);
  }

  lemma ScaleSum(vs: VoteMap, w: Weights, k: real, c: Candidate)
    requires vs == ScaleBallots(k) && w == Uniform(k)
    ensures BordaSum(vs, w, 3, c) ==
      if k == 0.0 then 6.0
      else if c == 1 then 4.0 * k + 2.5
      else if c == 2 then (if k > 0.0 then 7.0 * k + 1.5 else 8.0 * k + 1.5)
      else if c == 3 then (if k > 0.0 then 4.0 * k + 3.0 else 3.0 * k + 3.0)
      else 4.0
  {
    GetAt(w, 0);
    GetAt(w, 1);
    GetAt(w, 2);
    SumOfThree(vs, w, 3, c);
    if k == 0.0 {
      ZeroVoterPoints(vs[0].value, c);
      ZeroVoterPoints(vs[1].value, c);
      ZeroVoterPoints(vs[2].value, c);
    } else {
      FirstVoterPoints(vs[0].value, k, c);
      SecondVoterPoints(vs[1].value, k, c);
      ThirdVoterPoints(vs[2].value, k, c);
    }
  }

  /** The Borda totals of ScaleVotes when every voter has weight k. At k = 0
      nobody is ranked and each candidate gets the mean rank 2 from each of
      the three ballots; a negative k reverses the third ballot's ranking. */
  lemma ScaleTotals(k: real, c: Candidate)
    ensures BordaTotal(ScaleVotes(), Uniform(k), c) ==
      if !(1 <= c <= 3) then 0.0
      else if k == 0.0 then 6.0
      else if c == 1 then 4.0 * k + 2.5
      else if c == 2 then (if k > 0.0 then 7.0 * k + 1.5 else 8.0 * k + 1.5)
      else (if k > 0.0 then 4.0 * k + 3.0 else 3.0 * k + 3.0)
  {
    ScaleMentions(c);
    ScaleWeighing(k);
    ScaleRollCall(k);
    ScaleSum(ScaleBallots(k), Uniform(k), k, c);
  }

  /** The BordaCount winner of ScaleVotes depends on the common weight k:
      candidate 2 for k >= 1/2, candidate 3 below. Multiplying every weight by
      the same factor can therefore change the winner, because lines 188-189
      scale the ranked points by the weight and lines 195-198 leave the
      unranked share unscaled. */
  lemma ScaleDecides(k: real)
    requires k > 0.0
    ensures BordaCount(ScaleVotes(), Uniform(k)) == if k >= 0.5 then Some(2) else Some(3)
  {
    var vm := ScaleVotes();
    var w := Uniform(k);
    ScaleTotals(k, 1);
    ScaleTotals(k, 2);
    ScaleTotals(k, 3);
    var r := BordaCount(vm, w);
    assert r.Some?;
    var x := r.value;
    ScaleMentions(x);
    ScaleTotals(k, x);
  }

  /** Weights 1 and weights 0.1 elect different BordaCount winners. */
  lemma WeightScaleChangesWinner()
    ensures BordaCount(ScaleVotes(), Uniform(1.0)) == Some(2)
    ensures BordaCount(ScaleVotes(), Uniform(0.1)) == Some(3)
  {
    ScaleDecides(1.0);
    ScaleDecides(0.1);
  }

  /** One voter, who scores candidate 1 above candidates 2 and 3. */
  function LoneVotes(): VoteMap {
    var a: Ballot := [Entry(1, 1.0), Entry(2, 0.0), Entry(3, 0.0)];
    [Entry(1, a)]
  }

  function LoneWeights(k: real): Weights {
    [Entry(1, k)]
  }

  /** LoneVotes weighted by k. */
  function LoneBallots(k: real): VoteMap {
    var a: Ballot := [Entry(1, k), Entry(2, 0.0), Entry(3, 0.0)];
    [Entry(1, a)]
  }

  lemma LoneWeighing(k: real)
    ensures Weigh(LoneVotes(), LoneWeights(k)) == LoneBallots(k)
  {
    var vm := LoneVotes();
    var w := LoneWeights(k);
    GetAt(w, 0);
    ScaleIs(vm[0].value, k, LoneBallots(k)[0].value);
    WeighAt(vm, w, 0);
  }

  /** The candidates of LoneVotes are 1, 2 and 3. */
  lemma LoneMentions(c: Candidate)
    ensures Mentions(LoneVotes(), c) <==> 1 <= c <= 3
  {
    var vm := LoneVotes();
    assert Has(vm[0].value, c) <==> 1 <= c <= 3;
    assert |vm[1..]| == 0;
  }

  lemma LoneRollCall(k: real)
    ensures |Roll([], LoneBallots(k))| == 3
  {
    LoneWeighing(k);
    OnTheRoll(LoneVotes(), LoneWeights(k));
    var three: Scores := [Entry(1, 0.0), Entry(2, 0.0), Entry(3, 0.0)];
    forall c ensures Has(Roll([], LoneBallots(k)), c) <==> Has(three, c) {
      LoneMentions(c);
    }
    SameKeysSameLength(Roll([], LoneBallots(k)), three);
  }

  /** The Borda totals of LoneVotes with weight k != 0: the ranked candidate
      earns 4k, each of the two unranked ones an unweighted 1.5. */
  lemma LoneTotals(k: real, c: Candidate)
    requires k != 0.0
    ensures BordaTotal(LoneVotes(), LoneWeights(k), c) ==
      if !(1 <= c <= 3) then 0.0 else if c == 1 then 4.0 * k else 1.5
  {
    LoneMentions(c);
    LoneWeighing(k);
    LoneRollCall(k);
    var vs := LoneBallots(k);
    var w := LoneWeights(k);
    GetAt(w, 0);
    assert |vs[1..]| == 0;
    assert BordaSum(vs, w, 3, c) == Points(vs[0].value, k, 3, c);
    FirstVoterPoints(vs[0].value, k, c);
  }

  /** Candidate 1 is the only positive score of the only ballot, so Plurality
      elects it for every positive weight k; BordaCount elects it only when
      4k reaches the 1.5 the unranked candidates get regardless of k, and
      otherwise elects 2, the smaller of the two unranked candidates. */
  lemma TopOfEveryBallotCanLose(k: real)
    requires k > 0.0
    ensures Plurality.Plurality(LoneVotes(), LoneWeights(k)) == Some(1)
    ensures BordaCount(LoneVotes(), LoneWeights(k)) == if 4.0 * k >= 1.5 then Some(1) else Some(2)
  {
    var vm := LoneVotes();
    var w := LoneWeights(k);
    LoneWeighing(k);
    var vs := LoneBallots(k);
    var b := vs[0].value;
    assert IsBest(b, 1) && Get(b, 1) == k;
    forall c | c != 1 ensures Plurality.FirstPlaceTotal(vs, c) == 0.0 {
      assert |vs[1..]| == 0;
      if Has(b, c) {
        assert c == 2 || c == 3;
        assert Get(b, c) == 0.0;
      } else {
        GetMissing(b, c);
      }
    }
    assert |vs[1..]| == 0;
    assert Plurality.FirstPlaceTotal(vs, 1) == k;
    var p := Plurality.Plurality(vm, w);
    assert p.Some?;
    LoneTotals(k, 1);
    LoneTotals(k, 2);
    LoneTotals(k, 3);
    var r := BordaCount(vm, w);
    assert r.Some?;
    LoneMentions(r.value);
    LoneTotals(k, r.value);
  }

  /** At weight 0.1 the ballot's clear favourite loses BordaCount to 2. */
  lemma LightVoterLosesFavourite()
    ensures Plurality.Plurality(LoneVotes(), LoneWeights(0.1)) == Some(1)
    ensures BordaCount(LoneVotes(), LoneWeights(0.1)) == Some(2)
  {
    TopOfEveryBallotCanLose(0.1);
  }
}

=== FILE: copeland.dfy ===
/** CopelandScoring (VotingMethods.go:327-380): every ordered pair of distinct
    candidates on a ballot is compared by weighted score, and the preferred
    one gains the voter's weight while the other loses it.
 */
module Copeland {
  import opened Tables
  import opened Selection
  import opened Weighting

  /** The direction of a comparison: 1 when a is preferred, -1 when b is, 0 on a tie. */
  function Sign(a: real, b: real): real {
    if a > b then 1.0 else if a < b then -1.0 else 0.0
  }

  /** The pairwise balance of a candidate scored s on ballot b: the number of
      entries of b it beats minus the number that beat it. */
  function Margin(b: Ballot, s: real): real
    decreases |b|
  {
    if |b| == 0 then 0.0 else Sign(s, b[0].value) + Margin(b[1..], s)
  }

  /** Some entry of b scores other than s. */
  predicate Differs(b: Ballot, s: real)
    decreases |b|
  {
    |b| > 0 && (b[0].value != s || Differs(b[1..], s))
  }

  /** c is on ballot b and some other entry of b scores differently. */
  predicate Contested(b: Ballot, c: Candidate) {
    Has(b, c) && Differs(b, Get(b, c))
  }

  /** c is contested on some ballot. */
  predicate ContestedOnSome(vs: VoteMap, c: Candidate)
    decreases |vs|
  {
    |vs| > 0 && (Contested(vs[0].value, c) || ContestedOnSome(vs[1..], c))
  }

  /** What one ballot, cast with weight x, adds to c's net score: c meets every
      other entry twice, once as candidate1 and once as candidate2. */
  function CopelandPoints(b: Ballot, x: real, c: Candidate): real {
    if Has(b, c) then 2.0 * x * Margin(b, Get(b, c)) else 0.0
  }

  /** Candidate c's net Copeland score: the weighted wins minus the weighted
      losses over all pairwise comparisons of all ballots. */
  function CopelandTotal(vs: VoteMap, w: Weights, c: Candidate): real
    decreases |vs|
  {
    if |vs| == 0 then 0.0 else CopelandPoints(vs[0].value, WeightOf(w, vs[0].key), c) + CopelandTotal(vs[1..], w, c)
  }

  /** What a voter of weight x moves to the side scored a in a comparison with
      the side scored b: x when a is preferred, -x when b is, nothing on a tie.
      Sign and Margin above are the reference definition, a count times the
      weight; Signed and Balance are the same quantity in the shape the loops
      of lines 333-367 accumulate it, one weight at a time and without a
      product. BalanceIsScaledMargin states that the two agree. */
  function Signed(x: real, a: real, b: real): real {
    if a > b then x else if a < b then -x else 0.0
  }

  /** The weighted balance of a candidate scored s on ballot b: Signed summed
      over all entries of b. */
  function Balance(b: Ballot, s: real, x: real): real
    decreases |b|
  {
    if |b| == 0 then 0.0 else Signed(x, s, b[0].value) + Balance(b[1..], s, x)
  }

  /** What one comparison of c1 (scored s1) with c2 (scored s2) adds to d. */
  function CompareGain(c1: Candidate, s1: real, c2: Candidate, s2: real, x: real, d: Candidate): real {
    (if c1 != c2 && d == c1 then Signed(x, s1, s2) else 0.0) + (if c1 != c2 && d == c2 then Signed(x, s2, s1) else 0.0)
  }

  /** Lines 352-364, one comparison of candidate1 (scored s1) with candidate2
      (scored s2) by a voter of weight x: the preferred one gains x, the other
      loses x; a candidate is not compared with itself, and equal scores
      change nothing. */
  function Compare(acc: Scores, c1: Candidate, s1: real, c2: Candidate, s2: real, x: real): (r: Scores)
    ensures forall d :: Get(r, d) == Get(acc, d) + CompareGain(c1, s1, c2, s2, x, d)
    ensures forall d :: Has(r, d) <==> Has(acc, d) || (c1 != c2 && s1 != s2 && (d == c1 || d == c2))
    ensures Total(r) == Total(acc)
  {
    if c1 == c2 || s1 == s2 then acc
    else CompareStep(acc, c1, s1, c2, s2, x); Move(acc, c1, c2, Stake(s1, s2, x))
  }

  /** What candidate1 gains from a comparison it wins (x) or loses (-x). */
  function Stake(s1: real, s2: real, x: real): real {
    if s1 > s2 then x else -x
  }

  /** candidate1 gains y and candidate2 loses it (y is negative when candidate2 is preferred). */
  function Move(acc: Scores, c1: Candidate, c2: Candidate, y: real): Scores {
    Credit(Credit(acc, c1, y), c2, -y)
  }

  /** A comparison of two different candidates with different scores moves x to the preferred one. */
  lemma CompareStep(acc: Scores, c1: Candidate, s1: real, c2: Candidate, s2: real, x: real)
    requires c1 != c2 && s1 != s2
    ensures forall d :: Get(Move(acc, c1, c2, Stake(s1, s2, x)), d) == Get(acc, d) + CompareGain(c1, s1, c2, s2, x, d)
    ensures forall d :: Has(Move(acc, c1, c2, Stake(s1, s2, x)), d) <==> Has(acc, d) || (c1 != c2 && s1 != s2 && (d == c1 || d == c2))
    ensures Total(Move(acc, c1, c2, Stake(s1, s2, x))) == Total(acc)
  {
    var y := Stake(s1, s2, x);
    CreditFacts(acc, c1, y);
    CreditFacts(Credit(acc, c1, y), c2, -y);
    TotalCredit(acc, c1, y);
    TotalCredit(Credit(acc, c1, y), c2, -y);
  }

  /** The innermost loop (lines 351-365): candidate1 against every entry of the ballot. */
  function Against(acc: Scores, c1: Candidate, s1: real, b: Ballot, x: real): Scores
    decreases |b|
  {
    if |b| == 0 then acc else Against(Compare(acc, c1, s1, b[0].key, b[0].value, x), c1, s1, b[1..], x)
  }

  /** The middle loop (lines 350-366): every remaining entry of the ballot as candidate1. */
  function Pairs(acc: Scores, rest: Ballot, b: Ballot, x: real): Scores
    decreases |rest|
  {
    if |rest| == 0 then acc else Pairs(Against(acc, rest[0].key, rest[0].value, b, x), rest[1..], b, x)
  }

  /** The outer loop (lines 349-367): every voter's weighted ballot, with the
      voter's raw weight as the step. */
  function CopelandTally(acc: Scores, vs: VoteMap, w: Weights): Scores
    decreases |vs|
  {
    if |vs| == 0 then acc else CopelandTally(Pairs(acc, vs[0].value, vs[0].value, WeightOf(w, vs[0].key)), vs[1..], w)
  }

  /** A ballot split into its first entry and the rest. */
  lemma Split(b: Ballot, d: Candidate)
    requires |b| > 0
    ensures Has(b, d) <==> d == b[0].key || Has(b[1..], d)
    ensures Get(b, d) == if d == b[0].key then b[0].value else Get(b[1..], d)
    ensures d == b[0].key ==> !Has(b[1..], d)
  {
    if |b| > 1 {
      NotBelowFirst(b[1..], b[0].key);
    }
  }

  /** What the inner loop for candidate1 = c1 (scored s1) adds to d. */
  function AgainstGain(c1: Candidate, s1: real, b: Ballot, x: real, d: Candidate): real {
    if d == c1 then Balance(b, s1, x) else if Has(b, d) then Signed(x, Get(b, d), s1) else 0.0
  }

  /** The inner loop for candidate1 = c1 puts d in the map. */
  predicate AgainstEnters(c1: Candidate, s1: real, b: Ballot, d: Candidate) {
    if d == c1 then Differs(b, s1) else Has(b, d) && Get(b, d) != s1
  }

  /** One comparison followed by the rest of the inner loop adds what the whole inner loop adds. */
  lemma AgainstStep(c1: Candidate, s1: real, b: Ballot, x: real, d: Candidate)
    requires |b| > 0
    requires b[0].key == c1 ==> b[0].value == s1
    ensures CompareGain(c1, s1, b[0].key, b[0].value, x, d) + AgainstGain(c1, s1, b[1..], x, d) == AgainstGain(c1, s1, b, x, d)
  {
    Split(b, d);
  }

  /** Inner loop: candidate1 gains x per entry it beats and loses x per entry
      that beats it; each such entry moves the other way. */
  lemma {:induction false} AgainstGet(acc: Scores, c1: Candidate, s1: real, b: Ballot, x: real)
    requires Has(b, c1) ==> Get(b, c1) == s1
    ensures forall d :: Get(Against(acc, c1, s1, b, x), d) == Get(acc, d) + AgainstGain(c1, s1, b, x, d)
    decreases |b|
  {
    if |b| > 0 {
      var acc' := Compare(acc, c1, s1, b[0].key, b[0].value, x);
      Split(b, c1);
      AgainstGet(acc', c1, s1, b[1..], x);
      assert Against(acc, c1, s1, b, x) == Against(acc', c1, s1, b[1..], x);
      forall d ensures Get(Against(acc, c1, s1, b, x), d) == Get(acc, d) + AgainstGain(c1, s1, b, x, d) {
        AgainstStep(c1, s1, b, x, d);
      }
    }
  }

  /** Inner loop: exactly the entries compared with a different score enter the map. */
  lemma {:induction false} AgainstHas(acc: Scores, c1: Candidate, s1: real, b: Ballot, x: real)
    requires Has(b, c1) ==> Get(b, c1) == s1
    ensures forall d :: Has(Against(acc, c1, s1, b, x), d) <==> Has(acc, d) || AgainstEnters(c1, s1, b, d)
    decreases |b|
  {
    if |b| > 0 {
      var acc' := Compare(acc, c1, s1, b[0].key, b[0].value, x);
      Split(b, c1);
      AgainstHas(acc', c1, s1, b[1..], x);
      forall d ensures Has(Against(acc, c1, s1, b, x), d) <==> Has(acc, d) || AgainstEnters(c1, s1, b, d) {
        Split(b, d);
      }
    }
  }

  /** Inner loop: the map's sum does not change. */
  lemma {:induction false} AgainstTotal(acc: Scores, c1: Candidate, s1: real, b: Ballot, x: real)
    ensures Total(Against(acc, c1, s1, b, x)) == Total(acc)
    decreases |b|
  {
    if |b| > 0 {
      AgainstTotal(Compare(acc, c1, s1, b[0].key, b[0].value, x), c1, s1, b[1..], x);
    }
  }

  /** What the middle loop over the suffix rest of b adds to d: d's own
      balance if it is in rest, plus its balance against rest if it is on b. */
  function PairsGain(rest: Ballot, b: Ballot, x: real, d: Candidate): real {
    (if Has(rest, d) then Balance(b, Get(b, d), x) else 0.0) + (if Has(b, d) then Balance(rest, Get(b, d), x) else 0.0)
  }

  /** The middle loop over the suffix rest of b puts d in the map. */
  predicate PairsEnters(rest: Ballot, b: Ballot, d: Candidate) {
    (Has(rest, d) && Differs(b, Get(b, d))) || (Has(b, d) && Differs(rest, Get(b, d)))
  }

  /** rest holds entries of b, with b's scores. */
  ghost predicate Within(rest: Ballot, b: Ballot) {
    forall c :: Has(rest, c) ==> Has(b, c) && Get(rest, c) == Get(b, c)
  }

  lemma WithinTail(rest: Ballot, b: Ballot)
    requires |rest| > 0 && Within(rest, b)
    ensures Within(rest[1..], b)
    ensures Has(b, rest[0].key) && Get(b, rest[0].key) == rest[0].value
  {
    forall c | Has(rest[1..], c) ensures Has(b, c) && Get(rest[1..], c) == Get(b, c) {
      Split(rest, c);
    }
    Split(rest, rest[0].key);
  }

  /** One inner loop followed by the rest of the middle loop adds what the whole middle loop adds. */
  lemma PairsStep(rest: Ballot, b: Ballot, x: real, d: Candidate)
    requires |rest| > 0
    requires Has(b, rest[0].key) && Get(b, rest[0].key) == rest[0].value
    requires Has(rest, d) ==> Has(b, d)
    ensures AgainstGain(rest[0].key, rest[0].value, b, x, d) + PairsGain(rest[1..], b, x, d) == PairsGain(rest, b, x, d)
  {
    Split(rest, d);
  }

  /** Middle loop: each candidate of rest has taken its own balance, and every
      candidate of b its balance against rest. */
  lemma {:induction false} PairsGet(acc: Scores, rest: Ballot, b: Ballot, x: real)
    requires Within(rest, b)
    ensures forall d :: Get(Pairs(acc, rest, b, x), d) == Get(acc, d) + PairsGain(rest, b, x, d)
    decreases |rest|
  {
    if |rest| > 0 {
      var c1 := rest[0].key;
      var s1 := rest[0].value;
      WithinTail(rest, b);
      var acc' := Against(acc, c1, s1, b, x);
      AgainstGet(acc, c1, s1, b, x);
      PairsGet(acc', rest[1..], b, x);
      forall d ensures Get(Pairs(acc, rest, b, x), d) == Get(acc, d) + PairsGain(rest, b, x, d) {
        PairsStep(rest, b, x, d);
      }
    }
  }

  /** Middle loop: which candidates enter the map. */
  lemma {:induction false} PairsHas(acc: Scores, rest: Ballot, b: Ballot, x: real)
    requires Within(rest, b)
    ensures forall d :: Has(Pairs(acc, rest, b, x), d) <==> Has(acc, d) || PairsEnters(rest, b, d)
    decreases |rest|
  {
    if |rest| > 0 {
      var c1 := rest[0].key;
      var s1 := rest[0].value;
      WithinTail(rest, b);
      var acc' := Against(acc, c1, s1, b, x);
      AgainstHas(acc, c1, s1, b, x);
      PairsHas(acc', rest[1..], b, x);
      forall d ensures Has(Pairs(acc, rest, b, x), d) <==> Has(acc, d) || PairsEnters(rest, b, d) {
        Split(rest, d);
      }
    }
  }

  /** Middle loop: the map's sum does not change. */
  lemma {:induction false} PairsTotal(acc: Scores, rest: Ballot, b: Ballot, x: real)
    ensures Total(Pairs(acc, rest, b, x)) == Total(acc)
    decreases |rest|
  {
    if |rest| > 0 {
      AgainstTotal(acc, rest[0].key, rest[0].value, b, x);
      PairsTotal(Against(acc, rest[0].key, rest[0].value, b, x), rest[1..], b, x);
    }
  }

  /** The weighted balance is the voter's weight times the number of entries
      beaten minus the number of entries that beat. */
  lemma {:induction false} BalanceIsScaledMargin(b: Ballot, s: real, x: real)
    ensures Balance(b, s, x) == x * Margin(b, s)
    decreases |b|
  {
    if |b| > 0 {
      BalanceIsScaledMargin(b[1..], s, x);
      var g := Sign(s, b[0].value);
      var m := Margin(b[1..], s);
      assert Signed(x, s, b[0].value) == x * g;
      assert x * g + x * m == x * (g + m);
    }
  }

  /** A candidate on b meets every entry twice, once as candidate1 and once as candidate2. */
  lemma PointsFromBalance(b: Ballot, x: real, d: Candidate)
    ensures PairsGain(b, b, x, d) == CopelandPoints(b, x, d)
  {
    if Has(b, d) {
      var m := Margin(b, Get(b, d));
      BalanceIsScaledMargin(b, Get(b, d), x);
      assert PairsGain(b, b, x, d) == x * m + x * m;
      assert x * m + x * m == 2.0 * x * m;
    }
  }

  /** One ballot's whole double loop: every candidate on it gains exactly its
      CopelandPoints, only contested candidates enter the map, and the net
      change of the map sums to zero. */
  lemma BallotFacts(acc: Scores, b: Ballot, x: real)
    ensures forall d :: Get(Pairs(acc, b, b, x), d) == Get(acc, d) + CopelandPoints(b, x, d)
    ensures forall d :: Has(Pairs(acc, b, b, x), d) <==> Has(acc, d) || Contested(b, d)
    ensures Total(Pairs(acc, b, b, x)) == Total(acc)
  {
    PairsGet(acc, b, b, x);
    PairsHas(acc, b, b, x);
    PairsTotal(acc, b, b, x);
    forall d ensures PairsGain(b, b, x, d) == CopelandPoints(b, x, d) {
      PointsFromBalance(b, x, d);
    }
  }

  /** The counting loops compute exactly the net Copeland scores, the map holds
      exactly the contested candidates, and the scores always sum to zero. */
  lemma {:induction false} CopelandTallyIsTotal(acc: Scores, vs: VoteMap, w: Weights)
    ensures forall c :: Get(CopelandTally(acc, vs, w), c) == Get(acc, c) + CopelandTotal(vs, w, c)
    ensures forall c :: Has(CopelandTally(acc, vs, w), c) <==> Has(acc, c) || ContestedOnSome(vs, c)
    ensures Total(CopelandTally(acc, vs, w)) == Total(acc)
    decreases |vs|
  {
    if |vs| > 0 {
      BallotFacts(acc, vs[0].value, WeightOf(w, vs[0].key));
      CopelandTallyIsTotal(Pairs(acc, vs[0].value, vs[0].value, WeightOf(w, vs[0].key)), vs[1..], w);
    }
  }

  /** A contested candidate is named on some ballot. */
  lemma {:induction false} ContestedMentioned(vs: VoteMap, c: Candidate)
    requires ContestedOnSome(vs, c)
    ensures Mentions(vs, c)
    decreases |vs|
  {
    if !Contested(vs[0].value, c) {
      ContestedMentioned(vs[1..], c);
    }
  }

  /** The net scores of all candidates sum to zero: every comparison moves
      one weight from one candidate to another. */
  lemma NetScoresSumToZero(vm: VoteMap, w: Weights)
    ensures Total(CopelandTally([], Weigh(vm, w), w)) == 0.0
  {
    CopelandTallyIsTotal([], Weigh(vm, w), w);
  }

  /** A map whose every value is at most m < 0 has a negative sum, unless it is empty. */
  lemma {:induction false} AllBelow(t: Scores, m: real)
    requires m < 0.0
    requires forall i :: 0 <= i < |t| ==> t[i].value <= m
    ensures |t| > 0 ==> Total(t) < 0.0
    ensures Total(t) <= 0.0
    decreases |t|
  {
    if |t| > 0 {
      AllBelow(t[1..], m);
    }
  }

  /** The CopelandScoring winner: the contested candidate with the largest net
      score, the smallest such candidate on a tie; None (uuid.Nil) only when
      no ballot holds two different weighted scores. Unlike the other methods,
      a winner needs no positive score: the first candidate seen is taken
      whatever its score. */
  function CopelandScoring(vm: VoteMap, w: Weights): (r: Option<Candidate>)
    ensures var vs := Weigh(vm, w);
      && (r.Some? ==> ContestedOnSome(vs, r.value) && Mentions(vm, r.value))
      && (r.Some? ==> forall c :: ContestedOnSome(vs, c) ==> CopelandTotal(vs, w, c) <= CopelandTotal(vs, w, r.value))
      && (r.Some? ==> forall c :: ContestedOnSome(vs, c) && c < r.value ==> CopelandTotal(vs, w, c) < CopelandTotal(vs, w, r.value))
      && (r.None? <==> forall c :: !ContestedOnSome(vs, c))
  {
    CopelandLeader(vm, w);
    Best(CopelandTally([], Weigh(vm, w), w))
  }

  lemma CopelandLeader(vm: VoteMap, w: Weights)
    ensures var vs := Weigh(vm, w); var r := Best(CopelandTally([], vs, w));
      && (r.Some? ==> ContestedOnSome(vs, r.value) && Mentions(vm, r.value))
      && (r.Some? ==> forall c :: ContestedOnSome(vs, c) ==> CopelandTotal(vs, w, c) <= CopelandTotal(vs, w, r.value))
      && (r.Some? ==> forall c :: ContestedOnSome(vs, c) && c < r.value ==> CopelandTotal(vs, w, c) < CopelandTotal(vs, w, r.value))
      && (r.None? ==> forall c :: !ContestedOnSome(vs, c))
    ensures var vs := Weigh(vm, w); var r := Best(CopelandTally([], vs, w));
      (r.Some? ==> exists c :: ContestedOnSome(vs, c))
  {
    var vs := Weigh(vm, w);
    var t := CopelandTally([], vs, w);
    CopelandTallyIsTotal([], vs, w);
    var r := Best(t);
    if r.Some? {
      assert ContestedOnSome(vs, r.value);
      assert !(forall c :: !ContestedOnSome(vs, c));
      ContestedMentioned(vs, r.value);
      MentionsWeighed(vm, w, r.value);
      forall c | ContestedOnSome(vs, c)
        ensures CopelandTotal(vs, w, c) <= CopelandTotal(vs, w, r.value)
        ensures c < r.value ==> CopelandTotal(vs, w, c) < CopelandTotal(vs, w, r.value)
      {
        var i := IndexOf(t, c);
        GetAt(t, i);
      }
    } else {
      forall c ensures !ContestedOnSome(vs, c) {
        assert !Has(t, c);
      }
    }
  }

  /** The winner's net score is never negative: the net scores of the
      contested candidates sum to zero, so the largest is at least zero. */
  lemma WinnerNotBehind(vm: VoteMap, w: Weights)
    requires CopelandScoring(vm, w).Some?
    ensures CopelandTotal(Weigh(vm, w), w, CopelandScoring(vm, w).value) >= 0.0
  {
    var vs := Weigh(vm, w);
    var t := CopelandTally([], vs, w);
    var r := Best(t).value;
    CopelandTallyIsTotal([], vs, w);
    if Get(t, r) < 0.0 {
      AllBelow(t, Get(t, r));
    }
  }

  /** A ballot that scores every entry alike contests nobody. */
  lemma {:induction false} FlatBallot(b: Ballot, s: real)
    requires forall j :: 0 <= j < |b| ==> b[j].value == s
    ensures !Differs(b, s)
    decreases |b|
  {
    if |b| > 0 {
      FlatBallot(b[1..], s);
    }
  }

  /** Dropping voter i takes away exactly that voter's points, and the
      candidates that only that voter contested. */
  lemma {:induction false} TotalRemove(vs: VoteMap, w: Weights, i: nat, c: Candidate)
    requires i < |vs|
    ensures CopelandTotal(vs, w, c) == CopelandTotal(Remove(vs, vs[i].key), w, c) + CopelandPoints(vs[i].value, WeightOf(w, vs[i].key), c)
    ensures ContestedOnSome(vs, c) <==> ContestedOnSome(Remove(vs, vs[i].key), c) || Contested(vs[i].value, c)
    decreases i
  {
    if i > 0 {
      TotalRemove(vs[1..], w, i - 1, c);
      var r := Remove(vs, vs[i].key);
      assert r[1..] == Remove(vs[1..], vs[i].key);
    }
  }

  /** A voter whose weight is 0 (in particular one missing from the weight
      table) cannot change the CopelandScoring result: their weighted ballot
      scores everybody 0, so it contests nobody and moves no weight. */
  lemma SilentVoterIgnored(vm: VoteMap, w: Weights, i: nat)
    requires i < |vm| && WeightOf(w, vm[i].key) == 0.0
    ensures CopelandScoring(vm, w) == CopelandScoring(Remove(vm, vm[i].key), w)
  {
    var v := vm[i].key;
    var vs := Weigh(vm, w);
    WeighRemove(vm, w, v);
    UnweightedVoterScoresZero(vm, w, i);
    SilentTally(vs, w, i);
  }

  /** The count without a voter who scores everybody 0 and has weight 0 is the same count. */
  lemma SilentTally(vs: VoteMap, w: Weights, i: nat)
    requires i < |vs| && WeightOf(w, vs[i].key) == 0.0
    requires forall j :: 0 <= j < |vs[i].value| ==> vs[i].value[j].value == 0.0
    requires forall c :: Get(vs[i].value, c) == 0.0
    ensures CopelandTally([], vs, w) == CopelandTally([], Remove(vs, vs[i].key), w)
  {
    var b := vs[i].value;
    var vs' := Remove(vs, vs[i].key);
    FlatBallot(b, 0.0);
    var t := CopelandTally([], vs, w);
    var t' := CopelandTally([], vs', w);
    CopelandTallyIsTotal([], vs, w);
    CopelandTallyIsTotal([], vs', w);
    forall c ensures (Has(t, c) <==> Has(t', c)) && Get(t, c) == Get(t', c) {
      TotalRemove(vs, w, i, c);
      assert CopelandPoints(b, 0.0, c) == 0.0;
    }
    ScoresExt(t, t');
  }

  /** One comparison on a ballot scaled by k > 0, by a voter whose weight is
      scaled by k: the same side is preferred and k times the weight moves. */
  lemma CompareScaled(acc: Scores, c1: Candidate, s1: real, t1: real, c2: Candidate, s2: real, t2: real, x: real, y: real, k: real)
    requires k > 0.0 && t1 == s1 * k && t2 == s2 * k && y == x * k
    ensures Compare(Scale(acc, k), c1, t1, c2, t2, y) == Scale(Compare(acc, c1, s1, c2, s2, x), k)
  {
    StakeScaled(s1, t1, s2, t2, x, y, k);
    if c1 != c2 && s1 != s2 {
      MoveScaled(acc, c1, c2, Stake(s1, s2, x), Stake(t1, t2, y), k);
    }
  }

  lemma StakeScaled(s1: real, t1: real, s2: real, t2: real, x: real, y: real, k: real)
    requires k > 0.0 && t1 == s1 * k && t2 == s2 * k && y == x * k
    ensures t1 == t2 <==> s1 == s2
    ensures Stake(t1, t2, y) == Stake(s1, s2, x) * k
  {
    ScaledOrder(s1, s2, k);
    ScaledOrder(s2, s1, k);
  }

  lemma MoveScaled(acc: Scores, c1: Candidate, c2: Candidate, z: real, u: real, k: real)
    requires u == z * k
    ensures Move(Scale(acc, k), c1, c2, u) == Scale(Move(acc, c1, c2, z), k)
  {
    CreditScaled(acc, c1, z, u, k);
    CreditScaled(Credit(acc, c1, z), c2, -z, -u, k);
  }

  /** The inner loop on a scaled ballot with a scaled weight moves k times as much. */
  lemma {:induction false} AgainstScaled(acc: Scores, c1: Candidate, s1: real, t1: real, b: Ballot, x: real, y: real, k: real)
    requires k > 0.0 && t1 == s1 * k && y == x * k
    ensures Against(Scale(acc, k), c1, t1, Scale(b, k), y) == Scale(Against(acc, c1, s1, b, x), k)
    decreases |b|
  {
    if |b| > 0 {
      var e := Scale(b, k)[0];
      assert e.key == b[0].key && e.value == b[0].value * k;
      ScaleTail(b, k);
      CompareScaled(acc, c1, s1, t1, b[0].key, b[0].value, e.value, x, y, k);
      AgainstScaled(Compare(acc, c1, s1, b[0].key, b[0].value, x), c1, s1, t1, b[1..], x, y, k);
    }
  }

  /** The middle loop on a scaled ballot with a scaled weight moves k times as much. */
  lemma {:induction false} PairsScaled(acc: Scores, rest: Ballot, b: Ballot, x: real, y: real, k: real)
    requires k > 0.0 && y == x * k
    ensures Pairs(Scale(acc, k), Scale(rest, k), Scale(b, k), y) == Scale(Pairs(acc, rest, b, x), k)
    decreases |rest|
  {
    if |rest| > 0 {
      var e := Scale(rest, k)[0];
      assert e.key == rest[0].key && e.value == rest[0].value * k;
      ScaleTail(rest, k);
      AgainstScaled(acc, rest[0].key, rest[0].value, e.value, b, x, y, k);
      PairsScaled(Against(acc, rest[0].key, rest[0].value, b, x), rest[1..], b, x, y, k);
    }
  }

  /** Counting the scaled ballots with the scaled weights from a scaled start
      gives the count scaled. */
  lemma {:induction false} CopelandTallyScaled(acc: Scores, vs: VoteMap, w: Weights, k: real)
    requires k > 0.0
    ensures CopelandTally(Scale(acc, k), Rescale(vs, k), Scale(w, k)) == Scale(CopelandTally(acc, vs, w), k)
    decreases |vs|
  {
    if |vs| > 0 {
      var v := vs[0].key;
      var b := vs[0].value;
      assert Rescale(vs, k)[0] == Entry(v, Scale(b, k));
      RescaleTail(vs, k);
      ScaleFacts(w, k, v);
      PairsScaled(acc, b, b, WeightOf(w, v), WeightOf(Scale(w, k), v), k);
      CopelandTallyScaled(Pairs(acc, b, b, WeightOf(w, v)), vs[1..], w, k);
    }
  }

  /** Multiplying every voter's weight by the same positive factor does not
      change the CopelandScoring winner: every comparison goes the same way
      and moves k times the weight, so every net score is multiplied by k. */
  lemma ScaleFree(vm: VoteMap, w: Weights, k: real)
    requires k > 0.0
    ensures CopelandScoring(vm, Scale(w, k)) == CopelandScoring(vm, w)
  {
    WeighScaled(vm, w, k);
    var t := CopelandTally([], Weigh(vm, w), w);
    assert Scale([], k) == [];
    CopelandTallyScaled([], Weigh(vm, w), w, k);
    SelectionRescaled(Scale(t, k), t, k);
  }
}

=== FILE: instant_runoff.dfy ===
/** InstantRunoff (VotingMethods.go:215-283): repeated first-place counts
    among the candidates still in the race, each round eliminating the
    candidate with the smallest count, until one candidate is left.
 */
module InstantRunoff {
  import opened Tables
  import opened Selection
  import opened Weighting
  import Plurality
  import opened Sums

  /** A ballot without the scores of eliminated candidates. The source skips
      a key when `eliminateVote[key]` is set; every ballot key is on the roll,
      so a key is skipped exactly when it is no longer in `voteCount`. */
  function Restrict(b: Ballot, active: Scores): (r: Ballot)
    ensures |r| > 0 ==> |b| > 0 && b[0].key <= r[0].key
    decreases |b|
  {
    if |b| == 0 then []
    else if Has(active, b[0].key) then [b[0]] + Restrict(b[1..], active)
    else Restrict(b[1..], active)
  }

  lemma {:induction false} RestrictFacts(b: Ballot, active: Scores)
    ensures forall c :: Get(Restrict(b, active), c) == if Has(active, c) then Get(b, c) else 0.0
    ensures forall c :: Has(Restrict(b, active), c) <==> Has(b, c) && Has(active, c)
    decreases |b|
  {
    if |b| > 0 {
      RestrictFacts(b[1..], active);
      var k := b[0].key;
      if |b| > 1 {
        NotBelowFirst(b[1..], k);
      }
      GetMissing(b[1..], k);
      if Has(active, k) {
        assert Restrict(b, active)[1..] == Restrict(b[1..], active);
      }
      forall c | c != k ensures Get(b, c) == Get(b[1..], c) && (Has(b, c) <==> Has(b[1..], c)) {
        TailHas(b, c);
      }
    }
  }

  /** Lines 252-260: a ballot's first choice among the candidates still in
      the race, its largest strictly positive score there, the smallest such
      candidate on a tie; None when it scores no remaining candidate positively. */
  function FirstChoice(b: Ballot, active: Scores): (r: Option<Candidate>)
    ensures r.Some? ==> Has(active, r.value) && Has(b, r.value) && Get(b, r.value) > 0.0
    ensures r.Some? ==> forall c :: Has(active, c) ==> Get(b, c) <= Get(b, r.value)
    ensures r.Some? ==> forall c :: Has(active, c) && c < r.value ==> Get(b, c) < Get(b, r.value)
    ensures r.None? <==> forall c :: Has(active, c) ==> Get(b, c) <= 0.0
  {
    FirstChoiceFacts(b, active);
    Leader(Restrict(b, active))
  }

  lemma FirstChoiceFacts(b: Ballot, active: Scores)
    ensures var r := Leader(Restrict(b, active));
      && (r.Some? ==> Has(active, r.value) && Has(b, r.value) && Get(b, r.value) > 0.0)
      && (r.Some? ==> forall c :: Has(active, c) ==> Get(b, c) <= Get(b, r.value))
      && (r.Some? ==> forall c :: Has(active, c) && c < r.value ==> Get(b, c) < Get(b, r.value))
      && (r.None? <==> forall c :: Has(active, c) ==> Get(b, c) <= 0.0)
  {
    var t := Restrict(b, active);
    RestrictFacts(b, active);
    var total := c => if Has(active, c) then Get(b, c) else 0.0;
    assert forall c :: Get(t, c) == total(c);
    LeaderOverTotals(t, total);
  }

  /** What one ballot adds to candidate c in a round. */
  function RoundPoints(b: Ballot, active: Scores, c: Candidate): real {
    if FirstChoice(b, active) == Some(c) then Get(b, c) else 0.0
  }

  /** Candidate c's first-place total in the round with the given candidates left. */
  function RoundTotal(vs: VoteMap, active: Scores, c: Candidate): real
    decreases |vs|
  {
    if |vs| == 0 then 0.0 else RoundPoints(vs[0].value, active, c) + RoundTotal(vs[1..], active, c)
  }

  /** Line 261 for one ballot. A ballot without a positive remaining score
      credits nobody; see CountChoiceAsWritten for what the source does. */
  function CountChoice(acc: Scores, b: Ballot, active: Scores): Scores {
    match FirstChoice(b, active)
    case None => acc
    case Some(c) => Credit(acc, c, Get(b, c))
  }

  /** Lines 251-262: the first-place count over all ballots. */
  function CountRound(acc: Scores, vs: VoteMap, active: Scores): Scores
    decreases |vs|
  {
    if |vs| == 0 then acc else CountRound(CountChoice(acc, vs[0].value, active), vs[1..], active)
  }

  lemma CountChoiceFacts(acc: Scores, b: Ballot, active: Scores)
    requires forall c :: Has(active, c) ==> Has(acc, c)
    ensures |CountChoice(acc, b, active)| == |acc|
    ensures forall c :: Has(CountChoice(acc, b, active), c) <==> Has(acc, c)
    ensures forall c :: Get(CountChoice(acc, b, active), c) == Get(acc, c) + RoundPoints(b, active, c)
  {
    match FirstChoice(b, active)
    case None =>
    case Some(x) => CreditFacts(acc, x, Get(b, x));
  }

  lemma {:induction false} CountRoundFacts(acc: Scores, vs: VoteMap, active: Scores)
    requires forall c :: Has(active, c) ==> Has(acc, c)
    ensures |CountRound(acc, vs, active)| == |acc|
    ensures forall c :: Has(CountRound(acc, vs, active), c) <==> Has(acc, c)
    ensures forall c :: Get(CountRound(acc, vs, active), c) == Get(acc, c) + RoundTotal(vs, active, c)
    decreases |vs|
  {
    if |vs| > 0 {
      CountChoiceFacts(acc, vs[0].value, active);
      CountRoundFacts(CountChoice(acc, vs[0].value, active), vs[1..], active);
    }
  }

  /** Lines 246-249: the same candidates, every count back at 0. */
  function Zero(t: Scores): (r: Scores)
    ensures |r| == |t|
    ensures forall i :: 0 <= i < |t| ==> r[i].key == t[i].key && r[i].value == 0.0
  {
    seq(|t|, i requires 0 <= i < |t| => Entry(t[i].key, 0.0))
  }

  lemma ZeroFacts(t: Scores, c: Candidate)
    ensures Has(Zero(t), c) <==> Has(t, c)
    ensures Get(Zero(t), c) == 0.0
  {
    var z := Zero(t);
    if Has(t, c) {
      var i := IndexOf(t, c);
      HasAt(z, i);
      GetAt(z, i);
    } else {
      if Has(z, c) {
        var i := IndexOf(z, c);
        HasAt(t, i);
      }
      GetMissing(z, c);
    }
  }

  /** The count of one round, keyed by the candidates still in the race. */
  function Tally(vs: VoteMap, active: Scores): Scores {
    CountRound(Zero(active), vs, active)
  }

  /** A round's count holds every remaining candidate, and only those, with
      its round total. */
  lemma TallyFacts(vs: VoteMap, active: Scores)
    ensures |Tally(vs, active)| == |active|
    ensures forall c :: Has(Tally(vs, active), c) <==> Has(active, c)
    ensures forall c :: Get(Tally(vs, active), c) == RoundTotal(vs, active, c)
  {
    forall c ensures (Has(Zero(active), c) <==> Has(active, c)) && Get(Zero(active), c) == 0.0 {
      ZeroFacts(active, c);
    }
    CountRoundFacts(Zero(active), vs, active);
  }

  /** Lines 264-271: the candidate eliminated in a round, the one with the
      smallest round total, the smallest candidate among equal totals. */
  function Loser(vs: VoteMap, active: Scores): (x: Candidate)
    requires |active| > 0
    ensures Has(active, x)
    ensures forall c :: Has(active, c) ==> RoundTotal(vs, active, x) <= RoundTotal(vs, active, c)
    ensures forall c :: Has(active, c) && c < x ==> RoundTotal(vs, active, x) < RoundTotal(vs, active, c)
  {
    LoserFacts(vs, active);
    Weakest(Tally(vs, active)).value
  }

  lemma LoserFacts(vs: VoteMap, active: Scores)
    requires |active| > 0
    ensures Weakest(Tally(vs, active)).Some?
    ensures var x := Weakest(Tally(vs, active)).value;
      && Has(active, x)
      && (forall c :: Has(active, c) ==> RoundTotal(vs, active, x) <= RoundTotal(vs, active, c))
      && (forall c :: Has(active, c) && c < x ==> RoundTotal(vs, active, x) < RoundTotal(vs, active, c))
  {
    var t := Tally(vs, active);
    TallyFacts(vs, active);
    var x := Weakest(t).value;
    forall c | Has(active, c)
      ensures RoundTotal(vs, active, x) <= RoundTotal(vs, active, c)
      ensures c < x ==> RoundTotal(vs, active, x) < RoundTotal(vs, active, c)
    {
      var i := IndexOf(t, c);
      GetAt(t, i);
    }
  }

  /** One pass of the loop of lines 243-273: count, then delete the loser.
      Exactly one candidate leaves the race, and it is the loser. */
  function Eliminate(vs: VoteMap, active: Scores): (r: Scores)
    requires |active| > 0
    ensures |r| == |active| - 1
    ensures forall c :: Has(r, c) <==> Has(active, c) && c != Loser(vs, active)
  {
    TallyFacts(vs, active);
    RemoveFacts(Tally(vs, active), Loser(vs, active));
    Remove(Tally(vs, active), Loser(vs, active))
  }

  /** The loop `for len(voteCount) > 1`: it ends with exactly one candidate
      left when there was one to start with, and that candidate was in the race. */
  function Rounds(vs: VoteMap, active: Scores): (r: Scores)
    ensures |r| == if |active| == 0 then 0 else 1
    ensures forall c :: Has(r, c) ==> Has(active, c)
    decreases |active|
  {
    if |active| <= 1 then active else Rounds(vs, Eliminate(vs, active))
  }

  /** The last candidate standing was in the race from the start. */
  lemma Survivor(vs: VoteMap, active: Scores)
    requires |active| > 0
    ensures |Rounds(vs, active)| == 1 && Has(active, Rounds(vs, active)[0].key)
  {
    HasAt(Rounds(vs, active), 0);
  }

  /** The InstantRunoff winner: the last candidate standing; None (uuid.Nil)
      only when no ballot names any candidate. */
  function InstantRunoff(vm: VoteMap, w: Weights): (r: Option<Candidate>)
    ensures r.Some? ==> Mentions(vm, r.value)
    ensures r.None? ==> forall c :: !Mentions(vm, c)
  {
    var vs := Weigh(vm, w);
    var last := Rounds(vs, Roll([], vs));
    LastStanding(vm, w);
    if |last| == 0 then None else Some(last[0].key)
  }

  lemma LastStanding(vm: VoteMap, w: Weights)
    ensures var vs := Weigh(vm, w); var last := Rounds(vs, Roll([], vs));
      && (|last| > 0 ==> Mentions(vm, last[0].key))
      && (|last| == 0 ==> forall c :: !Mentions(vm, c))
  {
    var vs := Weigh(vm, w);
    var u := Roll([], vs);
    var last := Rounds(vs, u);
    OnTheRoll(vm, w);
    if |u| > 0 {
      Survivor(vs, u);
    }
    Standing(vm, u, last);
  }

  lemma Standing(vm: VoteMap, u: Scores, last: Scores)
    requires forall c :: Has(u, c) <==> Mentions(vm, c)
    requires |last| == if |u| == 0 then 0 else 1
    requires |last| > 0 ==> Has(u, last[0].key)
    ensures |last| > 0 ==> Mentions(vm, last[0].key)
    ensures |last| == 0 ==> forall c :: !Mentions(vm, c)
  {
    if |u| == 0 {
      forall c ensures !Mentions(vm, c) {
        assert !Has(u, c);
      }
    }
  }

  /** Once every candidate a ballot names is still in the race, its first
      choice is its Plurality first choice. */
  lemma {:induction false} RestrictAll(b: Ballot, active: Scores)
    requires forall c :: Has(b, c) ==> Has(active, c)
    ensures Restrict(b, active) == b
    decreases |b|
  {
    if |b| > 0 {
      forall c | Has(b[1..], c) ensures Has(active, c) {
        TailHas(b, c);
      }
      RestrictAll(b[1..], active);
    }
  }

  lemma PointsAgree(b: Ballot, active: Scores, c: Candidate)
    requires forall d :: Has(b, d) ==> Has(active, d)
    ensures RoundPoints(b, active, c) == Plurality.FirstPlacePoints(b, c)
  {
    RestrictAll(b, active);
    if IsBest(b, c) && Get(b, c) > 0.0 {
      LeaderIs(b, c);
    }
  }

  /** The first round counts exactly what Plurality counts. */
  lemma {:induction false} FirstRoundIsPlurality(vs: VoteMap, active: Scores, c: Candidate)
    requires forall d :: Mentions(vs, d) ==> Has(active, d)
    ensures RoundTotal(vs, active, c) == Plurality.FirstPlaceTotal(vs, c)
    decreases |vs|
  {
    if |vs| > 0 {
      PointsAgree(vs[0].value, active, c);
      FirstRoundIsPlurality(vs[1..], active, c);
    }
  }

  /** A ballot that puts c first keeps doing so while c stays in the race. */
  lemma FirstChoiceKept(b: Ballot, active: Scores, sub: Scores, c: Candidate)
    requires forall d :: Has(sub, d) ==> Has(active, d)
    requires Has(sub, c) && FirstChoice(b, active) == Some(c)
    ensures FirstChoice(b, sub) == Some(c)
  {
    assert FirstChoice(b, sub).Some?;
    var x := FirstChoice(b, sub).value;
    assert Get(b, x) == Get(b, c);
    assert !(x < c);
    assert !(c < x);
  }

  /** A candidate's count never falls from one round to a later one. */
  lemma {:induction false} RoundTotalGrows(vs: VoteMap, active: Scores, sub: Scores, c: Candidate)
    requires forall d :: Has(sub, d) ==> Has(active, d)
    requires Has(sub, c)
    ensures RoundTotal(vs, active, c) <= RoundTotal(vs, sub, c)
    decreases |vs|
  {
    if |vs| > 0 {
      var b := vs[0].value;
      if FirstChoice(b, active) == Some(c) {
        FirstChoiceKept(b, active, sub, c);
      }
      RoundTotalGrows(vs[1..], active, sub, c);
    }
  }

  /** The candidates left after a round keep at least the count they had. */
  lemma SurvivorsKeepTheirVotes(vs: VoteMap, active: Scores, c: Candidate)
    requires |active| > 0 && Has(Eliminate(vs, active), c)
    ensures RoundTotal(vs, active, c) <= RoundTotal(vs, Eliminate(vs, active), c)
  {
    RoundTotalGrows(vs, active, Eliminate(vs, active), c);
  }

  /** In any round a ballot gives its first remaining choice at most the score
      of its overall first choice, and it gives points to one candidate only. */
  lemma ChoiceBelowTop(b: Ballot, active: Scores, x: Candidate, y: Candidate)
    requires x != y
    ensures RoundPoints(b, active, x) + RoundPoints(b, active, y) <= Plurality.TopScore(b)
  {
    match FirstChoice(b, active)
    case None =>
    case Some(c) =>
      var i := IndexOf(b, c);
      GetAt(b, i);
      var t := Plurality.TopChoice(b).value;
      assert b[i].value <= Get(b, t);
  }

  /** Two candidates together never hold more than all the first-place points. */
  lemma {:induction false} TwoBelowTop(vs: VoteMap, active: Scores, x: Candidate, y: Candidate)
    requires x != y
    ensures RoundTotal(vs, active, x) + RoundTotal(vs, active, y) <= Plurality.TopSum(vs)
    decreases |vs|
  {
    if |vs| > 0 {
      ChoiceBelowTop(vs[0].value, active, x, y);
      TwoBelowTop(vs[1..], active, x, y);
    }
  }

  /** A candidate holding more than half of all first-place points is never
      the one eliminated while another candidate remains. */
  lemma MajorityNotLoser(vs: VoteMap, active: Scores, x: Candidate)
    requires |active| > 1 && Has(active, x)
    requires 2.0 * RoundTotal(vs, active, x) > Plurality.TopSum(vs)
    ensures Loser(vs, active) != x
  {
    var y := if active[0].key == x then active[1].key else active[0].key;
    HasAt(active, 0);
    HasAt(active, 1);
    TwoBelowTop(vs, active, x, y);
  }

  /** Such a candidate keeps its majority round after round and is the last
      one standing. */
  lemma {:induction false} MajorityLasts(vs: VoteMap, active: Scores, x: Candidate)
    requires Has(active, x)
    requires 2.0 * RoundTotal(vs, active, x) > Plurality.TopSum(vs)
    ensures |Rounds(vs, active)| == 1 && Rounds(vs, active)[0].key == x
    decreases |active|
  {
    if |active| <= 1 {
      var i := IndexOf(active, x);
    } else {
      var e := Eliminate(vs, active);
      MajorityNotLoser(vs, active, x);
      RoundTotalGrows(vs, active, e, x);
      MajorityLasts(vs, e, x);
    }
  }

  /** A candidate with more than half of all first-place points wins both
      Plurality and InstantRunoff: the first round already decides. */
  lemma MajorityWinner(vm: VoteMap, w: Weights, x: Candidate)
    requires 2.0 * Plurality.FirstPlaceTotal(Weigh(vm, w), x) > Plurality.TopSum(Weigh(vm, w))
    ensures InstantRunoff(vm, w) == Some(x)
    ensures Plurality.Plurality(vm, w) == Some(x)
  {
    var vs := Weigh(vm, w);
    var u := Roll([], vs);
    RollFacts([], vs);
    MajorityFirstRound(vs, u, x);
    MajorityLasts(vs, u, x);
    var r := Plurality.Plurality(vm, w);
    assert r.Some?;
    assert !(r.value != x);
  }

  /** On a roll of every candidate named, a first-place majority is a
      first-round majority, and every other candidate counts less. */
  lemma MajorityFirstRound(vs: VoteMap, u: Scores, x: Candidate)
    requires forall c :: Has(u, c) <==> Mentions(vs, c)
    requires 2.0 * Plurality.FirstPlaceTotal(vs, x) > Plurality.TopSum(vs)
    ensures Has(u, x) && 2.0 * RoundTotal(vs, u, x) > Plurality.TopSum(vs)
    ensures Plurality.FirstPlaceTotal(vs, x) > 0.0
    ensures forall c :: c != x ==> Plurality.FirstPlaceTotal(vs, c) < Plurality.FirstPlaceTotal(vs, x)
  {
    Plurality.TopSumNonNegative(vs);
    Plurality.FirstOnSomeOf(vs, x);
    Plurality.FirstOnSomeMentioned(vs, x);
    FirstRoundIsPlurality(vs, u, x);
    forall c | c != x ensures Plurality.FirstPlaceTotal(vs, c) < Plurality.FirstPlaceTotal(vs, x) {
      FirstRoundIsPlurality(vs, u, c);
      TwoBelowTop(vs, u, x, c);
    }
  }

  /** Line 261 as written: a ballot without a positive remaining score adds 0
      to the zero id `nil` (uuid.Nil), which enters the count with total 0. */
  function CountChoiceAsWritten(acc: Scores, b: Ballot, active: Scores, nil: Candidate): Scores {
    match FirstChoice(b, active)
    case None => Credit(acc, nil, 0.0)
    case Some(c) => Credit(acc, c, Get(b, c))
  }

  function CountRoundAsWritten(acc: Scores, vs: VoteMap, active: Scores, nil: Candidate): Scores
    decreases |vs|
  {
    if |vs| == 0 then acc else CountRoundAsWritten(CountChoiceAsWritten(acc, vs[0].value, active, nil), vs[1..], active, nil)
  }

  /** One pass of lines 243-273 as written. */
  function EliminateAsWritten(vs: VoteMap, active: Scores, nil: Candidate): Scores {
    var t := CountRoundAsWritten(Zero(active), vs, active, nil);
    match Weakest(t)
    case None => t
    case Some(x) => Remove(t, x)
  }

  /** Three voters; the third is missing from the weight table. */
  function StuckVotes(): VoteMap {
    var a: Ballot := [Entry(10, 1.0)];
    var b: Ballot := [Entry(20, 2.0)];
    [Entry(1, a), Entry(2, b), Entry(3, a)]
  }

  function StuckWeights(): Weights {
    [Entry(1, 1.0), Entry(2, 1.0)]
  }

  /** StuckVotes once weighted. */
  function StuckBallots(): VoteMap {
    var a: Ballot := [Entry(10, 1.0)];
    var b: Ballot := [Entry(20, 2.0)];
    var z: Ballot := [Entry(10, 0.0)];
    [Entry(1, a), Entry(2, b), Entry(3, z)]
  }

  function StuckRoll(): Scores {
    [Entry(10, 0.0), Entry(20, 0.0)]
  }

  lemma StuckWeighing()
    ensures Weigh(StuckVotes(), StuckWeights()) == StuckBallots()
  {
    var vm := StuckVotes();
    var w := StuckWeights();
    var a: Ballot := [Entry(10, 1.0)];
    var b: Ballot := [Entry(20, 2.0)];
    var z: Ballot := [Entry(10, 0.0)];
    assert WeightOf(w, 1) == 1.0;
    assert WeightOf(w, 2) == 1.0;
    assert WeightOf(w, 3) == 0.0;
    assert Scale(a, 1.0) == a;
    assert Scale(b, 1.0) == b;
    assert Scale(a, 0.0) == z;
    WeighAt(vm, w, 0);
    WeighAt(vm, w, 1);
    WeighAt(vm, w, 2);
  }

  lemma StuckRollCall()
    ensures Roll([], StuckBallots()) == StuckRoll()
  {
    var vs := StuckBallots();
    var u0 := Enrol([], vs[0].value);
    assert u0 == [Entry(10, 0.0)];
    var u1 := Enrol(u0, vs[1].value);
    assert u1 == StuckRoll();
    assert Enrol(u1, vs[2].value) == u1;
    assert Roll([], vs) == Roll(u0, vs[1..]);
    assert Roll(u0, vs[1..]) == Roll(u1, vs[2..]);
  }

  /** A one-entry ballot with a positive score names its candidate first. */
  lemma SingleChoice(b: Ballot, active: Scores, c: Candidate, x: real)
    requires b == [Entry(c, x)] && x > 0.0 && Has(active, c)
    ensures FirstChoice(b, active) == Some(c)
  {
    assert Get(b, c) == x;
    var y := FirstChoice(b, active).value;
    assert Has(b[1..], y) == false;
  }

  lemma StuckChoices()
    ensures FirstChoice(StuckBallots()[0].value, StuckRoll()) == Some(10)
    ensures FirstChoice(StuckBallots()[1].value, StuckRoll()) == Some(20)
    ensures FirstChoice(StuckBallots()[2].value, StuckRoll()) == None
  {
    var vs := StuckBallots();
    var u := StuckRoll();
    assert Has(u, 10);
    assert Has(u, 20);
    SingleChoice(vs[0].value, u, 10, 1.0);
    SingleChoice(vs[1].value, u, 20, 2.0);
    forall c ensures Get(vs[2].value, c) <= 0.0 {
      assert Get(vs[2].value, c) == if c == 10 then 0.0 else Get(vs[2].value[1..], c);
    }
  }

  /** The first two ballots of a pass credit 10 with 1 and 20 with 2, in
      the source's count as in the corrected one. */
  lemma StuckFirstTwo(vs: VoteMap, u: Scores)
    requires vs == StuckBallots() && u == StuckRoll()
    ensures CountChoice(CountChoice(Zero(u), vs[0].value, u), vs[1].value, u) == [Entry(10, 1.0), Entry(20, 2.0)]
    ensures CountChoiceAsWritten(CountChoiceAsWritten(Zero(u), vs[0].value, u, 0), vs[1].value, u, 0)
      == [Entry(10, 1.0), Entry(20, 2.0)]
  {
    StuckChoices();
    assert Zero(u) == u;
    assert Get(vs[0].value, 10) == 1.0 && Get(vs[1].value, 20) == 2.0;
    TwoCounts(u, vs[0].value, vs[1].value);
    ChosenAsWritten(u, vs[0].value, u, 0);
    ChosenAsWritten(CountChoice(u, vs[0].value, u), vs[1].value, u, 0);
  }

  /** Two ballots whose first choices are 10 (scoring 1) and 20 (scoring 2). */
  lemma TwoCounts(u: Scores, b0: Ballot, b1: Ballot)
    requires |u| == 2 && u[0] == Entry(10, 0.0) && u[1] == Entry(20, 0.0)
    requires FirstChoice(b0, u) == Some(10) && Get(b0, 10) == 1.0
    requires FirstChoice(b1, u) == Some(20) && Get(b1, 20) == 2.0
    ensures CountChoice(CountChoice(u, b0, u), b1, u) == [Entry(10, 1.0), Entry(20, 2.0)]
  {
    var t0 := Credit(u, 10, 1.0);
    assert CountChoice(u, b0, u) == t0;
    assert CountChoice(t0, b1, u) == Credit(t0, 20, 2.0);
    CreditTwice(u);
  }

  /** Crediting 10 with 1 and then 20 with 2 in the zeroed two-candidate count. */
  lemma CreditTwice(u: Scores)
    requires |u| == 2 && u[0] == Entry(10, 0.0) && u[1] == Entry(20, 0.0)
    ensures Credit(Credit(u, 10, 1.0), 20, 2.0) == [Entry(10, 1.0), Entry(20, 2.0)]
  {
    CreditAt(u, 0, 1.0);
    var t0 := Credit(u, 10, 1.0);
    assert t0 == [Entry(10, 1.0), Entry(20, 0.0)];
    CreditAt(t0, 1, 2.0);
  }

  /** A ballot with a first choice is counted the same as written and corrected. */
  lemma ChosenAsWritten(acc: Scores, b: Ballot, active: Scores, nil: Candidate)
    requires FirstChoice(b, active).Some?
    ensures CountChoiceAsWritten(acc, b, active, nil) == CountChoice(acc, b, active)
  {
  }

  /** A count over three ballots is three steps. */
  lemma CountThreeAsWritten(acc: Scores, vs: VoteMap, active: Scores, nil: Candidate)
    requires |vs| == 3
    ensures CountRoundAsWritten(acc, vs, active, nil)
      == CountChoiceAsWritten(CountChoiceAsWritten(CountChoiceAsWritten(acc, vs[0].value, active, nil),
           vs[1].value, active, nil), vs[2].value, active, nil)
  {
    var a1 := CountChoiceAsWritten(acc, vs[0].value, active, nil);
    var a2 := CountChoiceAsWritten(a1, vs[1].value, active, nil);
    var a3 := CountChoiceAsWritten(a2, vs[2].value, active, nil);
    assert vs[1..][0] == vs[1] && vs[1..][1..] == vs[2..];
    assert vs[2..][0] == vs[2] && vs[2..][1..] == [];
    assert CountRoundAsWritten(acc, vs, active, nil) == CountRoundAsWritten(a1, vs[1..], active, nil);
    assert CountRoundAsWritten(a1, vs[1..], active, nil) == CountRoundAsWritten(a2, vs[2..], active, nil);
    assert CountRoundAsWritten(a2, vs[2..], active, nil) == CountRoundAsWritten(a3, [], active, nil);
  }

  /** A pass whose tally has a unique weakest entry drops that entry. */
  lemma PassDrops(vs: VoteMap, active: Scores, nil: Candidate, t: Scores)
    requires CountRoundAsWritten(Zero(active), vs, active, nil) == t
    requires IsLeast(t, nil)
    ensures EliminateAsWritten(vs, active, nil) == Remove(t, nil)
  {
    WeakestIs(t, nil);
  }

  /** Crediting Nil (0 here) with 0 inserts it in front of the tally. */
  lemma NilCredit(t: Scores, b: Ballot, u: Scores)
    requires t == [Entry(10, 1.0), Entry(20, 2.0)] && FirstChoice(b, u).None?
    ensures CountChoiceAsWritten(t, b, u, 0) == [Entry(0, 0.0), Entry(10, 1.0), Entry(20, 2.0)]
  {
    NotBelowFirst(t, 0);
    GetMissing(t, 0);
  }

  /** Nil, at 0, is the weakest entry; dropping it leaves both candidates. */
  lemma NilWeakest(t: Scores)
    requires t == [Entry(0, 0.0), Entry(10, 1.0), Entry(20, 2.0)]
    ensures IsLeast(t, 0)
    ensures Zero(Remove(t, 0)) == StuckRoll()
  {
    assert Remove(t, 0) == t[1..];
  }

  /** As written, the third ballot, whose only score is 0, credits uuid.Nil
      with 0, which puts Nil in the tally. */
  lemma StuckRoundAsWritten(vs: VoteMap, u: Scores)
    requires vs == StuckBallots() && u == StuckRoll()
    ensures CountRoundAsWritten(Zero(u), vs, u, 0) == [Entry(0, 0.0), Entry(10, 1.0), Entry(20, 2.0)]
  {
    StuckChoices();
    StuckFirstTwo(vs, u);
    CountThreeAsWritten(Zero(u), vs, u, 0);
    NilCredit(CountChoiceAsWritten(CountChoiceAsWritten(Zero(u), vs[0].value, u, 0), vs[1].value, u, 0), vs[2].value, u);
  }

  /** As written, a pass over StuckRoll eliminates Nil, not a candidate, and
      ends with the two candidates it started with. */
  lemma StuckPass(vs: VoteMap, u: Scores)
    requires vs == StuckBallots() && u == StuckRoll()
    ensures Zero(EliminateAsWritten(vs, u, 0)) == u
  {
    StuckRoundAsWritten(vs, u);
    var t := CountRoundAsWritten(Zero(u), vs, u, 0);
    NilWeakest(t);
    PassDrops(vs, u, 0, t);
  }

  /** A corrected count over three ballots is three steps. */
  lemma CountThree(acc: Scores, vs: VoteMap, active: Scores)
    requires |vs| == 3
    ensures CountRound(acc, vs, active)
      == CountChoice(CountChoice(CountChoice(acc, vs[0].value, active), vs[1].value, active), vs[2].value, active)
  {
    var a1 := CountChoice(acc, vs[0].value, active);
    var a2 := CountChoice(a1, vs[1].value, active);
    var a3 := CountChoice(a2, vs[2].value, active);
    assert vs[1..][0] == vs[1] && vs[1..][1..] == vs[2..];
    assert vs[2..][0] == vs[2] && vs[2..][1..] == [];
    assert CountRound(acc, vs, active) == CountRound(a1, vs[1..], active);
    assert CountRound(a1, vs[1..], active) == CountRound(a2, vs[2..], active);
    assert CountRound(a2, vs[2..], active) == CountRound(a3, [], active);
  }

  /** The corrected count of the first pass: the third ballot credits nobody. */
  lemma StuckTally(vs: VoteMap, u: Scores)
    requires vs == StuckBallots() && u == StuckRoll()
    ensures Tally(vs, u) == [Entry(10, 1.0), Entry(20, 2.0)]
  {
    StuckChoices();
    StuckFirstTwo(vs, u);
    CountThree(Zero(u), vs, u);
  }

  /** 10, at 1, is the weakest entry; dropping it leaves 20. */
  lemma TenWeakest(t: Scores)
    requires t == [Entry(10, 1.0), Entry(20, 2.0)]
    ensures IsLeast(t, 10)
    ensures Remove(t, 10) == [Entry(20, 2.0)]
  {
  }

  /** The corrected count eliminates 10 in the first round and elects 20. */
  lemma StuckCorrected(vs: VoteMap, u: Scores)
    requires vs == StuckBallots() && u == StuckRoll()
    ensures Rounds(vs, u) == [Entry(20, 2.0)]
  {
    StuckTally(vs, u);
    var t := Tally(vs, u);
    TenWeakest(t);
    WeakestIs(t, 10);
    assert Eliminate(vs, u) == [Entry(20, 2.0)];
  }

  /** With StuckVotes the third voter's weighted ballot scores nobody
      positively, so every pass as written credits uuid.Nil (0 here) with 0,
      eliminates it as the unique smallest count, and ends with the same two
      candidates it started with: the loop of line 243 never ends. The
      corrected count eliminates candidate 10 and elects 20. */
  lemma NilKeepsTheLoopGoing(vm: VoteMap, w: Weights)
    requires vm == StuckVotes() && w == StuckWeights()
    ensures var vs := Weigh(vm, w);
      var u := Roll([], vs);
      && u == [Entry(10, 0.0), Entry(20, 0.0)]
      && Zero(EliminateAsWritten(vs, u, 0)) == u
      && InstantRunoff(vm, w) == Some(20)
  {
    StuckWeighing();
    var vs := Weigh(vm, w);
    assert vs == StuckBallots();
    StuckRollCall();
    var u := Roll([], vs);
    assert u == StuckRoll();
    StuckPass(vs, u);
    StuckCorrected(vs, u);
  }

  /** Two voters: the second names only candidate 9 and is missing from the
      weight table. */
  function SilentVotes(): VoteMap {
    var a: Ballot := [Entry(1, 0.0)];
    var b: Ballot := [Entry(9, 5.0)];
    [Entry(1, a), Entry(2, b)]
  }

  function SilentWeights(): Weights {
    [Entry(1, 1.0)]
  }

  /** SilentVotes once weighted: the second ballot scores 9 with 0. */
  function SilentBallots(): VoteMap {
    var a: Ballot := [Entry(1, 0.0)];
    var z: Ballot := [Entry(9, 0.0)];
    [Entry(1, a), Entry(2, z)]
  }

  lemma SilentWeighing()
    ensures Weigh(SilentVotes(), SilentWeights()) == SilentBallots()
    ensures Remove(SilentVotes(), 2) == SilentVotes()[..1]
  {
    var vm := SilentVotes();
    var w := SilentWeights();
    assert WeightOf(w, 1) == 1.0;
    assert WeightOf(w, 2) == 0.0;
    assert Scale([Entry(1, 0.0)], 1.0) == [Entry(1, 0.0)];
    assert Scale([Entry(9, 5.0)], 0.0) == [Entry(9, 0.0)];
    WeighAt(vm, w, 0);
    WeighAt(vm, w, 1);
  }

  /** No ballot of SilentBallots scores anybody positively, so every round
      total is 0. */
  lemma SilentRound(vs: VoteMap, active: Scores, c: Candidate)
    requires vs == SilentBallots()
    ensures RoundTotal(vs, active, c) == 0.0
  {
    assert forall d :: Get(vs[0].value, d) <= 0.0 by {
      forall d ensures Get(vs[0].value, d) <= 0.0 {
        if d != 1 { GetMissing(vs[0].value, d); }
      }
    }
    assert forall d :: Get(vs[1].value, d) <= 0.0 by {
      forall d ensures Get(vs[1].value, d) <= 0.0 {
        if d != 9 { GetMissing(vs[1].value, d); }
      }
    }
    assert FirstChoice(vs[0].value, active).None?;
    assert FirstChoice(vs[1].value, active).None?;
    assert vs[1..][1..] == [];
  }

  /** Without the second voter the weighted ballots are the first one alone. */
  lemma SilentAlone()
    ensures Weigh(SilentVotes()[..1], SilentWeights()) == SilentBallots()[..1]
  {
    var one := SilentVotes()[..1];
    WeighAt(one, SilentWeights(), 0);
    assert WeightOf(SilentWeights(), 1) == 1.0;
    assert Scale([Entry(1, 0.0)], 1.0) == [Entry(1, 0.0)];
  }

  lemma SilentRollCall()
    ensures Roll([], SilentBallots()) == [Entry(1, 0.0), Entry(9, 0.0)]
    ensures Roll([], SilentBallots()[..1]) == [Entry(1, 0.0)]
  {
    var vs := SilentBallots();
    var u0 := Enrol([], vs[0].value);
    assert u0 == [Entry(1, 0.0)];
    var u := Enrol(u0, vs[1].value);
    assert u == [Entry(1, 0.0), Entry(9, 0.0)];
    assert Roll([], vs) == Roll(u0, vs[1..]) == Roll(u, vs[2..]);
    assert Roll([], vs[..1]) == Roll(u0, []);
  }

  /** Both candidates count 0, so the tie eliminates 1 and leaves 9. */
  lemma SilentRounds(vs: VoteMap, u: Scores)
    requires vs == SilentBallots() && u == [Entry(1, 0.0), Entry(9, 0.0)]
    ensures |Rounds(vs, u)| == 1 && Rounds(vs, u)[0].key == 9
  {
    var x := Loser(vs, u);
    assert Has(u, 1) && Has(u, 9);
    SilentRound(vs, u, 1);
    SilentRound(vs, u, 9);
    assert x == 1;
    var r := Eliminate(vs, u);
    assert Has(r, 9);
    assert Rounds(vs, u) == r;
  }

  /** A voter of weight 0 can decide InstantRunoff: with the second voter of
      SilentVotes the winner is 9, without them it is 1. Their ballot puts 9
      on the roll at count 0, level with 1, and the tie eliminates the
      smaller candidate, 1. */
  lemma SilentVoterDecides()
    ensures InstantRunoff(SilentVotes(), SilentWeights()) == Some(9)
    ensures InstantRunoff(Remove(SilentVotes(), 2), SilentWeights()) == Some(1)
  {
    SilentWeighing();
    SilentAlone();
    SilentRollCall();
    SilentRounds(SilentBallots(), [Entry(1, 0.0), Entry(9, 0.0)]);
  }
  /** Two rosters of the same candidates, whatever their counts. */
  ghost predicate SameKeys(a1: Scores, a2: Scores) {
    forall c :: Has(a1, c) <==> Has(a2, c)
  }

  /** Scaling a ballot by k > 0 keeps how its scores compare with each other
      and with 0, and the candidates it names. */
  lemma BallotOrderScaled(b: Ballot, k: real)
    requires k > 0.0
    ensures forall c :: Has(Scale(b, k), c) <==> Has(b, c)
    ensures forall c :: Get(Scale(b, k), c) > 0.0 <==> Get(b, c) > 0.0
    ensures forall c, d :: Get(Scale(b, k), c) <= Get(Scale(b, k), d) <==> Get(b, c) <= Get(b, d)
    ensures forall c, d :: Get(Scale(b, k), c) < Get(Scale(b, k), d) <==> Get(b, c) < Get(b, d)
  {
    forall c ensures (Has(Scale(b, k), c) <==> Has(b, c)) && (Get(Scale(b, k), c) > 0.0 <==> Get(b, c) > 0.0) {
      ScaleFacts(b, k, c);
      ScaledOrder(0.0, Get(b, c), k);
    }
    forall c, d
      ensures Get(Scale(b, k), c) <= Get(Scale(b, k), d) <==> Get(b, c) <= Get(b, d)
      ensures Get(Scale(b, k), c) < Get(Scale(b, k), d) <==> Get(b, c) < Get(b, d)
    {
      ScaleFacts(b, k, c);
      ScaleFacts(b, k, d);
      ScaledOrder(Get(b, c), Get(b, d), k);
    }
  }

  /** A ballot scaled by k > 0 has the same first choice among the same
      remaining candidates. */
  lemma FirstChoiceScaled(b: Ballot, a1: Scores, a2: Scores, k: real)
    requires k > 0.0 && SameKeys(a1, a2)
    ensures FirstChoice(Scale(b, k), a1) == FirstChoice(b, a2)
  {
    var s := Scale(b, k);
    BallotOrderScaled(b, k);
    var r := FirstChoice(b, a2);
    var r' := FirstChoice(s, a1);
    if r.Some? {
      var x := r.value;
      assert Has(a1, x) && Get(s, x) > 0.0;
      var x' := r'.value;
      assert Has(a2, x');
      assert !(x < x');
      assert !(x' < x);
    } else {
      assert forall c :: Has(a1, c) ==> Get(s, c) <= 0.0;
    }
  }

  /** Every ballot's first choice in a round, ballot by ballot. */
  function Choices(vs: VoteMap, active: Scores): (r: seq<Option<Candidate>>)
    ensures |r| == |vs|
  {
    seq(|vs|, i requires 0 <= i < |vs| => FirstChoice(vs[i].value, active))
  }

  /** Every ballot's score for c, ballot by ballot. */
  function ScoresFor(vs: VoteMap, c: Candidate): (r: seq<real>)
    ensures |r| == |vs|
  {
    seq(|vs|, i requires 0 <= i < |vs| => Get(vs[i].value, c))
  }

  /** What a ballot with the given first choice and score x for c adds to c. */
  function Award(choice: Option<Candidate>, c: Candidate, x: real): real {
    if choice == Some(c) then x else 0.0
  }

  /** What each ballot adds to c, given the ballots' first choices and scores for c. */
  function Awards(choices: seq<Option<Candidate>>, xs: seq<real>, c: Candidate): (r: seq<real>)
    requires |xs| == |choices|
    ensures |r| == |xs|
  {
    seq(|choices|, i requires 0 <= i < |choices| => Award(choices[i], c, xs[i]))
  }

  /** A round total is the sum of what each ballot adds. */
  lemma {:induction false} RoundTotalAwards(vs: VoteMap, active: Scores, c: Candidate)
    ensures RoundTotal(vs, active, c) == Sum(Awards(Choices(vs, active), ScoresFor(vs, c), c))
    decreases |vs|
  {
    if |vs| > 0 {
      assert Choices(vs, active)[1..] == Choices(vs[1..], active);
      assert ScoresFor(vs, c)[1..] == ScoresFor(vs[1..], c);
      assert Awards(Choices(vs, active), ScoresFor(vs, c), c)[1..] == Awards(Choices(vs[1..], active), ScoresFor(vs[1..], c), c);
      RoundTotalAwards(vs[1..], active, c);
    }
  }

  /** Ballots scaled by k > 0 make the same first choices. */
  lemma ChoicesScaled(vs: VoteMap, a1: Scores, a2: Scores, k: real)
    requires k > 0.0 && SameKeys(a1, a2)
    ensures Choices(Rescale(vs, k), a1) == Choices(vs, a2)
  {
    var us := Rescale(vs, k);
    forall i | 0 <= i < |vs| ensures Choices(us, a1)[i] == Choices(vs, a2)[i] {
      FirstChoiceScaled(vs[i].value, a1, a2, k);
    }
  }

  /** Ballots scaled by k give c k times their scores. */
  lemma ScoresForScaled(vs: VoteMap, k: real, c: Candidate)
    ensures ScaledBy(ScoresFor(Rescale(vs, k), c), ScoresFor(vs, c), k)
  {
    var us := Rescale(vs, k);
    forall i | 0 <= i < |vs| ensures ScoresFor(us, c)[i] == ScoresFor(vs, c)[i] * k {
      ScaleFacts(vs[i].value, k, c);
    }
  }

  /** With the same first choices, scores scaled by k give points scaled by k. */
  lemma AwardsScaled(choices: seq<Option<Candidate>>, xs: seq<real>, ys: seq<real>, c: Candidate, k: real)
    requires |xs| == |choices| && ScaledBy(ys, xs, k)
    ensures ScaledBy(Awards(choices, ys, c), Awards(choices, xs, c), k)
  {
    forall i | 0 <= i < |xs| ensures Awards(choices, ys, c)[i] == Awards(choices, xs, c)[i] * k {
      assert ys[i] == xs[i] * k;
    }
  }

  /** On ballots scaled by k > 0 two candidates' round totals compare as
      before. */
  lemma RoundOrderScaled(vs: VoteMap, a1: Scores, a2: Scores, k: real, c: Candidate, d: Candidate)
    requires k > 0.0 && SameKeys(a1, a2)
    ensures var us := Rescale(vs, k);
      RoundTotal(us, a1, c) > RoundTotal(us, a1, d) <==> RoundTotal(vs, a2, c) > RoundTotal(vs, a2, d)
  {
    var us := Rescale(vs, k);
    var choices := Choices(vs, a2);
    ChoicesScaled(vs, a1, a2, k);
    RoundTotalAwards(vs, a2, c);
    RoundTotalAwards(vs, a2, d);
    RoundTotalAwards(us, a1, c);
    RoundTotalAwards(us, a1, d);
    ScoresForScaled(vs, k, c);
    ScoresForScaled(vs, k, d);
    AwardsScaled(choices, ScoresFor(vs, c), ScoresFor(us, c), c, k);
    AwardsScaled(choices, ScoresFor(vs, d), ScoresFor(us, d), d, k);
    SumsCompare(Awards(choices, ScoresFor(vs, c), c), Awards(choices, ScoresFor(vs, d), d),
      Awards(choices, ScoresFor(us, c), c), Awards(choices, ScoresFor(us, d), d), k);
  }

  /** The same candidate is eliminated from ballots scaled by k > 0. */
  lemma LoserScaled(vs: VoteMap, a1: Scores, a2: Scores, k: real)
    requires k > 0.0 && SameKeys(a1, a2) && |a1| > 0 && |a2| > 0
    ensures Loser(Rescale(vs, k), a1) == Loser(vs, a2)
  {
    var x := Loser(vs, a2);
    var x' := Loser(Rescale(vs, k), a1);
    RoundOrderScaled(vs, a1, a2, k, x, x');
    RoundOrderScaled(vs, a1, a2, k, x', x);
  }

  /** Round after round, ballots scaled by k > 0 leave the same candidates
      in the race. */
  lemma {:induction false} RoundsScaled(vs: VoteMap, a1: Scores, a2: Scores, k: real)
    requires k > 0.0 && SameKeys(a1, a2) && |a1| == |a2|
    ensures SameKeys(Rounds(Rescale(vs, k), a1), Rounds(vs, a2))
    decreases |a1|
  {
    if |a1| > 1 {
      var us := Rescale(vs, k);
      LoserScaled(vs, a1, a2, k);
      RoundsScaled(vs, Eliminate(us, a1), Eliminate(vs, a2), k);
    }
  }

  /** Multiplying every voter's weight by the same positive factor does not
      change the InstantRunoff winner: every round's first choices stay the
      same and every round total is multiplied by it, so each round
      eliminates the same candidate. */
  lemma ScaleFree(vm: VoteMap, w: Weights, k: real)
    requires k > 0.0
    ensures InstantRunoff(vm, Scale(w, k)) == InstantRunoff(vm, w)
  {
    WeighScaled(vm, w, k);
    var vs := Weigh(vm, w);
    var us := Weigh(vm, Scale(w, k));
    var a1 := Roll([], us);
    var a2 := Roll([], vs);
    OnTheRoll(vm, w);
    OnTheRoll(vm, Scale(w, k));
    SameKeysSameLength(a1, a2);
    RoundsScaled(vs, a1, a2, k);
    var l1 := Rounds(us, a1);
    var l2 := Rounds(vs, a2);
    if |l1| > 0 {
      HasAt(l1, 0);
      assert Has(l2, l1[0].key);
      assert !Has(l2[1..], l1[0].key);
    }
  }
}

=== FILE: plurality.dfy ===
/** Plurality (VotingMethods.go:16-61) and the first-place count it shares
    with Runoff and InstantRunoff.
 */
module Plurality {
  import opened Tables
  import opened Selection
  import opened Weighting

  /** A ballot's first choice: its largest strictly positive score, the smallest
      candidate among equal scores. None when no score is positive. This is
      Selection.Leader applied to one ballot (the loop of lines 38-45); the
      name records its role in the count. */
  function TopChoice(b: Ballot): (r: Option<Candidate>)
    ensures r.Some? ==> IsBest(b, r.value) && Get(b, r.value) > 0.0
    ensures r.None? <==> forall i :: 0 <= i < |b| ==> b[i].value <= 0.0
  {
    Leader(b)
  }

  /** What one ballot adds to candidate c in the first-place count. */
  function FirstPlacePoints(b: Ballot, c: Candidate): real {
    if IsBest(b, c) && Get(b, c) > 0.0 then Get(b, c) else 0.0
  }

  /** Candidate c's first-place total: the sum, over all ballots, of the top
      score of each ballot whose first choice is c. */
  function FirstPlaceTotal(vs: VoteMap, c: Candidate): real
    decreases |vs|
  {
    if |vs| == 0 then 0.0 else FirstPlacePoints(vs[0].value, c) + FirstPlaceTotal(vs[1..], c)
  }

  /** The score a ballot gives its first choice, 0 when it has none. */
  function TopScore(b: Ballot): real {
    match TopChoice(b)
    case None => 0.0
    case Some(c) => Get(b, c)
  }

  /** The sum of every ballot's top score: all the first-place points there are. */
  function TopSum(vs: VoteMap): real
    decreases |vs|
  {
    if |vs| == 0 then 0.0 else TopScore(vs[0].value) + TopSum(vs[1..])
  }

  /** Some ballot has c as its first choice. */
  predicate FirstOnSome(vs: VoteMap, c: Candidate)
    decreases |vs|
  {
    |vs| > 0 && ((IsBest(vs[0].value, c) && Get(vs[0].value, c) > 0.0) || FirstOnSome(vs[1..], c))
  }

  /** `voteCount[firstLootBoxChoice] += maxPreference` for one ballot. A ballot
      without a positive score credits nobody (the source credits uuid.Nil with 0). */
  function CountFirst(acc: Scores, b: Ballot): Scores {
    match TopChoice(b)
    case None => acc
    case Some(c) => Credit(acc, c, Get(b, c))
  }

  /** The first-place counting loop over all ballots, in voter order. */
  function FirstPlaceTally(acc: Scores, vs: VoteMap): Scores
    decreases |vs|
  {
    if |vs| == 0 then acc else FirstPlaceTally(CountFirst(acc, vs[0].value), vs[1..])
  }

  lemma CountFirstFacts(acc: Scores, b: Ballot)
    ensures forall c :: Get(CountFirst(acc, b), c) == Get(acc, c) + FirstPlacePoints(b, c)
    ensures forall c :: Has(CountFirst(acc, b), c) <==> Has(acc, c) || (IsBest(b, c) && Get(b, c) > 0.0)
  {
    match TopChoice(b)
    case None =>
      forall c ensures Get(b, c) <= 0.0 {
        if Has(b, c) {
          var i := IndexOf(b, c);
          GetAt(b, i);
        } else {
          GetMissing(b, c);
        }
      }
    case Some(t) =>
      CreditFacts(acc, t, Get(b, t));
      forall c | IsBest(b, c) ensures c == t {
        BestUnique(b, c, t);
      }
  }

  /** The counting loop computes exactly the first-place totals, and its keys
      are the candidates that are some ballot's first choice. */
  lemma {:induction false} FirstPlaceTallyIsTotal(acc: Scores, vs: VoteMap)
    ensures forall c :: Get(FirstPlaceTally(acc, vs), c) == Get(acc, c) + FirstPlaceTotal(vs, c)
    ensures forall c :: Has(FirstPlaceTally(acc, vs), c) <==> Has(acc, c) || FirstOnSome(vs, c)
    decreases |vs|
  {
    if |vs| > 0 {
      CountFirstFacts(acc, vs[0].value);
      FirstPlaceTallyIsTotal(CountFirst(acc, vs[0].value), vs[1..]);
    }
  }

  /** Every first choice is a candidate named on some ballot. */
  lemma {:induction false} FirstOnSomeMentioned(vs: VoteMap, c: Candidate)
    requires FirstOnSome(vs, c)
    ensures Mentions(vs, c)
    decreases |vs|
  {
    if !(IsBest(vs[0].value, c) && Get(vs[0].value, c) > 0.0) {
      FirstOnSomeMentioned(vs[1..], c);
    }
  }

  /** First-place totals are never negative. */
  lemma {:induction false} FirstPlaceTotalNonNegative(vs: VoteMap, c: Candidate)
    ensures FirstPlaceTotal(vs, c) >= 0.0
    decreases |vs|
  {
    if |vs| > 0 {
      FirstPlaceTotalNonNegative(vs[1..], c);
    }
  }

  lemma {:induction false} TopSumNonNegative(vs: VoteMap)
    ensures TopSum(vs) >= 0.0
    decreases |vs|
  {
    if |vs| > 0 {
      TopSumNonNegative(vs[1..]);
    }
  }

  /** A candidate with a positive first-place total is some ballot's first choice. */
  lemma FirstOnSomeOf(vs: VoteMap, c: Candidate)
    requires FirstPlaceTotal(vs, c) > 0.0
    ensures FirstOnSome(vs, c)
  {
    if !FirstOnSome(vs, c) {
      FirstPlaceTotalZero(vs, c);
    }
  }

  /** A candidate that is nobody's first choice has first-place total 0. */
  lemma {:induction false} FirstPlaceTotalZero(vs: VoteMap, c: Candidate)
    requires !FirstOnSome(vs, c)
    ensures FirstPlaceTotal(vs, c) == 0.0
    decreases |vs|
  {
    if |vs| > 0 {
      FirstPlaceTotalZero(vs[1..], c);
    }
  }

  /** The Plurality winner: the candidate with the largest positive first-place
      total, the smallest such candidate on a tie; None (uuid.Nil) when no total
      is positive. */
  function Plurality(vm: VoteMap, w: Weights): (r: Option<Candidate>)
    ensures var vs := Weigh(vm, w);
      && (r.Some? ==> Mentions(vm, r.value) && FirstPlaceTotal(vs, r.value) > 0.0)
      && (r.Some? ==> forall c :: FirstPlaceTotal(vs, c) <= FirstPlaceTotal(vs, r.value))
      && (r.Some? ==> forall c :: c < r.value ==> FirstPlaceTotal(vs, c) < FirstPlaceTotal(vs, r.value))
      && (r.None? <==> forall c :: FirstPlaceTotal(vs, c) <= 0.0)
  {
    PluralityLeader(vm, w);
    Leader(FirstPlaceTally([], Weigh(vm, w)))
  }

  lemma PluralityLeader(vm: VoteMap, w: Weights)
    ensures var vs := Weigh(vm, w); var r := Leader(FirstPlaceTally([], vs));
      && (r.Some? ==> Mentions(vm, r.value) && FirstPlaceTotal(vs, r.value) > 0.0)
      && (r.Some? ==> forall c :: FirstPlaceTotal(vs, c) <= FirstPlaceTotal(vs, r.value))
      && (r.Some? ==> forall c :: c < r.value ==> FirstPlaceTotal(vs, c) < FirstPlaceTotal(vs, r.value))
      && (r.None? <==> forall c :: FirstPlaceTotal(vs, c) <= 0.0)
  {
    var vs := Weigh(vm, w);
    var t := FirstPlaceTally([], vs);
    FirstPlaceTallyIsTotal([], vs);
    var total := c => FirstPlaceTotal(vs, c);
    assert forall c :: Get(t, c) == total(c);
    LeaderOverTotals(t, total);
    if Leader(t).Some? {
      FirstOnSomeMentioned(vs, Leader(t).value);
      MentionsWeighed(vm, w, Leader(t).value);
    }
  }

  /** Dropping a ballot that has no first choice leaves the count unchanged:
      that ballot credits nobody. */
  lemma {:induction false} SilentFirstPlace(acc: Scores, vs: VoteMap, i: nat)
    requires i < |vs| && TopChoice(vs[i].value).None?
    ensures FirstPlaceTally(acc, Remove(vs, vs[i].key)) == FirstPlaceTally(acc, vs)
    decreases |vs|
  {
    if i > 0 {
      var v := vs[i].key;
      var rest := Remove(vs[1..], v);
      assert vs[0].key != v;
      assert Remove(vs, v) == [vs[0]] + rest;
      assert ([vs[0]] + rest)[1..] == rest;
      assert vs[1..][i - 1] == vs[i];
      SilentFirstPlace(CountFirst(acc, vs[0].value), vs[1..], i - 1);
    }
  }

  /** A voter of weight 0, in particular one missing from the weight table,
      cannot change the Plurality result: their weighted ballot has no
      positive score, so it is nobody's first-place vote. */
  lemma SilentVoterIgnored(vm: VoteMap, w: Weights, i: nat)
    requires i < |vm| && WeightOf(w, vm[i].key) == 0.0
    ensures Plurality(vm, w) == Plurality(Remove(vm, vm[i].key), w)
  {
    var vs := Weigh(vm, w);
    WeighRemove(vm, w, vm[i].key);
    UnweightedVoterScoresZero(vm, w, i);
    SilentFirstPlace([], vs, i);
  }

  /** A ballot scaled by k > 0 has the same first choice and credits it k
      times the score. */
  lemma CountFirstScaled(acc: Scores, b: Ballot, k: real)
    requires k > 0.0
    ensures CountFirst(Scale(acc, k), Scale(b, k)) == Scale(CountFirst(acc, b), k)
  {
    TopChoiceScaled(b, k);
    match TopChoice(b)
    case None =>
    case Some(c) => ChoiceCreditScaled(acc, b, k, c);
  }

  lemma ChoiceCreditScaled(acc: Scores, b: Ballot, k: real, c: Candidate)
    ensures Credit(Scale(acc, k), c, Get(Scale(b, k), c)) == Scale(Credit(acc, c, Get(b, c)), k)
  {
    ScaleFacts(b, k, c);
    CreditScaled(acc, c, Get(b, c), Get(Scale(b, k), c), k);
  }

  lemma TopChoiceScaled(b: Ballot, k: real)
    requires k > 0.0
    ensures TopChoice(Scale(b, k)) == TopChoice(b)
  {
    SelectionRescaled(Scale(b, k), b, k);
  }

  /** Counting the scaled ballots from a scaled start gives the count scaled. */
  lemma {:induction false} FirstPlaceTallyScaled(acc: Scores, vs: VoteMap, k: real)
    requires k > 0.0
    ensures FirstPlaceTally(Scale(acc, k), Rescale(vs, k)) == Scale(FirstPlaceTally(acc, vs), k)
    decreases |vs|
  {
    if |vs| > 0 {
      RescaleTail(vs, k);
      CountFirstScaled(acc, vs[0].value, k);
      FirstPlaceTallyScaled(CountFirst(acc, vs[0].value), vs[1..], k);
    }
  }

  /** Multiplying every voter's weight by the same positive factor does not
      change the Plurality winner: every first-place total is multiplied by
      it, and the largest stays the largest. */
  lemma ScaleFree(vm: VoteMap, w: Weights, k: real)
    requires k > 0.0
    ensures Plurality(vm, Scale(w, k)) == Plurality(vm, w)
  {
    WeighScaled(vm, w, k);
    var t := FirstPlaceTally([], Weigh(vm, w));
    assert Scale([], k) == [];
    FirstPlaceTallyScaled([], Weigh(vm, w), k);
    SelectionRescaled(Scale(t, k), t, k);
  }
}

=== FILE: runoff.dfy ===
/** Runoff (VotingMethods.go:63-136): a first round counted as in Plurality,
    a "leader has at least twice the runner-up" shortcut, otherwise a second
    round between the two finalists.
 */
module Runoff {
  import opened Tables
  import opened Selection
  import opened Weighting
  import opened Plurality
  import opened Sums

  /** The two-finalist scan of lines 100-112: positions in the first-round
      count of the leader and the runner-up, with their vote totals. */
  datatype Finalists = Finalists(first: Option<nat>, firstVotes: real, second: Option<nat>, secondVotes: real)

  /** The first-round leader sits at index a; b holds the largest value among
      the other indices, and every earlier other index holds strictly less. */
  predicate IsRunnerUpAt(t: Scores, a: nat, b: nat) {
    && a < |t| && b < |t| && a != b
    && (forall i :: 0 <= i < |t| && i != a ==> t[i].value <= t[b].value)
    && (forall i :: 0 <= i < b && i != a ==> t[i].value < t[b].value)
  }

  /** What the scan promises: the leader's index holds the largest total, the
      runner-up's index the largest among the rest, each the first of equal
      totals; a slot stays empty while nothing positive fills it. */
  predicate FinalistsOf(t: Scores, f: Finalists) {
    && (f.first.Some? ==> IsMaxAt(t, f.first.value) && f.firstVotes == t[f.first.value].value > 0.0)
    && (f.first.None? ==> f.firstVotes == 0.0 && forall i :: 0 <= i < |t| ==> t[i].value <= 0.0)
    && (f.second.Some? ==> f.first.Some? && IsRunnerUpAt(t, f.first.value, f.second.value))
    && (f.second.Some? ==> f.secondVotes == t[f.second.value].value > 0.0)
    && (f.second.None? ==> f.secondVotes == 0.0)
    && (f.second.None? && f.first.Some? ==> forall i :: 0 <= i < |t| && i != f.first.value ==> t[i].value <= 0.0)
    && 0.0 <= f.secondVotes <= f.firstVotes
  }

  /** One step of the scan, for the value v at index n: a value beating the
      leader demotes the leader to runner-up; a value beating only the
      runner-up replaces it. */
  function ScanStep(f: Finalists, n: nat, v: real): Finalists {
    if v > f.firstVotes then Finalists(Some(n), v, f.first, f.firstVotes)
    else if v > f.secondVotes then Finalists(f.first, f.firstVotes, Some(n), v)
    else f
  }

  /** The scan, with `maxVotes1` and `maxVotes2` both starting at 0. */
  function TopTwo(t: Scores): (f: Finalists)
    ensures f.first.Some? ==> f.first.value < |t|
    ensures f.second.Some? ==> f.second.value < |t|
    decreases |t|
  {
    if |t| == 0 then Finalists(None, 0.0, None, 0.0)
    else ScanStep(TopTwo(t[..|t| - 1]), |t| - 1, t[|t| - 1].value)
  }

  lemma {:induction false} TopTwoFinalists(t: Scores)
    ensures FinalistsOf(t, TopTwo(t))
    decreases |t|
  {
    if |t| > 0 {
      var n := |t| - 1;
      TopTwoFinalists(t[..n]);
      var f := TopTwo(t[..n]);
      var v := t[n].value;
      if v > f.firstVotes {
        NewLeader(t, f);
      } else if v > f.secondVotes {
        NewRunnerUp(t, f);
      } else {
        NoChange(t, f);
      }
    }
  }

  lemma NewLeader(t: Scores, f: Finalists)
    requires |t| > 0 && FinalistsOf(t[..|t| - 1], f)
    requires t[|t| - 1].value > f.firstVotes
    ensures FinalistsOf(t, ScanStep(f, |t| - 1, t[|t| - 1].value))
  {
    var n := |t| - 1;
    assert forall i :: 0 <= i < n ==> t[..n][i] == t[i];
    assert IsMaxAt(t, n);
    if f.first.Some? {
      assert IsRunnerUpAt(t, n, f.first.value);
    }
  }

  lemma NewRunnerUp(t: Scores, f: Finalists)
    requires |t| > 0 && FinalistsOf(t[..|t| - 1], f)
    requires f.secondVotes < t[|t| - 1].value <= f.firstVotes
    ensures FinalistsOf(t, ScanStep(f, |t| - 1, t[|t| - 1].value))
  {
    var n := |t| - 1;
    assert forall i :: 0 <= i < n ==> t[..n][i] == t[i];
    assert IsMaxAt(t, f.first.value);
    assert IsRunnerUpAt(t, f.first.value, n);
  }

  lemma NoChange(t: Scores, f: Finalists)
    requires |t| > 0 && FinalistsOf(t[..|t| - 1], f)
    requires t[|t| - 1].value <= f.secondVotes
    ensures FinalistsOf(t, ScanStep(f, |t| - 1, t[|t| - 1].value))
  {
    var n := |t| - 1;
    assert forall i :: 0 <= i < n ==> t[..n][i] == t[i];
    if f.first.Some? {
      assert IsMaxAt(t, f.first.value);
    }
    if f.second.Some? {
      assert IsRunnerUpAt(t, f.first.value, f.second.value);
    }
  }

  /** Lines 121-127 for one ballot: it goes to the first finalist when it scores
      that finalist strictly higher, otherwise to the second (ties included). */
  function SecondRoundVote(acc: Scores, p: Ballot, a: Candidate, b: Candidate): Scores {
    if Get(p, a) > Get(p, b) then Credit(acc, a, Get(p, a)) else Credit(acc, b, Get(p, b))
  }

  function SecondRound(acc: Scores, vs: VoteMap, a: Candidate, b: Candidate): Scores
    decreases |vs|
  {
    if |vs| == 0 then acc else SecondRound(SecondRoundVote(acc, vs[0].value, a, b), vs[1..], a, b)
  }

  /** Second-round total of the first finalist a against b: the scores for a
      of the ballots that rate a strictly above b. */
  function ForFirst(vs: VoteMap, a: Candidate, b: Candidate): real
    decreases |vs|
  {
    if |vs| == 0 then 0.0 else FirstShare(vs[0].value, a, b) + ForFirst(vs[1..], a, b)
  }

  /** What ballot p gives the first finalist a against b. */
  function FirstShare(p: Ballot, a: Candidate, b: Candidate): real {
    if Get(p, a) > Get(p, b) then Get(p, a) else 0.0
  }

  /** Second-round total of the second finalist b against a: the scores for b
      of the ballots that rate b at least as high as a. */
  function ForSecond(vs: VoteMap, a: Candidate, b: Candidate): real
    decreases |vs|
  {
    if |vs| == 0 then 0.0 else SecondShare(vs[0].value, a, b) + ForSecond(vs[1..], a, b)
  }

  /** What ballot p gives the second finalist b against a. */
  function SecondShare(p: Ballot, a: Candidate, b: Candidate): real {
    if Get(p, a) > Get(p, b) then 0.0 else Get(p, b)
  }

  lemma {:induction false} SecondRoundTotals(acc: Scores, vs: VoteMap, a: Candidate, b: Candidate)
    requires a != b
    ensures Get(SecondRound(acc, vs, a, b), a) == Get(acc, a) + ForFirst(vs, a, b)
    ensures Get(SecondRound(acc, vs, a, b), b) == Get(acc, b) + ForSecond(vs, a, b)
    decreases |vs|
  {
    if |vs| > 0 {
      var p := vs[0].value;
      CreditFacts(acc, a, Get(p, a));
      CreditFacts(acc, b, Get(p, b));
      SecondRoundTotals(SecondRoundVote(acc, p, a, b), vs[1..], a, b);
    }
  }

  /** The Runoff winner: with no positive first-place total, None (uuid.Nil);
      otherwise one of the two finalists, so at most one candidate has a
      larger first-place total than the winner. */
  function Runoff(vm: VoteMap, w: Weights): (r: Option<Candidate>)
    ensures var vs := Weigh(vm, w);
      && (r.Some? ==> Mentions(vm, r.value) && FirstPlaceTotal(vs, r.value) > 0.0)
      && (r.Some? ==> forall c, d :: FirstPlaceTotal(vs, c) > FirstPlaceTotal(vs, r.value) && FirstPlaceTotal(vs, d) > FirstPlaceTotal(vs, r.value) ==> c == d)
      && (r.None? <==> forall c :: FirstPlaceTotal(vs, c) <= 0.0)
  {
    var r := Settle(Weigh(vm, w));
    SettleWinner(Weigh(vm, w));
    if r.Some? then MentionsWeighed(vm, w, r.value); r else r
  }

  /** The two rounds of lines 85-133 on the weighted ballots: the leader when
      it has at least twice the runner-up's first-place total, otherwise the
      second-round winner of the two finalists. */
  function Settle(vs: VoteMap): Option<Candidate> {
    var t := FirstPlaceTally([], vs);
    var f := TopTwo(t);
    TopTwoFinalists(t);
    if f.firstVotes >= f.secondVotes * 2.0 then
      if f.first.Some? then Some(t[f.first.value].key) else None
    else
      var a := t[f.first.value].key;
      var b := t[f.second.value].key;
      var t2 := SecondRound([], vs, a, b);
      if Get(t2, a) > Get(t2, b) then Some(a) else Some(b)
  }

  /** The decision on weighted ballots names a candidate of a ballot with a
      positive first-place total, beaten by at least one other candidate at most. */
  lemma SettleWinner(vs: VoteMap)
    ensures var r := Settle(vs);
      && (r.Some? ==> Mentions(vs, r.value) && FirstPlaceTotal(vs, r.value) > 0.0)
      && (r.Some? ==> forall c, d :: FirstPlaceTotal(vs, c) > FirstPlaceTotal(vs, r.value) && FirstPlaceTotal(vs, d) > FirstPlaceTotal(vs, r.value) ==> c == d)
      && (r.None? <==> forall c :: FirstPlaceTotal(vs, c) <= 0.0)
  {
    FinalistFacts(vs);
  }

  /** The first-round count restated over first-place totals. */
  lemma FirstRound(vs: VoteMap, t: Scores)
    requires t == FirstPlaceTally([], vs)
    ensures forall c :: Get(t, c) == FirstPlaceTotal(vs, c)
    ensures forall i :: 0 <= i < |t| ==> t[i].value == FirstPlaceTotal(vs, t[i].key)
    ensures forall i :: 0 <= i < |t| ==> Mentions(vs, t[i].key)
    ensures forall c :: !Has(t, c) ==> FirstPlaceTotal(vs, c) == 0.0
  {
    FirstPlaceTallyIsTotal([], vs);
    forall i | 0 <= i < |t| ensures t[i].value == FirstPlaceTotal(vs, t[i].key) && Mentions(vs, t[i].key) {
      GetAt(t, i);
      HasAt(t, i);
      FirstOnSomeMentioned(vs, t[i].key);
    }
    forall c | !Has(t, c) ensures FirstPlaceTotal(vs, c) == 0.0 {
      GetMissing(t, c);
    }
  }

  /** The finalists restated over first-place totals of all candidates: the
      leader's total is the largest, the runner-up's the largest of the rest. */
  lemma FinalistFacts(vs: VoteMap)
    ensures var t := FirstPlaceTally([], vs); var f := TopTwo(t);
      && FinalistsOf(t, f)
      && (forall i :: 0 <= i < |t| ==> Mentions(vs, t[i].key) && t[i].value == FirstPlaceTotal(vs, t[i].key))
      && (f.first.None? ==> forall c :: FirstPlaceTotal(vs, c) <= 0.0)
      && (f.first.Some? ==> forall c :: FirstPlaceTotal(vs, c) <= FirstPlaceTotal(vs, t[f.first.value].key))
      && (f.second.Some? ==> forall c :: c != t[f.first.value].key ==> FirstPlaceTotal(vs, c) <= FirstPlaceTotal(vs, t[f.second.value].key))
  {
    var t := FirstPlaceTally([], vs);
    var f := TopTwo(t);
    TopTwoFinalists(t);
    FirstRound(vs, t);
    FinalistBounds(vs, t, f);
  }

  /** The finalists' bounds on the count table hold for all candidates, since
      a candidate missing from the table has first-place total 0. */
  lemma FinalistBounds(vs: VoteMap, t: Scores, f: Finalists)
    requires FinalistsOf(t, f)
    requires forall i :: 0 <= i < |t| ==> t[i].value == FirstPlaceTotal(vs, t[i].key)
    requires forall c :: !Has(t, c) ==> FirstPlaceTotal(vs, c) == 0.0
    ensures f.first.None? ==> forall c :: FirstPlaceTotal(vs, c) <= 0.0
    ensures f.first.Some? ==> forall c :: FirstPlaceTotal(vs, c) <= FirstPlaceTotal(vs, t[f.first.value].key)
    ensures f.second.Some? ==> forall c :: c != t[f.first.value].key ==> FirstPlaceTotal(vs, c) <= FirstPlaceTotal(vs, t[f.second.value].key)
  {
    forall c ensures f.first.None? ==> FirstPlaceTotal(vs, c) <= 0.0 {
      if Has(t, c) {
        var i := IndexOf(t, c);
      }
    }
    forall c ensures f.first.Some? ==> FirstPlaceTotal(vs, c) <= FirstPlaceTotal(vs, t[f.first.value].key) {
      if Has(t, c) {
        var i := IndexOf(t, c);
      }
    }
    forall c | f.second.Some? && c != t[f.first.value].key
      ensures FirstPlaceTotal(vs, c) <= FirstPlaceTotal(vs, t[f.second.value].key)
    {
      if Has(t, c) {
        var i := IndexOf(t, c);
      }
    }
  }

  /** The first finalist is the Plurality winner. */
  lemma FirstFinalistIsPluralityWinner(vm: VoteMap, w: Weights)
    ensures var t := FirstPlaceTally([], Weigh(vm, w)); var f := TopTwo(t);
      Plurality.Plurality(vm, w) == if f.first.Some? then Some(t[f.first.value].key) else None
  {
    var t := FirstPlaceTally([], Weigh(vm, w));
    var f := TopTwo(t);
    TopTwoFinalists(t);
    if f.first.Some? {
      KeyAtMax(t, f.first.value);
      GetAt(t, f.first.value);
      LeaderIs(t, t[f.first.value].key);
    }
  }

  /** The shortcut of line 115: when the Plurality winner has at least twice
      the first-place total of every other candidate, Runoff returns it
      without a second round. */
  lemma RunoffShortcut(vm: VoteMap, w: Weights, a: Candidate)
    requires Plurality.Plurality(vm, w) == Some(a)
    requires forall c :: c != a ==> 2.0 * FirstPlaceTotal(Weigh(vm, w), c) <= FirstPlaceTotal(Weigh(vm, w), a)
    ensures Runoff(vm, w) == Some(a)
  {
    var vs := Weigh(vm, w);
    var t := FirstPlaceTally([], vs);
    var f := TopTwo(t);
    FirstFinalistIsPluralityWinner(vm, w);
    FinalistFacts(vs);
    assert f.first.Some? && t[f.first.value].key == a;
    assert f.firstVotes == FirstPlaceTotal(vs, a);
    if f.second.Some? {
      var j := f.second.value;
      assert t[j].key != a;
      assert f.secondVotes == FirstPlaceTotal(vs, t[j].key);
    }
    assert f.firstVotes >= f.secondVotes * 2.0;
  }

  /** The second round of lines 119-133: when the runner-up b has more than
      half the Plurality winner a's first-place total, the winner is a if its
      second-round total is strictly larger, otherwise b. A ballot scoring a
      and b equally counts for b. */
  lemma RunoffSecondRound(vm: VoteMap, w: Weights, a: Candidate, b: Candidate)
    requires Plurality.Plurality(vm, w) == Some(a)
    requires b != a
    requires forall c :: c != a ==> FirstPlaceTotal(Weigh(vm, w), c) <= FirstPlaceTotal(Weigh(vm, w), b)
    requires forall c :: c != a && c < b ==> FirstPlaceTotal(Weigh(vm, w), c) < FirstPlaceTotal(Weigh(vm, w), b)
    requires 2.0 * FirstPlaceTotal(Weigh(vm, w), b) > FirstPlaceTotal(Weigh(vm, w), a)
    ensures var vs := Weigh(vm, w);
      Runoff(vm, w) == Some(if ForFirst(vs, a, b) > ForSecond(vs, a, b) then a else b)
  {
    var vs := Weigh(vm, w);
    var t := FirstPlaceTally([], vs);
    var f := TopTwo(t);
    FirstFinalistIsPluralityWinner(vm, w);
    assert FinalistsOf(t, f) by {
      TopTwoFinalists(t);
    }
    assert forall i :: 0 <= i < |t| ==> t[i].value == FirstPlaceTotal(vs, t[i].key) by {
      FirstRound(vs, t);
    }
    FirstPlaceTotalNonNegative(vs, a);
    var ib := TallyIndex(vs, t, b);
    RunnerUpByTotal(vs, t, f, a, b, ib);
    SecondRoundTotals([], vs, a, b);
  }

  /** A candidate with a nonzero first-place total has an entry in the tally. */
  lemma TallyIndex(vs: VoteMap, t: Scores, c: Candidate) returns (i: nat)
    requires t == FirstPlaceTally([], vs) && FirstPlaceTotal(vs, c) != 0.0
    ensures i < |t| && t[i].key == c
  {
    FirstRound(vs, t);
    i := IndexOf(t, c);
  }

  /** Stated on first-place totals: the runner-up is the candidate other than
      the leader with the largest positive total, the least id on a tie. */
  lemma RunnerUpByTotal(vs: VoteMap, t: Scores, f: Finalists, a: Candidate, b: Candidate, ib: nat)
    requires FinalistsOf(t, f) && f.first.Some? && f.first.value < |t| && t[f.first.value].key == a
    requires forall i :: 0 <= i < |t| ==> t[i].value == FirstPlaceTotal(vs, t[i].key)
    requires ib < |t| && t[ib].key == b && b != a && 0.0 <= FirstPlaceTotal(vs, a) < 2.0 * FirstPlaceTotal(vs, b)
    requires forall c :: c != a ==> FirstPlaceTotal(vs, c) <= FirstPlaceTotal(vs, b)
    requires forall c :: c != a && c < b ==> FirstPlaceTotal(vs, c) < FirstPlaceTotal(vs, b)
    ensures f.second.Some? && f.second.value < |t| && t[f.second.value].key == b
    ensures f.firstVotes < f.secondVotes * 2.0
  {
    var ia := f.first.value;
    OthersBelow(vs, t, ia, ib);
    RunnerUpIndex(t, f, ia, ib);
    assert f.firstVotes == FirstPlaceTotal(vs, a);
    assert f.secondVotes == FirstPlaceTotal(vs, b);
  }

  /** Index form of the runner-up conditions: with keys ascending, a
      candidate id below b sits at an index below b's. */
  lemma OthersBelow(vs: VoteMap, t: Scores, ia: nat, ib: nat)
    requires ia < |t| && ib < |t| && t[ib].key != t[ia].key
    requires forall i :: 0 <= i < |t| ==> t[i].value == FirstPlaceTotal(vs, t[i].key)
    requires forall c :: c != t[ia].key ==> FirstPlaceTotal(vs, c) <= FirstPlaceTotal(vs, t[ib].key)
    requires forall c :: c != t[ia].key && c < t[ib].key ==> FirstPlaceTotal(vs, c) < FirstPlaceTotal(vs, t[ib].key)
    ensures forall i :: 0 <= i < |t| && i != ia ==> t[i].value <= t[ib].value
    ensures forall i :: 0 <= i < ib && i != ia ==> t[i].value < t[ib].value
  {
    forall i | 0 <= i < |t| && i != ia
      ensures t[i].value <= t[ib].value
      ensures i < ib ==> t[i].value < t[ib].value
    {
      assert t[i].key != t[ia].key;
    }
  }

  /** The runner-up slot holds the index whose total is the largest apart
      from the leader's, the first such index on a tie. */
  lemma RunnerUpIndex(t: Scores, f: Finalists, ia: nat, ib: nat)
    requires FinalistsOf(t, f) && f.first == Some(ia)
    requires ib < |t| && ib != ia && t[ib].value > 0.0
    requires forall i :: 0 <= i < |t| && i != ia ==> t[i].value <= t[ib].value
    requires forall i :: 0 <= i < ib && i != ia ==> t[i].value < t[ib].value
    ensures f.second == Some(ib)
  {
  }

  /** Dropping a ballot that scores everybody 0 changes neither second-round
      total: it adds 0 to whichever finalist it counts for. */
  lemma {:induction false} SilentSecondRound(vs: VoteMap, i: nat, a: Candidate, b: Candidate)
    requires i < |vs| && forall c :: Get(vs[i].value, c) == 0.0
    ensures ForFirst(Remove(vs, vs[i].key), a, b) == ForFirst(vs, a, b)
    ensures ForSecond(Remove(vs, vs[i].key), a, b) == ForSecond(vs, a, b)
    decreases |vs|
  {
    if i > 0 {
      var v := vs[i].key;
      var rest := Remove(vs[1..], v);
      assert vs[0].key != v;
      assert Remove(vs, v) == [vs[0]] + rest;
      assert ([vs[0]] + rest)[1..] == rest;
      assert vs[1..][i - 1] == vs[i];
      SilentSecondRound(vs[1..], i - 1, a, b);
    }
  }

  /** A voter of weight 0, in particular one missing from the weight table,
      cannot change the Runoff result: their weighted ballot is nobody's
      first-place vote and adds 0 in the second round. */
  lemma SilentVoterIgnored(vm: VoteMap, w: Weights, i: nat)
    requires i < |vm| && WeightOf(w, vm[i].key) == 0.0
    ensures Runoff(vm, w) == Runoff(Remove(vm, vm[i].key), w)
  {
    WeighRemove(vm, w, vm[i].key);
    UnweightedVoterScoresZero(vm, w, i);
    SilentSettle(Weigh(vm, w), i);
  }

  /** The same on weighted ballots: a ballot of zeros decides nothing. */
  lemma SilentSettle(vs: VoteMap, i: nat)
    requires i < |vs| && forall c :: Get(vs[i].value, c) == 0.0
    requires forall j :: 0 <= j < |vs[i].value| ==> vs[i].value[j].value == 0.0
    ensures Settle(Remove(vs, vs[i].key)) == Settle(vs)
  {
    var vs' := Remove(vs, vs[i].key);
    SilentFirstPlace([], vs, i);
    var t := FirstPlaceTally([], vs);
    var f := TopTwo(t);
    TopTwoFinalists(t);
    if f.firstVotes < f.secondVotes * 2.0 {
      var a := t[f.first.value].key;
      var b := t[f.second.value].key;
      assert a != b;
      SecondRoundTotals([], vs, a, b);
      SecondRoundTotals([], vs', a, b);
      SilentSecondRound(vs, i, a, b);
    }
  }

  /** On a count scaled by k > 0 the finalist scan picks the same indices,
      with the vote totals scaled, so the shortcut test gives the same answer. */
  lemma ShortcutSame(t: Scores, k: real)
    requires k > 0.0
    ensures var f := TopTwo(t); var g := TopTwo(Scale(t, k));
      && g.first == f.first && g.second == f.second
      && (g.firstVotes >= g.secondVotes * 2.0 <==> f.firstVotes >= f.secondVotes * 2.0)
  {
    TopTwoIndicesScaled(t, k);
    FinalistVotesScaled(t, Scale(t, k), k);
    ShortcutScaled(TopTwo(t), TopTwo(Scale(t, k)), k);
  }

  lemma {:induction false} TopTwoIndicesScaled(t: Scores, k: real)
    requires k > 0.0
    ensures TopTwo(Scale(t, k)).first == TopTwo(t).first && TopTwo(Scale(t, k)).second == TopTwo(t).second
  {
    RescaledSameOrder(Scale(t, k), t, k, Some(0.0), Some(0.0));
    TopTwoSameOrder(Scale(t, k), t);
  }

  /** Finalists at the same indices of a count and of the count scaled by k
      have their votes scaled by k. */
  lemma {:induction false} FinalistVotesScaled(t: Scores, s: Scores, k: real)
    requires |s| == |t| && forall i :: 0 <= i < |t| ==> s[i].value == t[i].value * k
    requires TopTwo(s).first == TopTwo(t).first && TopTwo(s).second == TopTwo(t).second
    ensures VotesScaled(TopTwo(s), TopTwo(t), k)
  {
    FinalistVotes(s);
    FinalistVotes(t);
    SlotVotesScaled(t, s, k, TopTwo(t), TopTwo(s));
  }

  /** Finalists f of t and g of s at the same indices, each holding the votes
      at its indices, have their votes scaled by k when s is t scaled by k. */
  lemma SlotVotesScaled(t: Scores, s: Scores, k: real, f: Finalists, g: Finalists)
    requires |s| == |t| && forall i :: 0 <= i < |t| ==> s[i].value == t[i].value * k
    requires g.first == f.first && g.second == f.second
    requires f.first.Some? ==> f.first.value < |t| && f.firstVotes == t[f.first.value].value
    requires f.second.Some? ==> f.second.value < |t| && f.secondVotes == t[f.second.value].value
    requires f.first.None? ==> f.firstVotes == 0.0 && g.firstVotes == 0.0
    requires f.second.None? ==> f.secondVotes == 0.0 && g.secondVotes == 0.0
    requires g.first.Some? ==> g.firstVotes == s[g.first.value].value
    requires g.second.Some? ==> g.secondVotes == s[g.second.value].value
    ensures VotesScaled(g, f, k)
  {
    SlotsScaled(t, s, k, f);
  }

  /** The votes of finalists g are k times those of f. */
  ghost predicate VotesScaled(g: Finalists, f: Finalists, k: real) {
    g.firstVotes == f.firstVotes * k && g.secondVotes == f.secondVotes * k
  }

  /** The scaled count holds k times each finalist's votes at the finalist's index. */
  lemma SlotsScaled(t: Scores, s: Scores, k: real, f: Finalists)
    requires |s| == |t| && forall i :: 0 <= i < |t| ==> s[i].value == t[i].value * k
    requires f.first.Some? ==> f.first.value < |t| && f.firstVotes == t[f.first.value].value
    requires f.second.Some? ==> f.second.value < |t| && f.secondVotes == t[f.second.value].value
    ensures f.first.Some? ==> s[f.first.value].value == f.firstVotes * k
    ensures f.second.Some? ==> s[f.second.value].value == f.secondVotes * k
  {
    if f.first.Some? {
      var j := f.first.value;
      ScaledCopy(t[j].value, s[j].value, f.firstVotes, k);
    }
    if f.second.Some? {
      var j := f.second.value;
      ScaledCopy(t[j].value, s[j].value, f.secondVotes, k);
    }
  }

  /** The scan's vote totals are the totals at the chosen indices, 0 for an empty slot. */
  lemma {:induction false} FinalistVotes(t: Scores)
    ensures var f := TopTwo(t);
      && (f.first.Some? ==> f.first.value < |t| && f.firstVotes == t[f.first.value].value)
      && (f.first.None? ==> f.firstVotes == 0.0)
      && (f.second.Some? ==> f.second.value < |t| && f.secondVotes == t[f.second.value].value)
      && (f.second.None? ==> f.secondVotes == 0.0)
  {
    TopTwoFinalists(t);
  }

  /** The finalist scan depends only on how the totals compare with each
      other and with 0. */
  lemma {:induction false} TopTwoSameOrder(s: Scores, t: Scores)
    requires SameOrder(s, t, Some(0.0), Some(0.0))
    ensures TopTwo(s).first == TopTwo(t).first && TopTwo(s).second == TopTwo(t).second
    decreases |t|
  {
    if |t| > 0 {
      var n := |t| - 1;
      assert SameOrder(s[..n], t[..n], Some(0.0), Some(0.0));
      TopTwoSameOrder(s[..n], t[..n]);
      TopTwoFinalists(s[..n]);
      TopTwoFinalists(t[..n]);
      ScanStepSameOrder(s, t, TopTwo(s[..n]), TopTwo(t[..n]));
    }
  }

  /** One step of the scan over two counts in the same order. */
  lemma {:induction false} ScanStepSameOrder(s: Scores, t: Scores, fs: Finalists, ft: Finalists)
    requires SameOrder(s, t, Some(0.0), Some(0.0)) && |t| > 0
    requires FinalistsOf(s[..|t| - 1], fs) && FinalistsOf(t[..|t| - 1], ft)
    requires fs.first == ft.first && fs.second == ft.second
    ensures var n := |t| - 1;
      && ScanStep(fs, n, s[n].value).first == ScanStep(ft, n, t[n].value).first
      && ScanStep(fs, n, s[n].value).second == ScanStep(ft, n, t[n].value).second
  {
    var n := |t| - 1;
    assert s[n].value > 0.0 <==> t[n].value > 0.0;
    if ft.first.Some? {
      var j := ft.first.value;
      assert s[..n][j] == s[j] && t[..n][j] == t[j];
      assert s[n].value > s[j].value <==> t[n].value > t[j].value;
    }
    if ft.second.Some? {
      var j := ft.second.value;
      assert s[..n][j] == s[j] && t[..n][j] == t[j];
      assert s[n].value > s[j].value <==> t[n].value > t[j].value;
    }
  }

  /** Scaling every ballot by k > 0 scales both second-round totals by k, so
      the comparison between them comes out the same. */
  lemma SecondRoundScaled(vs: VoteMap, a: Candidate, b: Candidate, k: real)
    requires k > 0.0
    ensures ForFirst(Rescale(vs, k), a, b) > ForSecond(Rescale(vs, k), a, b) <==> ForFirst(vs, a, b) > ForSecond(vs, a, b)
  {
    SharesCompare(vs, a, b, k);
    ForFirstSum(vs, a, b);
    ForFirstSum(Rescale(vs, k), a, b);
  }

  /** The summed shares of ballots scaled by k > 0 compare as before. */
  lemma SharesCompare(vs: VoteMap, a: Candidate, b: Candidate, k: real)
    requires k > 0.0
    ensures var us := Rescale(vs, k);
      Sum(Shares(us, a, b, true)) > Sum(Shares(us, a, b, false)) <==> Sum(Shares(vs, a, b, true)) > Sum(Shares(vs, a, b, false))
  {
    var us := Rescale(vs, k);
    SharesPointwise(vs, a, b, k, true);
    SharesPointwise(vs, a, b, k, false);
    SumsCompare(Shares(vs, a, b, true), Shares(vs, a, b, false), Shares(us, a, b, true), Shares(us, a, b, false), k);
  }

  /** Each share of ballots scaled by k > 0 is k times the share before. */
  lemma SharesPointwise(vs: VoteMap, a: Candidate, b: Candidate, k: real, first: bool)
    requires k > 0.0
    ensures ScaledBy(Shares(Rescale(vs, k), a, b, first), Shares(vs, a, b, first), k)
  {
    var us := Rescale(vs, k);
    forall i | 0 <= i < |vs|
      ensures Shares(us, a, b, first)[i] == Shares(vs, a, b, first)[i] * k
    {
      ShareAtScaled(vs, us, a, b, k, i, first);
    }
  }

  /** The shares of the i-th ballot scaled by k > 0 are k times its shares. */
  lemma ShareAtScaled(vs: VoteMap, us: VoteMap, a: Candidate, b: Candidate, k: real, i: nat, first: bool)
    requires k > 0.0 && i < |vs| && us == Rescale(vs, k)
    ensures |Shares(us, a, b, first)| == |Shares(vs, a, b, first)| == |vs|
    ensures Shares(us, a, b, first)[i] == Shares(vs, a, b, first)[i] * k
  {
    var p := vs[i].value;
    assert us[i].value == Scale(p, k);
    SharesScaled(p, a, b, k);
    if first {
      ScaledCopy(FirstShare(p, a, b), FirstShare(Scale(p, k), a, b), Shares(vs, a, b, first)[i], k);
    } else {
      ScaledCopy(SecondShare(p, a, b), SecondShare(Scale(p, k), a, b), Shares(vs, a, b, first)[i], k);
    }
  }

  /** Each ballot's share for the first finalist (first) or the second. */
  function Shares(vs: VoteMap, a: Candidate, b: Candidate, first: bool): seq<real>
  {
    seq(|vs|, i requires 0 <= i < |vs| => if first then FirstShare(vs[i].value, a, b) else SecondShare(vs[i].value, a, b))
  }

  /** The second-round totals are the sums of the shares. */
  lemma {:induction false} ForFirstSum(vs: VoteMap, a: Candidate, b: Candidate)
    ensures ForFirst(vs, a, b) == Sum(Shares(vs, a, b, true))
    ensures ForSecond(vs, a, b) == Sum(Shares(vs, a, b, false))
    decreases |vs|
  {
    if |vs| > 0 {
      assert Shares(vs, a, b, true)[1..] == Shares(vs[1..], a, b, true);
      assert Shares(vs, a, b, false)[1..] == Shares(vs[1..], a, b, false);
      ForFirstSum(vs[1..], a, b);
    }
  }

  /** One ballot scaled by k > 0 goes to the same finalist with k times the score. */
  lemma {:induction false} SharesScaled(p: Ballot, a: Candidate, b: Candidate, k: real)
    requires k > 0.0
    ensures FirstShare(Scale(p, k), a, b) == FirstShare(p, a, b) * k
    ensures SecondShare(Scale(p, k), a, b) == SecondShare(p, a, b) * k
  {
    ScaleFacts(p, k, a);
    ScaleFacts(p, k, b);
    ScaledOrder(Get(p, b), Get(p, a), k);
  }

  /** The decision on weighted ballots does not change when every ballot is
      scaled by the same k > 0. */
  lemma SettleScaled(vs: VoteMap, k: real)
    requires k > 0.0
    ensures Settle(Rescale(vs, k)) == Settle(vs)
  {
    var t := FirstPlaceTally([], vs);
    var f := TopTwo(t);
    assert Scale([], k) == [];
    FirstPlaceTallyScaled([], vs, k);
    var s := Scale(t, k);
    ShortcutSame(t, k);
    TopTwoFinalists(t);
    if f.firstVotes < f.secondVotes * 2.0 {
      var a := t[f.first.value].key;
      var b := t[f.second.value].key;
      assert s[f.first.value].key == a && s[f.second.value].key == b;
      DecisionScaled(vs, a, b, k);
    } else if f.first.Some? {
      assert s[f.first.value].key == t[f.first.value].key;
    }
  }

  /** The shortcut test compares first-place votes with twice the runner-up's
      votes, so it gives the same answer on totals scaled by k > 0. */
  lemma ShortcutScaled(f: Finalists, g: Finalists, k: real)
    requires k > 0.0 && VotesScaled(g, f, k)
    ensures g.firstVotes >= g.secondVotes * 2.0 <==> f.firstVotes >= f.secondVotes * 2.0
  {
    assert g.secondVotes * 2.0 == (f.secondVotes * 2.0) * k;
    ScaledOrder(f.secondVotes * 2.0, f.firstVotes, k);
  }

  /** The second round between distinct finalists picks the same side on
      ballots scaled by k > 0. */
  lemma DecisionScaled(vs: VoteMap, a: Candidate, b: Candidate, k: real)
    requires k > 0.0 && a != b
    ensures var t := SecondRound([], vs, a, b); var u := SecondRound([], Rescale(vs, k), a, b);
      Get(u, a) > Get(u, b) <==> Get(t, a) > Get(t, b)
  {
    SecondRoundScaled(vs, a, b, k);
    SecondRoundFromNothing(vs, a, b);
    SecondRoundFromNothing(Rescale(vs, k), a, b);
  }

  /** A second round counted from nothing holds the finalists' totals. */
  lemma SecondRoundFromNothing(vs: VoteMap, a: Candidate, b: Candidate)
    requires a != b
    ensures Get(SecondRound([], vs, a, b), a) == ForFirst(vs, a, b)
    ensures Get(SecondRound([], vs, a, b), b) == ForSecond(vs, a, b)
  {
    SecondRoundTotals([], vs, a, b);
  }

  /** Multiplying every voter's weight by the same positive factor does not
      change the Runoff winner: first-place and second-round totals are all
      multiplied by it, so the finalists, the shortcut test and the
      second-round comparison come out the same. */
  lemma ScaleFree(vm: VoteMap, w: Weights, k: real)
    requires k > 0.0
    ensures Runoff(vm, Scale(w, k)) == Runoff(vm, w)
  {
    WeighScaled(vm, w, k);
    SettleScaled(Weigh(vm, w), k);
  }
}

=== FILE: selection.dfy ===
/** The engine's selection loops: pick the key with the largest (or smallest)
    value of a score map, scanning keys in iteration order with a strict
    comparison, so that among equal values the first key seen is kept.
 */
module Selection {
  import opened Tables

  /** Index j holds the largest value of t, and every earlier index holds strictly less. */
  predicate IsMaxAt(t: Scores, j: nat) {
    && j < |t|
    && (forall i :: 0 <= i < |t| ==> t[i].value <= t[j].value)
    && (forall i :: 0 <= i < j ==> t[i].value < t[j].value)
  }

  /** The argmax loop `if value > best { best = value; winner = key }`.
      With `floor == Some(f)` the running best starts at f, so nothing at or
      below f is ever taken; with `floor == None` the first key is always taken. */
  function Scan(t: Scores, floor: Option<real>): (r: Option<nat>)
    ensures r.Some? ==> IsMaxAt(t, r.value)
    ensures r.Some? && floor.Some? ==> t[r.value].value > floor.value
    ensures r.None? <==> |t| == 0 || (floor.Some? && forall i :: 0 <= i < |t| ==> t[i].value <= floor.value)
    decreases |t|
  {
    if |t| == 0 then None
    else
      var n := |t| - 1;
      var prev := Scan(t[..n], floor);
      match prev
      case None =>
        FloorExtends(t, t[..n], floor);
        if floor.None? || t[n].value > floor.value then Some(n) else None
      case Some(j) =>
        MaxExtends(t, t[..n], j);
        if t[n].value > t[j].value then Some(n) else prev
  }

  /** The scan so far found nothing above the floor (or saw no key): the last
      key either clears the floor, and is then the maximum, or nothing does. */
  lemma FloorExtends(t: Scores, p: Scores, floor: Option<real>)
    requires |t| > 0 && p == t[..|t| - 1]
    requires |p| == 0 || (floor.Some? && forall i :: 0 <= i < |p| ==> p[i].value <= floor.value)
    ensures floor.None? || t[|t| - 1].value > floor.value ==> IsMaxAt(t, |t| - 1)
    ensures floor.Some? && t[|t| - 1].value <= floor.value ==> forall i :: 0 <= i < |t| ==> t[i].value <= floor.value
  {
    forall i | 0 <= i < |p| ensures p[i] == t[i] {
    }
  }

  /** The scan so far has its maximum at j: the last key takes over only when strictly larger. */
  lemma MaxExtends(t: Scores, p: Scores, j: nat)
    requires |t| > 0 && p == t[..|t| - 1] && IsMaxAt(p, j)
    ensures t[|t| - 1].value > t[j].value ==> IsMaxAt(t, |t| - 1)
    ensures t[|t| - 1].value <= t[j].value ==> IsMaxAt(t, j)
  {
    forall i | 0 <= i < |p| ensures p[i] == t[i] {
    }
  }

  /** c is a key of t holding the largest value, and every smaller key holds strictly less. */
  predicate IsBest(t: Scores, c: int) {
    && Has(t, c)
    && (forall i :: 0 <= i < |t| ==> t[i].value <= Get(t, c))
    && (forall i :: 0 <= i < |t| && t[i].key < c ==> t[i].value < Get(t, c))
  }

  /** c is a key of t holding the smallest value, and every smaller key holds strictly more. */
  predicate IsLeast(t: Scores, c: int) {
    && Has(t, c)
    && (forall i :: 0 <= i < |t| ==> Get(t, c) <= t[i].value)
    && (forall i :: 0 <= i < |t| && t[i].key < c ==> Get(t, c) < t[i].value)
  }

  lemma KeyAtMax(t: Scores, j: nat)
    requires IsMaxAt(t, j)
    ensures IsBest(t, t[j].key)
  {
    HasAt(t, j);
    GetAt(t, j);
  }

  /** The selection used by Plurality, Runoff, BordaCount and Approval:
      best starts at 0, so a winner needs a strictly positive total. */
  function Leader(t: Scores): (r: Option<int>)
    ensures r.Some? ==> IsBest(t, r.value) && Get(t, r.value) > 0.0
    ensures r.None? <==> forall i :: 0 <= i < |t| ==> t[i].value <= 0.0
  {
    match Scan(t, Some(0.0))
    case None => None
    case Some(j) => KeyAtMax(t, j); GetAt(t, j); Some(t[j].key)
  }

  /** The Copeland selection: the first key is always taken, later keys only
      when strictly better, so every non-empty map has a winner. */
  function Best(t: Scores): (r: Option<int>)
    ensures r.Some? ==> IsBest(t, r.value)
    ensures r.None? <==> |t| == 0
  {
    match Scan(t, None)
    case None => None
    case Some(j) => KeyAtMax(t, j); Some(t[j].key)
  }

  /** The map with every value negated. */
  function Negate(t: Scores): (r: Scores)
    ensures |r| == |t|
    ensures forall i :: 0 <= i < |t| ==> r[i].key == t[i].key && r[i].value == -t[i].value
  {
    seq(|t|, i requires 0 <= i < |t| => Entry(t[i].key, -t[i].value))
  }

  /** The InstantRunoff elimination loop: the running minimum starts above
      every total, and a key replaces it only when strictly smaller. */
  function Weakest(t: Scores): (r: Option<int>)
    ensures r.Some? ==> IsLeast(t, r.value)
    ensures r.None? <==> |t| == 0
  {
    var n := Negate(t);
    match Scan(n, None)
    case None => None
    case Some(j) =>
      HasAt(t, j);
      GetAt(t, j);
      Some(t[j].key)
  }

  lemma {:induction false} BestUnique(t: Scores, c: int, d: int)
    requires IsBest(t, c) && IsBest(t, d)
    ensures c == d
  {
    var i := IndexOf(t, c);
    var j := IndexOf(t, d);
    GetAt(t, i);
    GetAt(t, j);
  }

  lemma {:induction false} LeastUnique(t: Scores, c: int, d: int)
    requires IsLeast(t, c) && IsLeast(t, d)
    ensures c == d
  {
    var i := IndexOf(t, c);
    var j := IndexOf(t, d);
    GetAt(t, i);
    GetAt(t, j);
  }

  /** Leader is characterised by its contract: any key that leads with a
      positive value is the one returned. */
  lemma LeaderIs(t: Scores, c: int)
    requires IsBest(t, c) && Get(t, c) > 0.0
    ensures Leader(t) == Some(c)
  {
    var i := IndexOf(t, c);
    GetAt(t, i);
    BestUnique(t, c, Leader(t).value);
  }

  lemma WeakestIs(t: Scores, c: int)
    requires IsLeast(t, c)
    ensures Weakest(t) == Some(c)
  {
    var i := IndexOf(t, c);
    LeastUnique(t, c, Weakest(t).value);
  }

  /** The Leader of a map whose lookups agree with a total defined for every
      candidate (0 for those missing from the map), restated over that total. */
  lemma LeaderOverTotals(t: Scores, total: int -> real)
    requires forall c :: Get(t, c) == total(c)
    ensures Leader(t).Some? ==> Has(t, Leader(t).value) && total(Leader(t).value) > 0.0
    ensures Leader(t).Some? ==> forall c :: total(c) <= total(Leader(t).value)
    ensures Leader(t).Some? ==> forall c :: c < Leader(t).value ==> total(c) < total(Leader(t).value)
    ensures Leader(t).None? <==> forall c :: total(c) <= 0.0
  {
    forall c | !Has(t, c) ensures total(c) == 0.0 {
      GetMissing(t, c);
    }
    forall c | Has(t, c) ensures exists i :: 0 <= i < |t| && t[i].key == c && t[i].value == total(c) {
      var i := IndexOf(t, c);
      GetAt(t, i);
    }
  }

  /** Multiplying by a positive factor keeps every comparison. */
  lemma ScaledOrder(a: real, b: real, k: real)
    requires k > 0.0
    ensures a * k < b * k <==> a < b
    ensures a * k <= b * k <==> a <= b
  {
    assert b * k - a * k == (b - a) * k;
  }

  /** s is t with every value multiplied by k. */
  predicate Rescaled(s: Scores, t: Scores, k: real) {
    |s| == |t| && forall i :: 0 <= i < |t| ==> s[i].key == t[i].key && s[i].value == t[i].value * k
  }

  /** s and t have the same keys, their values compare alike, and so do
      their values with the floors fs and ft. */
  predicate SameOrder(s: Scores, t: Scores, fs: Option<real>, ft: Option<real>) {
    && |s| == |t|
    && (fs.None? <==> ft.None?)
    && (forall i :: 0 <= i < |t| ==> s[i].key == t[i].key)
    && (forall i, j :: 0 <= i < |t| && 0 <= j < |t| ==> (s[i].value > s[j].value <==> t[i].value > t[j].value))
    && (fs.Some? ==> forall i :: 0 <= i < |t| ==> (s[i].value > fs.value <==> t[i].value > ft.value))
  }

  /** The scan makes the same choices on two maps whose values compare alike. */
  lemma {:induction false} ScanSameOrder(s: Scores, t: Scores, fs: Option<real>, ft: Option<real>)
    requires SameOrder(s, t, fs, ft)
    ensures Scan(s, fs) == Scan(t, ft)
    decreases |t|
  {
    if |t| > 0 {
      var n := |t| - 1;
      SameOrderPrefix(s, t, fs, ft, n);
      ScanSameOrder(s[..n], t[..n], fs, ft);
      LastAlikeOf(s, t, fs, ft);
      StepSameOrder(s, t, fs, ft);
    }
  }

  lemma SameOrderPrefix(s: Scores, t: Scores, fs: Option<real>, ft: Option<real>, n: nat)
    requires SameOrder(s, t, fs, ft) && n <= |t|
    ensures SameOrder(s[..n], t[..n], fs, ft)
  {
  }

  /** The last key of s and t compares alike with every earlier key and with the floors. */
  predicate LastAlike(s: Scores, t: Scores, fs: Option<real>, ft: Option<real>)
    requires |s| == |t| > 0
  {
    var n := |t| - 1;
    && (fs.None? <==> ft.None?)
    && (forall j :: 0 <= j < n ==> (s[n].value > s[j].value <==> t[n].value > t[j].value))
    && (fs.Some? ==> (s[n].value > fs.value <==> t[n].value > ft.value))
  }

  lemma LastAlikeOf(s: Scores, t: Scores, fs: Option<real>, ft: Option<real>)
    requires SameOrder(s, t, fs, ft) && |t| > 0
    ensures LastAlike(s, t, fs, ft)
  {
  }

  /** When the scan agrees on all but the last key, it agrees on the whole. */
  lemma StepSameOrder(s: Scores, t: Scores, fs: Option<real>, ft: Option<real>)
    requires |s| == |t| > 0 && LastAlike(s, t, fs, ft)
    requires Scan(s[..|t| - 1], fs) == Scan(t[..|t| - 1], ft)
    ensures Scan(s, fs) == Scan(t, ft)
  {
    ScanLast(s, fs);
    ScanLast(t, ft);
    ExtendSameOrder(s, t, fs, ft, Scan(t[..|t| - 1], ft));
  }

  /** The scan's step on the last key, given the choice p on the rest. */
  function Extend(t: Scores, floor: Option<real>, p: Option<nat>): Option<nat>
    requires |t| > 0 && (p.Some? ==> p.value < |t| - 1)
  {
    var n := |t| - 1;
    match p
    case None => if floor.None? || t[n].value > floor.value then Some(n) else None
    case Some(j) => if t[n].value > t[j].value then Some(n) else Some(j)
  }

  lemma ExtendSameOrder(s: Scores, t: Scores, fs: Option<real>, ft: Option<real>, p: Option<nat>)
    requires |s| == |t| > 0 && LastAlike(s, t, fs, ft) && (p.Some? ==> p.value < |t| - 1)
    ensures Extend(s, fs, p) == Extend(t, ft, p)
  {
  }

  /** One step of the scan: the last key against the choice on the rest. */
  lemma ScanLast(t: Scores, floor: Option<real>)
    requires |t| > 0
    ensures var p := Scan(t[..|t| - 1], floor);
      (p.Some? ==> p.value < |t| - 1) && Scan(t, floor) == Extend(t, floor, p)
  {
  }

  /** Multiplying every value and the floor by k > 0 keeps every comparison. */
  lemma RescaledSameOrder(s: Scores, t: Scores, k: real, fs: Option<real>, ft: Option<real>)
    requires k > 0.0 && Rescaled(s, t, k)
    requires fs.None? <==> ft.None?
    requires fs.Some? ==> fs.value == ft.value * k
    ensures SameOrder(s, t, fs, ft)
  {
    forall i, j | 0 <= i < |t| && 0 <= j < |t| ensures s[i].value > s[j].value <==> t[i].value > t[j].value {
      ScaledOrder(t[j].value, t[i].value, k);
    }
    if fs.Some? {
      forall i | 0 <= i < |t| ensures s[i].value > fs.value <==> t[i].value > ft.value {
        ScaledOrder(ft.value, t[i].value, k);
      }
    }
  }

  /** Leader, Best and Weakest pick the same key on two maps whose values
      compare alike. */
  lemma SelectionSameOrder(s: Scores, t: Scores)
    requires SameOrder(s, t, Some(0.0), Some(0.0))
    ensures Leader(s) == Leader(t)
    ensures Best(s) == Best(t)
    ensures Weakest(s) == Weakest(t)
  {
    ScanSameOrder(s, t, Some(0.0), Some(0.0));
    ScanSameOrder(s, t, None, None);
    NegateSameOrder(s, t);
    ScanSameOrder(Negate(s), Negate(t), None, None);
  }

  /** Negating both maps reverses every comparison alike. */
  lemma NegateSameOrder(s: Scores, t: Scores)
    requires SameOrder(s, t, Some(0.0), Some(0.0))
    ensures SameOrder(Negate(s), Negate(t), None, None)
  {
    var ns := Negate(s);
    var nt := Negate(t);
    forall i, j | 0 <= i < |t| && 0 <= j < |t|
      ensures ns[i].value > ns[j].value <==> nt[i].value > nt[j].value
    {
      assert s[j].value > s[i].value <==> t[j].value > t[i].value;
    }
  }

  /** In particular when every value is multiplied by one positive factor. */
  lemma SelectionRescaled(s: Scores, t: Scores, k: real)
    requires k > 0.0 && Rescaled(s, t, k)
    ensures Leader(s) == Leader(t)
    ensures Best(s) == Best(t)
    ensures Weakest(s) == Weakest(t)
  {
    RescaledSameOrder(s, t, k, Some(0.0), Some(0.0));
    SelectionSameOrder(s, t);
  }
}

=== FILE: sums.dfy ===
/** Sums of real sequences and how they behave when every term is
    multiplied by the same positive factor: the arithmetic behind the
    weight-scale results of Runoff and InstantRunoff.
 */
module Sums {
  import opened Selection

  /** k times x, restated for a term equal to x. */
  lemma ScaledCopy(x: real, y: real, z: real, k: real)
    requires y == x * k && z == x
    ensures y == z * k
  {
  }

  /** The sum of the terms, first to last. */
  function Sum(xs: seq<real>): real
    decreases |xs|
  {
    if |xs| == 0 then 0.0 else xs[0] + Sum(xs[1..])
  }

  /** Every term of ys is k times the matching term of xs. */
  ghost predicate ScaledBy(ys: seq<real>, xs: seq<real>, k: real) {
    |ys| == |xs| && forall i :: 0 <= i < |xs| ==> ys[i] == xs[i] * k
  }

  /** Sums of terms scaled by the same k > 0 compare as the sums before. */
  lemma SumsCompare(xs: seq<real>, zs: seq<real>, xs': seq<real>, zs': seq<real>, k: real)
    requires k > 0.0 && |zs| == |xs| && ScaledBy(xs', xs, k) && ScaledBy(zs', zs, k)
    ensures Sum(xs') > Sum(zs') <==> Sum(xs) > Sum(zs)
  {
    SumDiffs(xs, zs);
    SumDiffs(xs', zs');
    DiffsScaled(xs, zs, xs', zs', k);
    PositiveScaled(Diffs(xs, zs), Diffs(xs', zs'), k);
  }

  /** Term-by-term differences of two sequences of the same length. */
  function Diffs(xs: seq<real>, zs: seq<real>): (r: seq<real>)
    requires |zs| == |xs|
    ensures |r| == |xs|
  {
    seq(|xs|, i requires 0 <= i < |xs| => xs[i] - zs[i])
  }

  /** The sum of the differences is the difference of the sums. */
  lemma {:induction false} SumDiffs(xs: seq<real>, zs: seq<real>)
    requires |zs| == |xs|
    ensures Sum(Diffs(xs, zs)) == Sum(xs) - Sum(zs)
    decreases |xs|
  {
    if |xs| > 0 {
      assert Diffs(xs, zs)[1..] == Diffs(xs[1..], zs[1..]);
      SumDiffs(xs[1..], zs[1..]);
    }
  }

  lemma DiffsScaled(xs: seq<real>, zs: seq<real>, xs': seq<real>, zs': seq<real>, k: real)
    requires |zs| == |xs| && ScaledBy(xs', xs, k) && ScaledBy(zs', zs, k)
    ensures ScaledBy(Diffs(xs', zs'), Diffs(xs, zs), k)
  {
    forall i | 0 <= i < |xs|
      ensures Diffs(xs', zs')[i] == Diffs(xs, zs)[i] * k
    {
      assert xs'[i] - zs'[i] == (xs[i] - zs[i]) * k;
    }
  }

  /** Scaling every term by k > 0 keeps the sign of the sum. */
  lemma PositiveScaled(ds: seq<real>, ds': seq<real>, k: real)
    requires k > 0.0 && ScaledBy(ds', ds, k)
    ensures Sum(ds') > 0.0 <==> Sum(ds) > 0.0
  {
    SumRescaled(ds, ds', k);
    GreaterScaled(Sum(ds), 0.0, Sum(ds'), 0.0, k);
  }

  lemma ScaledByTail(ys: seq<real>, xs: seq<real>, k: real)
    requires ScaledBy(ys, xs, k) && |xs| > 0
    ensures ys[0] == xs[0] * k && ScaledBy(ys[1..], xs[1..], k)
  {
    assert forall i :: 0 <= i < |xs| - 1 ==> xs[1..][i] == xs[i + 1] && ys[1..][i] == ys[i + 1];
  }

  /** Scaling every term by k scales the sum by k. */
  lemma {:induction false} SumRescaled(xs: seq<real>, ys: seq<real>, k: real)
    requires ScaledBy(ys, xs, k)
    ensures Sum(ys) == Sum(xs) * k
    decreases |xs|
  {
    if |xs| > 0 {
      ScaledByTail(ys, xs, k);
      SumRescaled(xs[1..], ys[1..], k);
      SumScaled(xs[0], ys[0], Sum(xs[1..]), Sum(ys[1..]), k);
    }
  }

  lemma SumScaled(x: real, x': real, y: real, y': real, k: real)
    requires x' == x * k && y' == y * k
    ensures x' + y' == (x + y) * k
  {
  }

  lemma GreaterScaled(x: real, y: real, x': real, y': real, k: real)
    requires k > 0.0 && x' == x * k && y' == y * k
    ensures x' > y' <==> x > y
  {
    ScaledOrder(y, x, k);
  }
}

=== FILE: tables.dfy ===
/** Finite maps keyed by candidate or voter ids, as the voting engine uses them.

    The engine works on Go maps keyed by uuid.UUID whose iteration order is
    randomised. Here a map is an association list with strictly ascending keys,
    so every key occurs once and every loop over a map visits the keys in
    ascending order. That order is the fixed tie rule of the whole model: where
    the engine keeps the "first seen" entry, the model keeps the smallest key.
 */
module Tables {

  datatype Option<T> = None | Some(value: T)

  /** One key/value pair; the engine's `kv` sorting record has the same shape. */
  datatype Entry<V> = Entry(key: int, value: V)

  predicate Ascending<V>(s: seq<Entry<V>>) {
    forall i, j :: 0 <= i < j < |s| ==> s[i].key < s[j].key
  }

  /** A finite map, iterated in ascending key order. */
  type Table<V> = s: seq<Entry<V>> | Ascending(s)

  /** A map from ids to float64 scores, weights or totals. */
  type Scores = Table<real>

  /** Key membership, `_, ok := t[k]`. */
  predicate Has<V>(t: seq<Entry<V>>, k: int)
    decreases |t|
  {
    |t| > 0 && (t[0].key == k || Has(t[1..], k))
  }

  /** Map lookup with Go's zero value: a missing key reads as 0. */
  function Get(t: Scores, k: int): real
    decreases |t|
  {
    if |t| == 0 then 0.0
    else if t[0].key == k then t[0].value
    else Get(t[1..], k)
  }

  /** Map assignment `t[k] = v`: overwrites the value of a present key, inserts a missing one. */
  function Put<V>(t: Table<V>, k: int, v: V): (r: Table<V>)
    ensures |r| > 0 && r[0].key == if |t| == 0 || k < t[0].key then k else t[0].key
    decreases |t|
  {
    if |t| == 0 then [Entry(k, v)]
    else if k < t[0].key then [Entry(k, v)] + t
    else if k == t[0].key then [Entry(k, v)] + t[1..]
    else [t[0]] + Put(t[1..], k, v)
  }

  /** `m[k] += x` on a score map. */
  function Credit(t: Scores, k: int, x: real): Scores {
    Put(t, k, Get(t, k) + x)
  }

  /** `delete(m, k)`. */
  function Remove<V>(t: Table<V>, k: int): (r: Table<V>)
    ensures |t| > 0 && |r| > 0 ==> t[0].key <= r[0].key
    decreases |t|
  {
    if |t| == 0 then []
    else if t[0].key == k then t[1..]
    else [t[0]] + Remove(t[1..], k)
  }

  /** Sum of all values of a score map. */
  function Total(t: Scores): real
    decreases |t|
  {
    if |t| == 0 then 0.0 else t[0].value + Total(t[1..])
  }

  lemma {:induction false} IndexOf<V>(t: seq<Entry<V>>, k: int) returns (i: nat)
    requires Has(t, k)
    ensures i < |t| && t[i].key == k
    decreases |t|
  {
    if t[0].key == k {
      i := 0;
    } else {
      var j := IndexOf(t[1..], k);
      i := j + 1;
    }
  }

  lemma {:induction false} HasAt<V>(t: seq<Entry<V>>, i: nat)
    requires i < |t|
    ensures Has(t, t[i].key)
    decreases i
  {
    if i > 0 {
      HasAt(t[1..], i - 1);
    }
  }

  lemma {:induction false} GetAt(t: Scores, i: nat)
    requires i < |t|
    ensures Get(t, t[i].key) == t[i].value
    decreases i
  {
    if i > 0 {
      assert t[0].key < t[i].key;
      GetAt(t[1..], i - 1);
    }
  }

  lemma {:induction false} GetMissing(t: Scores, k: int)
    requires !Has(t, k)
    ensures Get(t, k) == 0.0
    decreases |t|
  {
    if |t| > 0 {
      GetMissing(t[1..], k);
    }
  }

  lemma {:induction false} PutFacts<V>(t: Table<V>, k: int, v: V)
    ensures forall d :: Has(Put(t, k, v), d) <==> Has(t, d) || d == k
    ensures |Put(t, k, v)| == if Has(t, k) then |t| else |t| + 1
    decreases |t|
  {
    if |t| > 0 && k > t[0].key {
      PutFacts(t[1..], k, v);
      assert Put(t, k, v)[1..] == Put(t[1..], k, v);
    } else if |t| > 0 && k < t[0].key {
      assert Put(t, k, v)[1..] == t;
      NotBelowFirst(t, k);
    } else if |t| > 0 {
      assert Put(t, k, v)[1..] == t[1..];
    }
  }

  lemma {:induction false} NotBelowFirst<V>(t: Table<V>, k: int)
    requires |t| > 0 && k < t[0].key
    ensures !Has(t, k)
  {
    if Has(t, k) {
      var i := IndexOf(t, k);
      assert false;
    }
  }

  lemma {:induction false} GetPut(t: Scores, k: int, v: real, d: int)
    ensures Get(Put(t, k, v), d) == if d == k then v else Get(t, d)
    decreases |t|
  {
    if |t| > 0 && k > t[0].key {
      GetPut(t[1..], k, v, d);
      assert Put(t, k, v)[1..] == Put(t[1..], k, v);
    } else if |t| > 0 && k < t[0].key {
      assert Put(t, k, v)[1..] == t;
    } else if |t| > 0 {
      assert Put(t, k, v)[1..] == t[1..];
    }
  }

  lemma CreditFacts(t: Scores, k: int, x: real)
    ensures forall d :: Has(Credit(t, k, x), d) <==> Has(t, d) || d == k
    ensures forall d :: Get(Credit(t, k, x), d) == if d == k then Get(t, k) + x else Get(t, d)
    ensures |Credit(t, k, x)| == if Has(t, k) then |t| else |t| + 1
  {
    PutFacts(t, k, Get(t, k) + x);
    forall d ensures Get(Credit(t, k, x), d) == if d == k then Get(t, k) + x else Get(t, d) {
      GetPut(t, k, Get(t, k) + x, d);
    }
  }

  /** Crediting x to one key adds exactly x to the sum of the map. */
  lemma {:induction false} TotalPut(t: Scores, k: int, v: real)
    ensures Total(Put(t, k, v)) == Total(t) - Get(t, k) + v
    decreases |t|
  {
    if |t| > 0 && k > t[0].key {
      TotalPut(t[1..], k, v);
      assert Put(t, k, v)[1..] == Put(t[1..], k, v);
    } else if |t| > 0 && k < t[0].key {
      assert Put(t, k, v)[1..] == t;
      NotBelowFirst(t, k);
      GetMissing(t, k);
    } else if |t| > 0 {
      assert Put(t, k, v)[1..] == t[1..];
    }
  }

  lemma TotalCredit(t: Scores, k: int, x: real)
    ensures Total(Credit(t, k, x)) == Total(t) + x
  {
    TotalPut(t, k, Get(t, k) + x);
  }

  lemma {:induction false} RemoveFacts<V>(t: Table<V>, k: int)
    ensures forall d :: Has(Remove(t, k), d) <==> Has(t, d) && d != k
    ensures |Remove(t, k)| == if Has(t, k) then |t| - 1 else |t|
    decreases |t|
  {
    if |t| > 0 && t[0].key == k {
      if |t| > 1 {
        NotBelowFirst(t[1..], k);
      }
    } else if |t| > 0 {
      RemoveFacts(t[1..], k);
      assert Remove(t, k)[1..] == Remove(t[1..], k);
    }
  }

  lemma {:induction false} GetRemove(t: Scores, k: int, d: int)
    requires d != k
    ensures Get(Remove(t, k), d) == Get(t, d)
    decreases |t|
  {
    if |t| > 0 && t[0].key == k {
    } else if |t| > 0 {
      GetRemove(t[1..], k, d);
      assert Remove(t, k)[1..] == Remove(t[1..], k);
    }
  }

  lemma {:induction false} FirstIsLeast<V>(t: Table<V>, k: int)
    requires Has(t, k)
    ensures t[0].key <= k
  {
    var i := IndexOf(t, k);
  }

  lemma TailHas<V>(t: Table<V>, k: int)
    requires |t| > 0
    ensures Has(t[1..], k) <==> Has(t, k) && k != t[0].key
  {
    if Has(t[1..], k) {
      FirstIsLeast(t[1..], k);
    }
  }

  /** Two maps with the same keys have the same size. */
  lemma {:induction false} SameKeysSameLength<V, U>(a: Table<V>, b: Table<U>)
    requires forall k :: Has(a, k) <==> Has(b, k)
    ensures |a| == |b|
    decreases |a|
  {
    if |a| > 0 {
      assert Has(a, a[0].key);
    }
    if |b| > 0 {
      assert Has(b, b[0].key);
    }
    if |a| > 0 && |b| > 0 {
      FirstIsLeast(a, b[0].key);
      FirstIsLeast(b, a[0].key);
      forall k ensures Has(a[1..], k) <==> Has(b[1..], k) {
        TailHas(a, k);
        TailHas(b, k);
      }
      SameKeysSameLength(a[1..], b[1..]);
    }
  }

  /** `m[k] += x` on a key already present updates that entry in place. */
  lemma CreditAt(t: Scores, i: nat, x: real)
    requires i < |t|
    ensures Credit(t, t[i].key, x) == t[i := Entry(t[i].key, t[i].value + x)]
  {
    var k := t[i].key;
    var r: Scores := t[i := Entry(k, t[i].value + x)];
    CreditFacts(t, k, x);
    GetAt(t, i);
    forall c ensures (Has(r, c) <==> Has(Credit(t, k, x), c)) && Get(r, c) == Get(Credit(t, k, x), c) {
      HasAt(t, i);
      if Has(t, c) {
        var j := IndexOf(t, c);
        HasAt(r, j);
        GetAt(r, j);
        GetAt(t, j);
      } else {
        if Has(r, c) {
          var j := IndexOf(r, c);
          HasAt(t, j);
        }
        GetMissing(t, c);
        GetMissing(r, c);
      }
    }
    ScoresExt(Credit(t, k, x), r);
  }

  /** A score map is determined by its keys and its lookups. */
  lemma {:induction false} ScoresExt(a: Scores, b: Scores)
    requires forall k :: Has(a, k) <==> Has(b, k)
    requires forall k :: Get(a, k) == Get(b, k)
    ensures a == b
    decreases |a|
  {
    SameKeysSameLength(a, b);
    if |a| > 0 {
      assert Has(a, a[0].key) && Has(b, b[0].key);
      FirstIsLeast(a, b[0].key);
      FirstIsLeast(b, a[0].key);
      var k0 := a[0].key;
      assert b[0].key == k0;
      assert Get(a, k0) == a[0].value && Get(b, k0) == b[0].value;
      forall k ensures (Has(a[1..], k) <==> Has(b[1..], k)) && Get(a[1..], k) == Get(b[1..], k) {
        TailHas(a, k);
        TailHas(b, k);
        if k == k0 {
          if |a| > 1 {
            NotBelowFirst(a[1..], k);
            NotBelowFirst(b[1..], k);
          }
          GetMissing(a[1..], k);
          GetMissing(b[1..], k);
        } else {
          assert Get(a, k) == Get(a[1..], k) && Get(b, k) == Get(b[1..], k);
        }
      }
      ScoresExt(a[1..], b[1..]);
      assert a == [a[0]] + a[1..];
      assert b == [b[0]] + b[1..];
    }
  }
}

=== FILE: weighting.dfy ===
/** The election's inputs and the weighting prelude that every voting method
    starts with (VotingMethods.go, e.g. lines 22-31).
 */
module Weighting {
  import opened Tables

  type Candidate = int
  type Voter = int

  /** One voter's scores, candidate -> score. */
  type Ballot = Scores

  /** The `voteMap` argument, voter -> ballot. */
  type VoteMap = Table<Ballot>

  /** The `voteWeight` argument, voter -> weight. */
  type Weights = Scores

  /** `voteWeight[agent]`: a voter missing from the table has weight 0. */
  function WeightOf(w: Weights, v: Voter): real {
    Get(w, v)
  }

  /** Every score of a ballot multiplied by one factor. */
  function Scale(b: Ballot, x: real): (r: Ballot)
    ensures |r| == |b|
    ensures forall i :: 0 <= i < |b| ==> r[i].key == b[i].key && r[i].value == b[i].value * x
  {
    seq(|b|, i requires 0 <= i < |b| => Entry(b[i].key, b[i].value * x))
  }

  lemma {:induction false} ScaleFacts(b: Ballot, x: real, c: Candidate)
    ensures Get(Scale(b, x), c) == Get(b, c) * x
    ensures Has(Scale(b, x), c) <==> Has(b, c)
  {
    var s := Scale(b, x);
    if Has(b, c) {
      var i := IndexOf(b, c);
      GetAt(b, i);
      GetAt(s, i);
      HasAt(s, i);
    } else {
      GetMissing(b, c);
      if Has(s, c) {
        var i := IndexOf(s, c);
        HasAt(b, i);
      }
      GetMissing(s, c);
    }
  }

  /** The weighting prelude: each voter's ballot with every score multiplied
      by that voter's weight. Voters keep their place in the map. */
  function Weigh(vm: VoteMap, w: Weights): (r: VoteMap)
    ensures |r| == |vm|
    ensures forall i :: 0 <= i < |vm| ==> r[i].key == vm[i].key
    ensures forall i, c :: 0 <= i < |vm| ==> Get(r[i].value, c) == Get(vm[i].value, c) * WeightOf(w, vm[i].key)
    ensures forall i, c :: 0 <= i < |vm| ==> (Has(r[i].value, c) <==> Has(vm[i].value, c))
  {
    var r := seq(|vm|, i requires 0 <= i < |vm| => Entry(vm[i].key, Scale(vm[i].value, WeightOf(w, vm[i].key))));
    assert forall i :: 0 <= i < |vm| ==> r[i].value == Scale(vm[i].value, WeightOf(w, vm[i].key));
    forall i, c | 0 <= i < |vm|
      ensures Get(r[i].value, c) == Get(vm[i].value, c) * WeightOf(w, vm[i].key)
      ensures Has(r[i].value, c) <==> Has(vm[i].value, c)
    {
      ScaleFacts(vm[i].value, WeightOf(w, vm[i].key), c);
    }
    r
  }

  /** A voter of weight 0 (in particular one absent from the weight table,
      see GetMissing) scores 0 for every candidate once weighted. */
  lemma UnweightedVoterScoresZero(vm: VoteMap, w: Weights, i: nat)
    requires i < |vm| && WeightOf(w, vm[i].key) == 0.0
    ensures forall c :: Get(Weigh(vm, w)[i].value, c) == 0.0
    ensures forall j :: 0 <= j < |Weigh(vm, w)[i].value| ==> Weigh(vm, w)[i].value[j].value == 0.0
  {
    var b := Weigh(vm, w)[i].value;
    forall j | 0 <= j < |b| ensures b[j].value == 0.0 {
      GetAt(b, j);
    }
  }

  /** Some ballot names candidate c (with any score). */
  predicate Mentions(vm: VoteMap, c: Candidate)
    decreases |vm|
  {
    |vm| > 0 && (Has(vm[0].value, c) || Mentions(vm[1..], c))
  }

  lemma {:induction false} MentionsWeighed(vm: VoteMap, w: Weights, c: Candidate)
    ensures Mentions(Weigh(vm, w), c) <==> Mentions(vm, c)
    decreases |vm|
  {
    if |vm| > 0 {
      MentionsWeighed(vm[1..], w, c);
      assert Weigh(vm, w)[1..] == Weigh(vm[1..], w);
    }
  }

  lemma {:induction false} MentionsAt(vm: VoteMap, i: nat, c: Candidate)
    requires i < |vm| && Has(vm[i].value, c)
    ensures Mentions(vm, c)
    decreases i
  {
    if i > 0 {
      MentionsAt(vm[1..], i - 1, c);
    }
  }

  lemma WeighAt(vm: VoteMap, w: Weights, i: nat)
    requires i < |vm|
    ensures Weigh(vm, w)[i] == Entry(vm[i].key, Scale(vm[i].value, WeightOf(w, vm[i].key)))
  {
  }

  /** Weighting and then dropping a voter is dropping the voter and then weighting. */
  lemma {:induction false} WeighRemove(vm: VoteMap, w: Weights, v: Voter)
    ensures Weigh(Remove(vm, v), w) == Remove(Weigh(vm, w), v)
    decreases |vm|
  {
    if |vm| > 0 {
      var vs := Weigh(vm, w);
      assert vs[1..] == Weigh(vm[1..], w);
      if vm[0].key != v {
        WeighRemove(vm[1..], w, v);
        var r := Remove(vm, v);
        assert r == [vm[0]] + Remove(vm[1..], v);
        WeighAt(vm, w, 0);
        WeighAt(r, w, 0);
        assert Weigh(r, w)[1..] == Weigh(r[1..], w);
        assert r[1..] == Remove(vm[1..], v);
      }
    }
  }

  /** A voter map without voter i still names every candidate it named,
      except possibly those only voter i named. */
  lemma {:induction false} MentionsRemove(vm: VoteMap, i: nat, c: Candidate)
    requires i < |vm|
    ensures Mentions(vm, c) <==> Mentions(Remove(vm, vm[i].key), c) || Has(vm[i].value, c)
    decreases i
  {
    if i > 0 {
      MentionsRemove(vm[1..], i - 1, c);
      var r := Remove(vm, vm[i].key);
      assert r[1..] == Remove(vm[1..], vm[i].key);
    }
  }

  /** Inner loop of the roll call (e.g. lines 159-164 and 235-240): enter every candidate of one ballot with count 0. */
  function Enrol(acc: Scores, b: Ballot): Scores
    decreases |b|
  {
    if |b| == 0 then acc else Enrol(Put(acc, b[0].key, 0.0), b[1..])
  }

  /** The roll call of BordaCount and InstantRunoff: the candidates of the election, every one with count 0. */
  function Roll(acc: Scores, vs: VoteMap): Scores
    decreases |vs|
  {
    if |vs| == 0 then acc else Roll(Enrol(acc, vs[0].value), vs[1..])
  }

  lemma {:induction false} EnrolFacts(acc: Scores, b: Ballot)
    ensures forall c :: Has(Enrol(acc, b), c) <==> Has(acc, c) || Has(b, c)
    ensures (forall c :: Get(acc, c) == 0.0) ==> forall c :: Get(Enrol(acc, b), c) == 0.0
    decreases |b|
  {
    if |b| > 0 {
      var acc' := Put(acc, b[0].key, 0.0);
      PutFacts(acc, b[0].key, 0.0);
      forall c ensures Get(acc', c) == if c == b[0].key then 0.0 else Get(acc, c) {
        GetPut(acc, b[0].key, 0.0, c);
      }
      EnrolFacts(acc', b[1..]);
      forall c ensures Has(b, c) <==> c == b[0].key || Has(b[1..], c) {
        TailHas(b, c);
      }
    }
  }

  /** The roll call holds exactly the candidates named on some ballot, all at 0. */
  lemma {:induction false} RollFacts(acc: Scores, vs: VoteMap)
    ensures forall c :: Has(Roll(acc, vs), c) <==> Has(acc, c) || Mentions(vs, c)
    ensures (forall c :: Get(acc, c) == 0.0) ==> forall c :: Get(Roll(acc, vs), c) == 0.0
    decreases |vs|
  {
    if |vs| > 0 {
      EnrolFacts(acc, vs[0].value);
      RollFacts(Enrol(acc, vs[0].value), vs[1..]);
    }
  }

  /** The roll call of the weighted ballots names exactly the candidates the ballots name. */
  lemma OnTheRoll(vm: VoteMap, w: Weights)
    ensures forall c :: Has(Roll([], Weigh(vm, w)), c) <==> Mentions(vm, c)
  {
    RollFacts([], Weigh(vm, w));
    forall c ensures Mentions(Weigh(vm, w), c) <==> Mentions(vm, c) {
      MentionsWeighed(vm, w, c);
    }
  }

  /** Every ballot of a vote map scaled by one factor. */
  function Rescale(vs: VoteMap, k: real): (r: VoteMap)
    ensures |r| == |vs|
    ensures forall i :: 0 <= i < |vs| ==> r[i] == Entry(vs[i].key, Scale(vs[i].value, k))
  {
    seq(|vs|, i requires 0 <= i < |vs| => Entry(vs[i].key, Scale(vs[i].value, k)))
  }

  lemma RescaleTail(vs: VoteMap, k: real)
    requires |vs| > 0
    ensures Rescale(vs, k)[1..] == Rescale(vs[1..], k)
  {
  }

  /** Scaling twice is scaling by the product. */
  lemma ScaleScale(b: Ballot, x: real, y: real)
    ensures Scale(Scale(b, x), y) == Scale(b, x * y)
  {
    var l := Scale(Scale(b, x), y);
    var r := Scale(b, x * y);
    forall i | 0 <= i < |b| ensures l[i] == r[i] {
      var m := Scale(b, x);
      assert m[i].key == b[i].key && m[i].value == b[i].value * x;
      assert l[i].key == r[i].key;
      assert b[i].value * x * y == b[i].value * (x * y);
      assert l[i].value == r[i].value;
    }
  }

  /** Multiplying every weight by k multiplies every weighted score by k. */
  lemma WeighScaled(vm: VoteMap, w: Weights, k: real)
    ensures Weigh(vm, Scale(w, k)) == Rescale(Weigh(vm, w), k)
  {
    var l := Weigh(vm, Scale(w, k));
    var r := Rescale(Weigh(vm, w), k);
    forall i | 0 <= i < |vm| ensures l[i] == r[i] {
      var v := vm[i].key;
      var wt := WeightOf(w, v);
      ScaleFacts(w, k, v);
      assert WeightOf(Scale(w, k), v) == wt * k;
      WeighAt(vm, Scale(w, k), i);
      WeighAt(vm, w, i);
      ScaleScale(vm[i].value, wt, k);
      assert l[i] == Entry(v, Scale(vm[i].value, wt * k));
      assert r[i] == Entry(v, Scale(Scale(vm[i].value, wt), k));
    }
  }

  /** A map with the keys of t and k times its lookups is t scaled by k. */
  lemma ScaleExt(l: Scores, t: Scores, k: real)
    requires forall c :: Has(l, c) <==> Has(t, c)
    requires forall c :: Get(l, c) == Get(t, c) * k
    ensures l == Scale(t, k)
  {
    forall c ensures (Has(l, c) <==> Has(Scale(t, k), c)) && Get(l, c) == Get(Scale(t, k), c) {
      ScaleFacts(t, k, c);
    }
    ScoresExt(l, Scale(t, k));
  }

  lemma ScaleTail(t: Scores, k: real)
    requires |t| > 0
    ensures Scale(t, k)[1..] == Scale(t[1..], k)
  {
    var s := Scale(t, k);
    var l := s[1..];
    var r := Scale(t[1..], k);
    forall i | 0 <= i < |l| ensures l[i] == r[i] {
      assert l[i] == s[i + 1];
      assert s[i + 1].key == t[i + 1].key && s[i + 1].value == t[i + 1].value * k;
      assert r[i].key == t[1..][i].key && r[i].value == t[1..][i].value * k;
      assert l[i].key == r[i].key;
      assert l[i].value == r[i].value;
    }
  }

  /** Crediting y = x * k to the scaled map is scaling the map after crediting x. */
  lemma CreditScaled(t: Scores, c: Candidate, x: real, y: real, k: real)
    requires y == x * k
    ensures Credit(Scale(t, k), c, y) == Scale(Credit(t, c, x), k)
  {
    var l := Credit(Scale(t, k), c, y);
    var m := Credit(t, c, x);
    CreditFacts(Scale(t, k), c, y);
    CreditFacts(t, c, x);
    ScaleFacts(t, k, c);
    forall d ensures (Has(l, d) <==> Has(m, d)) && Get(l, d) == Get(m, d) * k {
      ScaleFacts(t, k, d);
      if d == c {
        assert Get(t, c) * k + x * k == (Get(t, c) + x) * k;
      }
    }
    ScaleExt(l, m, k);
  }
}
